=== FILE: README.md ===
# ModelSmith record and service layer in Dafny

ModelSmith is a desktop tool for managing machine-learning work. It tracks imported datasets,
experiments run on them, the trained models those experiments produce, and per-item annotations
(labels) on the datasets. Under its GUI sits a small service and record layer. This project
models that layer and proves properties of it:

- the four persisted records (Dataset, Experiment, Model, Annotation), their defaults and their
  `to_dict`/`from_dict` row encoding;
- the SQLite record store, with its create, get, update and delete statements, the cascading
  deletes and the ordered listings;
- the dataset service: classifying an imported path, profiling CSV, JSON and image-folder data,
  the version bump on update and refresh, table loading, target-column detection, class
  distribution and statistics;
- the experiment service: the lifecycle steps, metric and parameter logging, comparison,
  best-run selection and search;
- the model registry: registration, metadata updates, search, latest version by name and the
  patch-version increment;
- the labeling service: adding, editing, looking up and bulk-adding annotations, labeling
  statistics, CSV and JSON export and import, and the list of unlabeled items.

Modules follow the source files:

| Module | File | Models |
|---|---|---|
| `Records` | `records.dfy` | `database/models.py` |
| `Store` | `store.dfy` | `database/db_manager.py` |
| `Datasets` | `datasets.dfy` | `services/dataset_service.py` |
| `Experiments` | `experiments.dfy` | `services/experiment_service.py` |
| `Registry` | `registry.dfy` | `services/model_service.py` |
| `Labeling` | `labeling.dfy` | `services/labeling_service.py` |

Three helper modules support them:

- `Wrappers` holds `Option` and `Result`. A raised exception is a `Failure` carrying its message.
- `Text` holds Python's `strip`, ASCII `lower`, `in` on strings, `split` and `join` on one
  separator, `str(int)` and `int(str)`, and code-point string order.
- `Collections` holds order-preserving filtering, stable insertion sort, tallies and map sums.

Modelling choices:

- **JSON text.** A JSON text is represented by the document it denotes, the `Records.Json` tree.
  `json.dumps` of a typed field becomes a conversion into that tree, and `json.loads` becomes its
  partial inverse. Their round trips are proved rather than assumed. The character-level JSON
  grammar is not modelled.
- **The store.** It is four id-keyed maps. Each `with get_connection()` block is one function
  from the old store to the new one. A failing block yields no new store, which models the
  rollback.
- **`Store.Valid`.** This predicate says each key is its record's `id`, which is the PRIMARY KEY
  column. Service operations require it, and every operation preserves it.
- **Generated values.** The uuid, `datetime.now()`, file sizes and filesystem facts are
  parameters.
- **Dataset contents.** What a dataset's path holds is a `Datasets.Env`. It gives the CSV
  reader's result, the file text, `json.loads`, `json_normalize`, `DataFrame.head`, and the
  (directory, file) entries `os.walk` yields. `Datasets.HeadCuts` states what `head` does to a
  frame's shape: the same columns, and at most the requested number of rows.
- **DataFrames.** A pandas DataFrame is a `Datasets.Frame`: its ordered columns, its row count,
  the per-column figures pandas computes, and `statsError`, the exception (if any) that computing a
  column's figures raises — `nunique` on a column of lists raises, for instance.
- **Falsy arguments.** Where the source tests an argument for truthiness (`if metrics:`,
  `tags or []`, `if model_type and ...`), `None` and the empty value behave the same. The model
  uses the empty value for both.
- **Explicit `None`.** Where the source tests `is not None` (`update_model`, `update_label`), the
  model uses `Option`.

## Model

| member | source | states |
|---|---|---|
| Records.DecodeMetrics | database/models.py:108 | reading the metrics column into the typed metrics field succeeds exactly on an object whose values are all numbers, and keeps its keys |
| Records.DecodeStrings | database/models.py:111 | reading a string-list column into its typed field succeeds exactly on an array of strings, and keeps its length |
| Records.MetricsRoundTrip | database/models.py:89-108 | decoding the JSON written for a metrics mapping gives the same mapping back |
| Records.StringsRoundTrip | database/models.py:92-111 | decoding the JSON written for a list of strings gives the same list back |
| Records.DatasetRowKeys | database/models.py:28-42 | `to_dict` writes exactly the twelve columns of the datasets table |
| Records.DatasetRoundTrip | database/models.py:28-61 | `from_dict(to_dict(d))` succeeds and reproduces every field of a dataset |
| Records.DatasetDefaults | database/models.py:44-61 | a row with only the four required columns reads as a fresh dataset: version 1, zero counts and size, empty schema and labels |
| Records.DatasetMappingPassThrough | database/models.py:58-59 | schema and labels given as mappings rather than JSON text are taken over unchanged |
| Records.DatasetRequiresKeys | database/models.py:49-52 | a row lacking id, name, path or type is rejected, as `data['...']` raises KeyError |
| Records.ExperimentRowKeys | database/models.py:82-98 | `to_dict` writes exactly the fourteen columns of the experiments table |
| Records.ExperimentRoundTrip | database/models.py:82-117 | `from_dict(to_dict(e))` reproduces parameters, metrics, feature columns, tags and every scalar field |
| Records.ExperimentDefaults | database/models.py:100-117 | a row with only the required columns reads as a fresh experiment, whose status is "created" |
| Records.ExperimentFromRequired | database/models.py:101-117 | a row with the required texts and no optional column reads as the constructor with defaults |
| Records.ExperimentRejectsMapping | database/models.py:107 | parameters given as a mapping instead of JSON text make `from_dict` fail, unlike a dataset's schema |
| Records.ModelRowKeys | database/models.py:135-148 | `to_dict` writes exactly the eleven columns of the models table |
| Records.ModelRoundTrip | database/models.py:135-164 | `from_dict(to_dict(m))` reproduces every field of a model |
| Records.ModelDefaults | database/models.py:150-164 | a row with only the required columns reads as a fresh model, whose version is "1.0.0" |
| Records.ModelFromRequired | database/models.py:151-164 | a row with the required texts and no optional column reads as the constructor with defaults |
| Records.AnnotationRowKeys | database/models.py:180-191 | `to_dict` writes exactly the nine columns of the annotations table |
| Records.AnnotationRoundTrip | database/models.py:180-205 | `from_dict(to_dict(a))` reproduces every field of an annotation |
| Records.AnnotationDefaults | database/models.py:193-205 | a row with only id, dataset_id and item_index reads as an annotation with empty path, label, tags and metadata |
| Store.CreateDataset | database/db_manager.py:153-164 | the insert succeeds iff the id is new; afterwards `get` finds the dataset, and every other record and table is unchanged |
| Store.CreateExperiment | database/db_manager.py:206-217 | the insert succeeds iff the id is new; only that experiment is added |
| Store.CreateModel | database/db_manager.py:269-280 | the insert succeeds iff the id is new; only that model is added |
| Store.CreateAnnotation | database/db_manager.py:331-342 | the insert succeeds iff the id is new; only that annotation is added |
| Store.UpdateDataset | database/db_manager.py:183-195 | the stored dataset with that id is replaced by the argument; an unknown id leaves the store as it was; the argument is returned |
| Store.UpdateExperiment | database/db_manager.py:246-258 | the same replace-or-nothing behaviour for experiments |
| Store.UpdateModel | database/db_manager.py:309-321 | the same replace-or-nothing behaviour for models |
| Store.UpdateAnnotation | database/db_manager.py:354-366 | the same replace-or-nothing behaviour for annotations |
| Store.GetReturnsRequestedId | database/db_manager.py:166-174 | in a valid store, `get` finds a record only under its own id |
| Store.Without | database/db_manager.py:201-202 | a `DELETE ... WHERE` keeps exactly the rows outside the deleted key set, unchanged |
| Store.DeleteDataset | database/db_manager.py:197-203 | removes the dataset and exactly the annotations carrying its id, even when the dataset did not exist; reports whether the dataset existed; other tables unchanged |
| Store.DeleteExperiment | database/db_manager.py:260-266 | removes the experiment and exactly its models; reports whether the experiment existed |
| Store.DeleteModel | database/db_manager.py:323-328 | removes only that model; reports whether it existed |
| Store.DeleteAnnotation | database/db_manager.py:368-373 | removes only that annotation; reports whether it existed |
| Store.DeleteAnnotationsByDataset | database/db_manager.py:375-380 | removes exactly the dataset's annotations and returns how many went; other datasets' annotations stay |
| Store.DatasetOrderIsPreorder | database/db_manager.py:180 | newest-first `created_at` order is a total preorder, so sorting by it is well defined |
| Store.ExperimentOrderIsPreorder | database/db_manager.py:233 | newest-first `timestamp` order is a total preorder |
| Store.ModelOrderIsPreorder | database/db_manager.py:296 | newest-first `created_at` order on models is a total preorder |
| Store.Select | database/db_manager.py:344-352 | a filtered, ordered SELECT returns each matching row once, and is sorted |
| Store.AllDatasets | database/db_manager.py:176-181 | lists every dataset once, newest first |
| Store.AllExperiments | database/db_manager.py:229-234 | lists every experiment once, newest first |
| Store.ExperimentsByDataset | database/db_manager.py:236-244 | lists exactly the dataset's experiments, each once, newest first |
| Store.AllModels | database/db_manager.py:292-297 | lists every model once, newest first |
| Store.ModelsByExperiment | database/db_manager.py:299-307 | lists exactly the experiment's models, each once, newest first |
| Store.AnnotationsByDataset | database/db_manager.py:344-352 | lists exactly the dataset's annotations, each once, ascending by item_index |
| Datasets.BaseName | services/dataset_service.py:62-63 | `os.path.basename`: a '/'-free suffix of the path that follows its last '/'; a path without '/' is its own base name |
| Datasets.Extension | services/dataset_service.py:52 | `splitext` gives either nothing or a suffix starting with its only '.' |
| Datasets.ExtensionOf | services/dataset_service.py:52 | for a stem that is not all dots, the extension of `stem.ext` is `.ext` |
| Datasets.ClassifyPath | services/dataset_service.py:44-58 | a missing path raises "Path not found"; a directory is "images"; a lower-cased .csv/.tsv is "csv" and .json/.jsonl is "json"; any other extension raises "Unsupported file type" |
| Datasets.ClassifyByExtension | services/dataset_service.py:52-58 | a file `dir/stem.ext` is classified by its extension, whatever its case |
| Datasets.FileExtensionOf | services/dataset_service.py:52 | the extension of `dir/stem.ext` is `.ext` |
| Datasets.DefaultName | services/dataset_service.py:62-63 | a given name is kept; otherwise the name is the path's base name, the whole path when it has no '/' |
| Datasets.AnalyzeImages | services/dataset_service.py:129-152 | counts only files with an image extension; the schema's keys are exactly their classes ("root" for top-level files); each count is at least 1; the counts sum to row_count; column_count is the number of classes |
| Datasets.ImageCountsAddUp | services/dataset_service.py:143-147 | the per-class counts add up to the number of images |
| Datasets.ClassKeys | services/dataset_service.py:137-144 | the classes counted are exactly those of the image entries, each at least once |
| Datasets.LayoutOfArray | services/dataset_service.py:109-114 | a file whose first line, after leading blanks, starts with '[' is read as one array document |
| Datasets.StripSkipsBlanks | services/dataset_service.py:109 | stripping skips leading blanks, keeping the first non-blank character in front |
| Datasets.NonBlankLines | services/dataset_service.py:117 | the JSON-lines reader takes exactly the lines that do not strip to nothing |
| Datasets.ParseEach | services/dataset_service.py:117 | parsing a list of lines fails iff some line fails, and otherwise keeps them in order |
| Datasets.ReadJsonData | services/dataset_service.py:107-117 | an array layout parses the whole text; otherwise each non-blank line is parsed and the documents are listed in order |
| Datasets.DtypeSchema | services/dataset_service.py:98 | the schema has exactly one entry per frame column |
| Datasets.CsvCounts | services/dataset_service.py:92-98 | fails iff either CSV read fails; otherwise takes the full file's counts and dtypes |
| Datasets.JsonCounts | services/dataset_service.py:106-123 | read or parse errors propagate; data that is not a non-empty list leaves the record as it is; otherwise takes the normalised frame's counts |
| Datasets.FailSoft | services/dataset_service.py:99-100 | on an error the counts and schema are kept and the description becomes "Error analyzing: " plus the message |
| Datasets.AnalyzeDataset | services/dataset_service.py:80-88 | dispatches on the type, never fails, and changes only counts, schema and description |
| Datasets.JsonParseErrorIsSoft | services/dataset_service.py:104-127 | a JSON file that cannot be parsed leaves its counts and reports the error in the description |
| Datasets.ImportDataset | services/dataset_service.py:31-78 | succeeds exactly when the path classifies and the id is new, failing with the classification's error or the id-uniqueness error; the stored record is the analysis of the new record (new id, path, default name, version 1, given size, chosen type); other datasets and tables are unchanged |
| Datasets.UpdateDataset | services/dataset_service.py:178-191 | the version goes up by one exactly when asked; nothing else of the record changes; other datasets and the other tables are unchanged; an unknown id stores nothing |
| Datasets.RefreshDataset | services/dataset_service.py:193-212 | an unknown id raises "Dataset not found"; otherwise the stored record is the re-analysis of the old one, one version above it; other datasets and tables are unchanged |
| Datasets.Kept | services/dataset_service.py:256-259 | a zero or absent limit keeps every row; otherwise at most `limit` rows are kept |
| Datasets.ImageRows | services/dataset_service.py:243-259 | one row per image, in walk order, up to the limit, each with its file name and class |
| Datasets.ImageFrame | services/dataset_service.py:261 | the image table has the columns filename, path and class, or none when empty |
| Datasets.LoadFrame | services/dataset_service.py:214-263 | CSV is the reader's result with the limit; images always load, one frame row per image row found; any other type besides JSON raises "Unknown dataset type" |
| Datasets.LoadFrameBranches | services/dataset_service.py:225-250 | a JSON file fails with the read, parse or normalisation error, otherwise it is the normalised frame passed through `head` exactly when a non-zero limit is given; an image folder is the frame of its image rows |
| Datasets.JsonLoadKeepsLimit | services/dataset_service.py:236-240 | a JSON file that normalises loads with the normalised frame's columns and its first `limit` rows, all of them with no limit or a zero one |
| Datasets.FirstMatch | services/dataset_service.py:334-336 | the first column that the candidate matches case-insensitively as a substring, or none |
| Datasets.TargetCandidate | services/dataset_service.py:332-336 | the earliest candidate name that matches some column; every earlier candidate matches none |
| Datasets.DetectTargetColumn | services/dataset_service.py:326-349 | the first column matching the earliest candidate; otherwise "class" for images; otherwise the last column; None with no columns or when loading fails |
| Datasets.DetectTargetExample | services/dataset_service.py:332-336 | for the columns id, age, Target_Label, income, the target found is "Target_Label" |
| Datasets.ImageTargetIsClass | services/dataset_service.py:332-336 | an image table's target is its "class" column, found by the third candidate |
| Datasets.TargetCandidateThird | services/dataset_service.py:333-336 | when the first two candidates match nothing and the third matches, the third is chosen |
| Datasets.ClassDistribution | services/dataset_service.py:351-368 | a load failure gives {}; a target that is a column gives its value counts; otherwise an image dataset gives its schema and any other dataset gives {} |
| Datasets.ImageDistributionMatchesAnalysis | services/dataset_service.py:351-363 | for an image folder with at least one image, the detected class distribution equals the schema a fresh analysis stores |
| Datasets.DetectImageTarget | services/dataset_service.py:329-336 | an image folder with at least one image has "class" as its detected target |
| Datasets.ImageFrameColumns | services/dataset_service.py:241-261 | an image folder with an image loads as the three-column table |
| Datasets.KeptPositive | services/dataset_service.py:238-239 | a zero limit counts as no limit, so a limit never empties a non-empty table |
| Datasets.ImageRowsNonEmpty | services/dataset_service.py:248-255 | any image yields at least one row, whatever the limit |
| Datasets.ImageClassColumn | services/dataset_service.py:246-254 | without a limit, the class column lists every image's class in walk order |
| Datasets.StatsOf | services/dataset_service.py:293-307 | the dtype is kept; numeric columns pass the profile's mean, std, min, max and median through, all null exactly when the column holds no value; other columns get the profile's unique count and top values |
| Datasets.StatsByColumn | services/dataset_service.py:292-309 | one statistics entry for each given column and none for any other |
| Datasets.FailingColumn | services/dataset_service.py:292-309 | the position of the first column whose figures raise, or the column count when none does: every column before it computes cleanly |
| Datasets.TableStatistics | services/dataset_service.py:290-322 | the per-column loop keeps the entries of the columns before the first failing one; with no failing column the error is absent and the missing counts are recorded, otherwise the missing counts stay empty and the error is that column's exception |
| Datasets.MissingCounts | services/dataset_service.py:311-316 | lists exactly the columns with a missing count above 0, with that count |
| Datasets.GetStatistics | services/dataset_service.py:265-324 | never fails: the basic figures are the stored ones; a load error is recorded under `error` with the other parts empty; a loaded table gets the per-column loop's outcome (complete, or stopped at the first failing column); image folders get the schema as class distribution |
| Datasets.StatisticsCleanIff | services/dataset_service.py:287-322 | for a table, `error` is absent exactly when the load succeeds and no column's figures raise |
| Datasets.ListColumnStopsStatistics | services/dataset_service.py:303-322 | a clean column followed by a list column whose `nunique` raises: only the first column's entry survives, the missing counts stay empty, and the exception is the error |
| Experiments.CreateExperiment | services/experiment_service.py:47-60 | succeeds iff the id is new; status "created", no metrics, the given fields, and only that experiment added |
| Experiments.StartExperiment | services/experiment_service.py:74-81 | an unknown id raises; otherwise status "running" and a new timestamp, whatever the prior status, with nothing else changed |
| Experiments.WithMetrics | services/experiment_service.py:96 | the merged metrics hold the union of keys, new values winning and old values kept elsewhere |
| Experiments.LogMetrics | services/experiment_service.py:83-98 | an unknown id raises; otherwise the stored record with merged metrics is written back, with nothing else changed |
| Experiments.LogParameters | services/experiment_service.py:100-115 | an unknown id raises; otherwise the stored record with merged parameters is written back |
| Collections.DictUpdate | services/experiment_service.py:113 | `dict.update`: the result holds the keys of both maps, the new value wherever one is given and the old value elsewhere |
| Experiments.CompleteExperiment | services/experiment_service.py:117-145 | status "completed" and the duration set; metrics merged; notes replaced only by non-empty notes; an unknown id raises |
| Experiments.FailExperiment | services/experiment_service.py:147-154 | status "failed" and the notes exactly "Failed: " plus the message, overwriting the old notes |
| Experiments.NoStatusGuard | services/experiment_service.py:74-154 | from any stored state, complete then fail then start all succeed, since no transition is checked |
| Experiments.CompleteKeepsLogged | services/experiment_service.py:140-143 | completing with no metrics and no notes keeps the logged metrics and the notes |
| Experiments.Resolved | services/experiment_service.py:170-174 | the ids kept are exactly those that resolve, in input order |
| Experiments.Table | services/experiment_service.py:180-205 | the keys are the union over the experiments; each maps every experiment id to its value or None |
| Experiments.CompareExperiments | services/experiment_service.py:170-208 | unknown ids are skipped; no resolved ids gives the empty comparison; otherwise one summary per resolved id and the union tables of metrics and parameters |
| Experiments.CompareReportsValues | services/experiment_service.py:198-201 | each resolved experiment's logged metric is reported under its own id |
| Experiments.BestIndex | services/experiment_service.py:229-250 | none iff no completed run has the metric; otherwise an eligible run that no eligible run beats, and strictly better than every eligible run before it, so the first wins ties |
| Experiments.GetBestExperiment | services/experiment_service.py:227-250 | None iff the dataset has no completed run with the metric; otherwise such a run that no other such run beats |
| Experiments.Search | services/experiment_service.py:273-300 | an order-preserving subsequence holding exactly the matching experiments, with their multiplicities |
| Experiments.SearchExperiments | services/experiment_service.py:271-300 | every stored experiment that matches, each once, newest first |
| Experiments.SearchWithoutFilters | services/experiment_service.py:276-296 | with no filter set, every experiment is kept |
| Experiments.SearchConjunctive | services/experiment_service.py:276-281 | filtering by model type then by status is the same as filtering by both |
| Registry.RegisterModel | services/model_service.py:48-68 | succeeds iff the id is new; the version defaults to "1.0.0"; the given metrics, tags and other fields are stored |
| Registry.Annotated | services/model_service.py:105-110 | notes and tags are replaced only when given; metrics are merged with new values winning; nothing else changes |
| Registry.UpdateModel | services/model_service.py:101-112 | an unknown id raises; otherwise the edited model is written back, with nothing else changed |
| Registry.ModelWithExperiment | services/model_service.py:125-134 | None for an unknown model; otherwise the model and its experiment lookup, which may be None |
| Registry.Search | services/model_service.py:153-178 | an order-preserving subsequence holding exactly the matching models |
| Registry.SearchModels | services/model_service.py:153-178 | every stored model that matches, each once, newest first |
| Registry.MissingMetricFails | services/model_service.py:170 | a metric a model lacks counts as 0, so a positive minimum on it excludes the model |
| Registry.LatestIndex | services/model_service.py:184-190 | none iff no model has the name; otherwise a model of that name with the greatest version in string order, strictly above every earlier one (a stable descending sort) |
| Registry.GetLatestVersion | services/model_service.py:180-190 | None iff no model has the name; otherwise a model of that name whose version no model of that name exceeds in string order, and among those of that version none was created later |
| Registry.StringOrderIsNotNumeric | services/model_service.py:188-189 | in plain string order "1.0.10" sorts below "1.0.9" |
| Registry.NextVersion | services/model_service.py:202-207 | a version without three dot-separated parts gets ".1" appended; with three parts, it fails iff `int()` rejects the third |
| Registry.NextVersionBumpsPatch | services/model_service.py:202-205 | a three-part version keeps its first two parts and its patch number rises by one |
| Registry.SplitThree | services/model_service.py:202-205 | three dot-free parts joined with '.' split back into those parts |
| Registry.NoDotInNumber | services/model_service.py:204 | `str(n)` contains no '.', so the bumped version still has three parts |
| Registry.NextVersionAddsPart | services/model_service.py:206-207 | a version without three parts gains the part "1" ("1.0" becomes "1.0.1") |
| Registry.NextVersionTwice | services/model_service.py:201-205 | two increments raise the patch number by two |
| Registry.IncrementVersion | services/model_service.py:192-209 | an unknown id or an unreadable patch number raises; otherwise only the version changes |
| Labeling.EntryAnnotation | services/labeling_service.py:46-54 | the annotation has the given dataset, item index and label; an omitted path, tags or metadata becomes empty |
| Labeling.AddLabel | services/labeling_service.py:23-56 | succeeds iff the id is new; stores exactly that annotation |
| Labeling.BulkLabel | services/labeling_service.py:126-138 | one annotation per entry, in input order, each built from its entry; the store gains exactly those |
| Labeling.FreshTail | services/labeling_service.py:127-135 | after one add, the remaining ids are still fresh |
| Labeling.BulkStep | services/labeling_service.py:127-136 | one add followed by the rest stores each annotation under its own id |
| Labeling.Relabeled | services/labeling_service.py:80-87 | label and tags are replaced only when given; given metadata is merged key by key; updated_at becomes the new time; nothing else changes |
| Labeling.UpdateLabel | services/labeling_service.py:58-89 | an unknown id raises "Annotation not found"; otherwise the edited record is written back with its dataset and item index unchanged |
| Labeling.RelabeledMetadataTwice | services/labeling_service.py:84-85 | two metadata updates equal one update with the two maps merged |
| Labeling.FirstWithIndex | services/labeling_service.py:102-105 | the first position with that item index, or none when there is none |
| Labeling.GetAnnotationByIndex | services/labeling_service.py:95-105 | an annotation of the dataset with that item index, and None iff the dataset has none |
| Labeling.DeleteLabel | services/labeling_service.py:107-109 | removes only that annotation; reports whether it existed |
| Labeling.ClearAnnotations | services/labeling_service.py:284-286 | removes exactly the dataset's annotations and returns their number |
| Labeling.LabelsOf | services/labeling_service.py:157-160 | the labels of the annotations, in order |
| Labeling.TagsOf | services/labeling_service.py:163-164 | a tag is listed iff some annotation carries it |
| Labeling.Statistics | services/labeling_service.py:153-175 | every annotation counts as labeled; unlabeled is max(0, rows - labeled); only non-empty labels are counted, each by its multiplicity; tags likewise; the unique counts are the key counts |
| Labeling.Progress | services/labeling_service.py:170 | 0 when there are no rows; otherwise labeled/rows*100, which is at most 100 iff labeled <= rows |
| Labeling.LabelDistributionTotal | services/labeling_service.py:157-168 | the label counts add up to at most the labeled count, and to exactly it when no label is empty |
| Labeling.TagDistributionTotal | services/labeling_service.py:163-164 | the tag counts add up to the number of tag occurrences |
| Labeling.LabelStatistics | services/labeling_service.py:140-175 | a missing dataset gives the error "Dataset not found"; otherwise the statistics over its row count of a list holding each of the dataset's annotations exactly once |
| Labeling.CleanPieces | services/labeling_service.py:276 | the kept tags are stripped and non-empty, and never more than the pieces |
| Labeling.DecodeTags | services/labeling_service.py:270-276 | an empty cell gives no tags; every tag read is stripped and non-empty |
| Labeling.CleanPiecesKeepsClean | services/labeling_service.py:276 | pieces that are already stripped and non-empty all survive |
| Labeling.CleanPiecesComplete | services/labeling_service.py:276 | every piece whose strip is non-empty is kept, stripped |
| Labeling.CleanPiecesSound | services/labeling_service.py:276 | every kept tag is the strip of some piece |
| Labeling.CleanPiecesMembers | services/labeling_service.py:276 | a tag is kept exactly when it is the non-empty strip of some piece |
| Labeling.DecodeTagsMembers | services/labeling_service.py:270-276 | a tag is read from a non-empty cell exactly when it is the non-empty strip of one of its ';'-pieces |
| Labeling.TagsRoundTrip | services/labeling_service.py:270-276 | tags that are non-empty, free of ';' and of surrounding whitespace come back exactly from the CSV cell; `[]` comes back as `[]` |
| Labeling.PaddedStrip | services/labeling_service.py:276 | one blank followed by a non-blank strips to that character |
| Labeling.PaddedTagIsStripped | services/labeling_service.py:276 | a tag with surrounding whitespace does not survive: " a" comes back as "a" |
| Labeling.CsvRow | services/labeling_service.py:219-225 | one cell per header column |
| Labeling.ExportAnnotations | services/labeling_service.py:194-229 | JSON gives one item per annotation and CSV gives the header and one row per annotation, in order; any other format raises "Unsupported format" |
| Labeling.ReadRow | services/labeling_service.py:267-269 | a DictReader row has only header keys, and every header key when the row is complete |
| Labeling.CsvEntry | services/labeling_service.py:270-277 | a missing or non-integer item_index raises; otherwise the label and path default to empty, the tags are the decoded cell, and there is no metadata |
| Labeling.JsonEntry | services/labeling_service.py:254-262 | an item is read exactly when it is an object with an integer item_index and well-typed optional fields; label and path default to empty text, tags and metadata to absent |
| Labeling.ReadEntries | services/labeling_service.py:254-278 | items are read in order up to the first that fails, whose error is reported |
| Labeling.ImportEntries | services/labeling_service.py:254-278 | the annotations added are those of the items before the first bad one, in order, each stored under its id; the error is that item's; nothing else changes |
| Labeling.ImportAnnotations | services/labeling_service.py:231-282 | JSON and CSV files are imported item by item; a JSON document that is not iterable raises before anything is added, as does any other format ("Unsupported format"); a non-empty object or string stops at its first item with nothing added |
| Labeling.WalkJson | services/labeling_service.py:252-254 | a list yields its items, an empty object or string yields nothing, a non-empty one fails at its first item, and a number, boolean or null is not iterable |
| Labeling.ObjectImportAddsNothing | services/labeling_service.py:250-263 | an object document adds no annotation and leaves the annotations as they were; only an empty one imports without error |
| Labeling.JsonItemRoundTrip | services/labeling_service.py:254-262 | an exported JSON item imports as the annotation's index, label, path, tags and metadata |
| Labeling.ReadRowLookup | services/labeling_service.py:267-269 | with distinct column names, every column maps to its own cell |
| Labeling.ReadExportedRow | services/labeling_service.py:267-275 | reading an exported row against the header gives each column its cell |
| Labeling.CsvRowRoundTrip | services/labeling_service.py:269-277 | an exported CSV row with clean tags imports as the annotation's index, label, path and tags |
| Labeling.ReadTable | services/labeling_service.py:267-269 | one DictReader row per data row, in order |
| Labeling.CsvExportImport | services/labeling_service.py:213-278 | exporting annotations with clean tags as CSV and importing the file adds one annotation per exported one, in order, with the same item index, label, path and tags |
| Labeling.UnlabeledBelow | services/labeling_service.py:293 | strictly ascending, within [0, total), and holding exactly the indices not labeled |
| Labeling.GetUnlabeledIndices | services/labeling_service.py:288-293 | strictly ascending, within [0, total), and holding exactly the indices no annotation of the dataset covers |
| Text.Split | services/model_service.py:202 | `str.split` on one separator gives pieces without the separator that join back to the input |
| Text.SplitJoin | services/model_service.py:202-205 | splitting a join of separator-free parts gives the parts back |
| Text.IntRoundTrip | services/model_service.py:204 | `int(str(n)) == n` for every integer |
| Text.Strip | services/labeling_service.py:276 | the result is empty or starts and ends with a non-blank |
| Text.StripEmpty | services/labeling_service.py:276 | `strip` leaves nothing iff every character is a blank, which is the `if t.strip()` test |
| Text.StripLeftBlank | services/labeling_service.py:276 | a leading blank is removed by the left strip |
| Text.StripLeftStop | services/labeling_service.py:276 | the left strip stops at the first non-blank |
| Text.StripRightStop | services/labeling_service.py:276 | the right strip stops at the last non-blank |
| Text.Contains | services/dataset_service.py:335 | Python's substring test holds iff the needle occurs in the text |
| Text.LexLeTotalTransitive | services/model_service.py:189 | Python's string order is total and transitive |
| Collections.FirstWhere | services/dataset_service.py:292-309 | the first position whose element passes the test, or the length when none does: no element before it passes |
| Collections.Filter | services/experiment_service.py:273-298 | a list comprehension with a condition keeps exactly the passing elements, in order and with their multiplicities |
| Collections.FilterFilter | services/experiment_service.py:276-281 | two filters in a row are one filter by their conjunction |
| Collections.SortBy | database/db_manager.py:180 | sorting yields a sorted permutation of its input |
| Collections.Tally | services/dataset_service.py:144 | the counting dictionary maps each element to its number of occurrences |
| Collections.TallyTotal | services/dataset_service.py:143-147 | the counts of a tally add up to the length of the list |

## Left out

- The PyQt user interface (`ui/`) and `main.py` are not part of this model: they are widget
  trees and navigation with no bookkeeping logic.
- `services/visualization_service.py` is not part of this model: it is plotting only.
- SQL text, connections and the `schema_info` table are not modelled. Each connection block is
  one atomic transition on the maps.
- Foreign keys are declared but SQLite does not enforce them unless a PRAGMA switches them on,
  and the source never does. The model checks no dataset or experiment reference either.
- The `ORDER BY` listings leave the order of rows with equal sort keys unspecified, as SQLite
  does.
- pandas internals are parameters of `Datasets.Env` and `Datasets.Frame`: CSV parsing, dtype
  names, `json_normalize`, the figures of the rows `head` keeps, `value_counts`, which columns' figures raise (`Frame.statsError`), and the float statistics (mean, std, median,
  percentages).
- The percentage in `missing_values` is not modelled; only the missing count is kept.
- The filesystem is a parameter: `os.path.exists`, `isdir`, `getsize`, `_get_directory_size`,
  `os.walk` (given as its list of entries), `os.path.abspath`, and the file reads and writes of
  export, import and `export_report`.
- `export_report` builds HTML text and writes it to a file; only file output happens there, so it
  is left out.
- `verify_model_file` only inspects the filesystem, so it is left out.
- The thin pass-through getters of the services (`get_dataset`, `get_all_models`,
  `get_annotations` and so on) are the store operations they call.
- uuid generation and `datetime.now()` are parameters.
- Labeling.BulkLabel: requires the ids to be pairwise distinct and unused (`FreshIds`). That is
  what fresh uuids give, but it is an assumption about uuid4.
- Labeling.ImportEntries: the same fresh-id assumption applies.
- Labeling.BulkLabel: takes typed `LabelEntry` values, so an entry lacking `item_index` or
  `label` cannot be written. The source would raise KeyError at such an entry, after committing
  the earlier ones. That error path is not modelled here. The same partial commit is modelled for
  file import by `Labeling.ImportEntries`.
- Records.DecodeMetrics: accepts only an object of numbers. `json.loads` accepts any JSON text
  and would put, say, a null metric value into the field unchecked. The model gives the field its
  declared type (name to float) and treats other documents as a failure.
- Records.DecodeObject: accepts only a JSON object. `json.loads` in database/models.py (lines 58-59, 107 and 202)
  stores whatever document the column holds in schema, labels, parameters or metadata. The model
  gives these fields their declared type (a mapping) and treats other documents as a failure.
- Records.DecodeStrings: accepts only an array of strings. `json.loads` would also accept `[1]`
  or any other JSON text for feature columns and tags. The model treats those as a failure, for
  the same reason.
- JSON and CSV text syntax is not modelled. Import receives the document `json.load` returns
  and the rows `csv.DictReader` yields. CSV quoting and rows shorter or longer than the header are not
  modelled.
- Labeling.JsonEntry: rejects an `item_index` that is not a JSON integer, and a label, path, tags
  or metadata value of the wrong JSON type. The source passes such values on unchecked and
  SQLite stores them anyway, so this contract is narrower than the source on ill-typed files.
- Labeling.Progress: computes the exact quotient, while the source computes in floating point.
  It can exceed 100 when an item carries several annotations, because every annotation counts as
  labeled.
- Text.Lower: lower-cases ASCII letters only. Python's `str.lower` also maps other letters.
- Text.Strip: treats the ASCII whitespace characters as blanks. Python also strips Unicode
  spaces.
- Text.ParseInt: accepts what `int()` accepts for ASCII decimal text, meaning surrounding
  whitespace, a sign and single underscores between digits. Other Unicode digits are not
  accepted.
- `update_label` first calls `get_annotations_by_dataset("")` and ignores the result. That
  read has no effect, so it is left out.
- Registry.GetLatestVersion: among models of the same name and version, it states that the one
  returned was created no earlier than the others. Which of several created at the same
  timestamp is returned is not stated, because SQLite leaves their listing order unspecified.
- Experiments.GetBestExperiment: states that the pick is not beaten by any eligible run. Which
  of several tied runs it returns depends on the listing order, which SQLite leaves unspecified
  for equal timestamps. `Experiments.BestIndex` states the first-wins rule on a given list.
- Datasets.TargetCandidate and the other functions over a DataFrame see the frame only through
  its columns and the figures in `Frame`.
- The clock is read by the record constructors' `created_at`/`timestamp` defaults and by
  `from_dict` when that column is missing. `to_dict` writes the stored value. In the model the
  clock is the `now` parameter of `New*` and `*FromRow`.
- `register_model` makes `file_path` absolute and reads the file size. Both are taken as given.

=== FILE: collections.dfy ===
/**
 * Sequence and map helpers shared by the store and the services: order-preserving filtering
 * (Python list comprehensions with an `if`), sorting (SQL `ORDER BY` and `list.sort`),
 * enumeration of a map's entries, and the sum of a map's integer values.
 */
module Collections {
  import opened Wrappers

  // ---------------------------------------------------------------------------
  // subsequences and filtering

  /** `a` is `b` with some elements dropped and the rest kept in order. */
  ghost predicate IsSubsequence<T>(a: seq<T>, b: seq<T>)
    decreases |b|
  {
    if a == [] then true
    else if b == [] then false
    else (a[0] == b[0] && IsSubsequence(a[1..], b[1..])) || IsSubsequence(a, b[1..])
  }

  /** `[x for x in xs if p(x)]`: the elements satisfying `p`, each as often as in `xs`, in their original order. */
  function Filter<T(==,!new)>(xs: seq<T>, p: T -> bool): (r: seq<T>)
    ensures IsSubsequence(r, xs)
    ensures forall x :: multiset(r)[x] == if p(x) then multiset(xs)[x] else 0
    ensures forall x :: x in r <==> x in xs && p(x)
    ensures |r| <= |xs|
  {
    if xs == [] then []
    else
      var rest := Filter(xs[1..], p);
      assert xs == [xs[0]] + xs[1..];
      if p(xs[0]) then
        var r := [xs[0]] + rest;
        assert r[1..] == rest;
        r
      else rest
  }

  /** The index of the first element satisfying `p`, or the length when there is none. */
  function FirstWhere<T>(xs: seq<T>, p: T -> bool): (r: nat)
    ensures r <= |xs|
    ensures forall i :: 0 <= i < r ==> !p(xs[i])
    ensures r < |xs| ==> p(xs[r])
  {
    if xs == [] || p(xs[0]) then 0 else 1 + FirstWhere(xs[1..], p)
  }

  /** `dict.update`: the keys of both maps, the new value wherever one is given, the old one elsewhere. */
  function DictUpdate<K(!new), V>(m: map<K, V>, changes: map<K, V>): (r: map<K, V>)
    ensures forall k :: k in r <==> k in m || k in changes
    ensures forall k :: k in changes ==> r[k] == changes[k]
    ensures forall k :: k in m && k !in changes ==> r[k] == m[k]
  {
    m + changes
  }

  /** An element that passes `p` survives the filter, so the result is not empty. */
  lemma FilterKeeps<T(!new)>(xs: seq<T>, p: T -> bool, x: T)
    requires x in xs && p(x)
    ensures x in Filter(xs, p) && Filter(xs, p) != []
  {
  }

  /** Filtering by `p` and then by `q` is filtering once by their conjunction `both`. */
  lemma {:induction false} FilterFilter<T(!new)>(xs: seq<T>, p: T -> bool, q: T -> bool, both: T -> bool)
    requires forall x :: both(x) == (p(x) && q(x))
    ensures Filter(Filter(xs, p), q) == Filter(xs, both)
  {
    if xs != [] {
      FilterFilter(xs[1..], p, q, both);
      if p(xs[0]) {
        var once := Filter(xs, p);
        assert once == [xs[0]] + Filter(xs[1..], p);
        assert once[1..] == Filter(xs[1..], p);
      }
    }
  }

  /** Predicates that agree on the elements filter alike. */
  lemma {:induction false} FilterAgree<T(!new)>(xs: seq<T>, p: T -> bool, q: T -> bool)
    requires forall x :: x in xs ==> p(x) == q(x)
    ensures Filter(xs, p) == Filter(xs, q)
  {
    if xs != [] {
      assert xs == [xs[0]] + xs[1..];
      FilterAgree(xs[1..], p, q);
    }
  }

  /** A predicate that accepts everything keeps the whole sequence. */
  lemma {:induction false} FilterAll<T(!new)>(xs: seq<T>, p: T -> bool)
    requires forall x :: x in xs ==> p(x)
    ensures Filter(xs, p) == xs
  {
    if xs != [] {
      assert xs == [xs[0]] + xs[1..];
      FilterAll(xs[1..], p);
    }
  }

  /** The images of the kept elements are the images of the elements that pass the test. */
  lemma FilterImage<T(!new), U>(xs: seq<T>, p: T -> bool, f: T -> U)
    ensures (set x | x in Filter(xs, p) :: f(x)) == (set x | x in xs && p(x) :: f(x))
  {
    var kept := Filter(xs, p);
    assert forall x :: x in kept <==> x in xs && p(x);
  }

  /** The position of the first present value. */
  function FirstPresent<T>(xs: seq<Option<T>>): (r: Option<nat>)
    ensures r.None? <==> forall i :: 0 <= i < |xs| ==> xs[i].None?
    ensures r.Some? ==> r.value < |xs| && xs[r.value].Some? && forall k :: 0 <= k < r.value ==> xs[k].None?
  {
    if xs == [] then None
    else if xs[0].Some? then Some(0)
    else
      var rest := FirstPresent(xs[1..]);
      assert forall i :: 1 <= i < |xs| ==> xs[i] == xs[1..][i - 1];
      match rest
      case None => None
      case Some(i) => Some(i + 1)
  }

  /** No element occurs twice. */
  predicate NoDuplicates<T(==)>(s: seq<T>) {
    forall i, j :: 0 <= i < j < |s| ==> s[i] != s[j]
  }

  /** Without duplicates, every element occurs exactly once. */
  lemma {:induction false} NoDuplicatesMultiplicity<T>(s: seq<T>)
    requires NoDuplicates(s)
    ensures forall x :: multiset(s)[x] == if x in s then 1 else 0
  {
    if s != [] {
      var init := s[..|s| - 1];
      assert s == init + [s[|s| - 1]];
      assert NoDuplicates(init);
      NoDuplicatesMultiplicity(init);
      assert s[|s| - 1] !in init;
    }
  }

  // ---------------------------------------------------------------------------
  // sorting

  /** `le` is total and transitive, as every `ORDER BY` and `sort` key order is. */
  ghost predicate TotalPreorder<T(!new)>(le: (T, T) -> bool) {
    && (forall a, b :: le(a, b) || le(b, a))
    && (forall a, b, c :: le(a, b) && le(b, c) ==> le(a, c))
  }

  ghost predicate SortedBy<T>(s: seq<T>, le: (T, T) -> bool) {
    forall i, j :: 0 <= i < j < |s| ==> le(s[i], s[j])
  }

  /** Dropping elements keeps a sequence sorted. */
  lemma {:induction false} SubsequenceSorted<T>(a: seq<T>, b: seq<T>, le: (T, T) -> bool)
    requires IsSubsequence(a, b) && SortedBy(b, le)
    ensures SortedBy(a, le)
    decreases |b|
  {
    if a != [] && b != [] {
      assert SortedBy(b[1..], le);
      if a[0] == b[0] && IsSubsequence(a[1..], b[1..]) {
        SubsequenceSorted(a[1..], b[1..], le);
        SubsequenceMembers(a[1..], b[1..]);
        forall i, j | 0 <= i < j < |a| ensures le(a[i], a[j]) {
          if i == 0 {
            assert a[j] in b[1..];
            var k :| 0 <= k < |b[1..]| && b[1..][k] == a[j];
            assert b[k + 1] == a[j];
          } else {
            assert a[i] == a[1..][i - 1] && a[j] == a[1..][j - 1];
          }
        }
      } else {
        SubsequenceSorted(a, b[1..], le);
      }
    }
  }

  /** Every element of a subsequence is an element of the whole. */
  lemma {:induction false} SubsequenceMembers<T>(a: seq<T>, b: seq<T>)
    requires IsSubsequence(a, b)
    ensures forall x :: x in a ==> x in b
    decreases |b|
  {
    if a != [] && b != [] {
      if a[0] == b[0] && IsSubsequence(a[1..], b[1..]) {
        SubsequenceMembers(a[1..], b[1..]);
        assert a == [a[0]] + a[1..];
        assert b == [b[0]] + b[1..];
      } else {
        SubsequenceMembers(a, b[1..]);
        assert b == [b[0]] + b[1..];
      }
    }
  }

  function Insert<T(==,!new)>(x: T, s: seq<T>, le: (T, T) -> bool): (r: seq<T>)
    requires TotalPreorder(le)
    requires SortedBy(s, le)
    ensures SortedBy(r, le)
    ensures multiset(r) == multiset(s) + multiset{x}
  {
    if s == [] then [x]
    else if le(x, s[0]) then
      BelowHead(x, s, le);
      SortedPrepend(x, s, le);
      [x] + s
    else
      var rest := Insert(x, s[1..], le);
      assert s == [s[0]] + s[1..];
      HeadBelowInsert(x, s, rest, le);
      SortedPrepend(s[0], rest, le);
      [s[0]] + rest
  }

  /** Whatever is below the head of a sorted sequence is below all of it. */
  lemma BelowHead<T(!new)>(x: T, s: seq<T>, le: (T, T) -> bool)
    requires TotalPreorder(le) && SortedBy(s, le)
    requires s != [] && le(x, s[0])
    ensures forall i :: 0 <= i < |s| ==> le(x, s[i])
  {
    forall i | 0 <= i < |s| ensures le(x, s[i]) {
      if i > 0 { assert le(s[0], s[i]); }
    }
  }

  /** The head of a sorted sequence is below everything in its tail with a larger `x` added. */
  lemma HeadBelowInsert<T(!new)>(x: T, s: seq<T>, rest: seq<T>, le: (T, T) -> bool)
    requires TotalPreorder(le) && SortedBy(s, le)
    requires s != [] && !le(x, s[0])
    requires multiset(rest) == multiset(s[1..]) + multiset{x}
    ensures forall i :: 0 <= i < |rest| ==> le(s[0], rest[i])
  {
    forall i | 0 <= i < |rest| ensures le(s[0], rest[i]) {
      assert rest[i] in multiset(rest);
      if rest[i] != x {
        var k :| 0 <= k < |s[1..]| && s[1..][k] == rest[i];
        assert s[k + 1] == rest[i];
      }
    }
  }

  /** An element below every element of a sorted sequence can go in front of it. */
  lemma SortedPrepend<T>(x: T, s: seq<T>, le: (T, T) -> bool)
    requires SortedBy(s, le)
    requires forall i :: 0 <= i < |s| ==> le(x, s[i])
    ensures SortedBy([x] + s, le)
  {
    var r := [x] + s;
    forall i, j | 0 <= i < j < |r| ensures le(r[i], r[j]) {
      assert r[j] == s[j - 1];
      if i > 0 { assert r[i] == s[i - 1]; }
    }
  }

  /** Sorts `s` ascending by `le` (insertion sort; the order of ties is not specified). */
  function SortBy<T(==,!new)>(s: seq<T>, le: (T, T) -> bool): (r: seq<T>)
    requires TotalPreorder(le)
    ensures SortedBy(r, le)
    ensures multiset(r) == multiset(s)
  {
    if s == [] then []
    else
      assert s == [s[0]] + s[1..];
      Insert(s[0], SortBy(s[1..], le), le)
  }

  // ---------------------------------------------------------------------------
  // enumerating a map

  /** The keys of `m`, each once, in an unspecified order. */
  method KeySeq<K, V>(m: map<K, V>) returns (ks: seq<K>)
    ensures forall k :: k in ks <==> k in m
    ensures NoDuplicates(ks)
  {
    ks := [];
    var rest := m.Keys;
    while rest != {}
      invariant rest <= m.Keys
      invariant forall k :: k in ks <==> k in m && k !in rest
      invariant NoDuplicates(ks)
      decreases |rest|
    {
      var k :| k in rest;
      ks := ks + [k];
      rest := rest - {k};
    }
  }

  /** Distinct keys hold distinct values. */
  ghost predicate Injective<K, V>(m: map<K, V>) {
    forall a, b :: a in m && b in m && a != b ==> m[a] != m[b]
  }

  /** The values of `m` in an unspecified order; each occurs once when `m` is injective. */
  method ValueSeq<K, V(==)>(m: map<K, V>) returns (vs: seq<V>)
    ensures forall v :: v in vs <==> v in m.Values
    ensures Injective(m) ==> forall v :: multiset(vs)[v] == if v in m.Values then 1 else 0
  {
    var ks := KeySeq(m);
    vs := seq(|ks|, i requires 0 <= i < |ks| => m[ks[i]]);
    forall v | v in m.Values ensures v in vs {
      var k :| k in m && m[k] == v;
      var i :| 0 <= i < |ks| && ks[i] == k;
      assert vs[i] == v;
    }
    if Injective(m) {
      assert NoDuplicates(vs);
      NoDuplicatesMultiplicity(vs);
    }
  }

  // ---------------------------------------------------------------------------
  // sums of map values

  /** The sum of the values of `m` (Python's `sum(m.values())`). */
  ghost function MapSum<K>(m: map<K, int>): int
    decreases |m|
  {
    if m == map[] then 0
    else
      var k :| k in m;
      m[k] + MapSum(m - {k})
  }

  /** The sum does not depend on which key is taken out first. */
  lemma {:induction false} MapSumRemove<K>(m: map<K, int>, k: K)
    requires k in m
    ensures MapSum(m) == m[k] + MapSum(m - {k})
    decreases |m|
  {
    var j :| j in m && MapSum(m) == m[j] + MapSum(m - {j});
    if j != k {
      var both := m - {j} - {k};
      assert |m - {j}| < |m|;
      MapSumRemove(m - {j}, k);
      assert (m - {j}) - {k} == both;
      MapSumRemove(m - {k}, j);
      assert (m - {k}) - {j} == both;
    }
  }

  /** Incrementing one entry (or adding it at 1) raises the sum by one. */
  lemma MapSumIncrement<K>(m: map<K, int>, k: K)
    ensures MapSum(m[k := (if k in m then m[k] else 0) + 1]) == MapSum(m) + 1
  {
    var m' := m[k := (if k in m then m[k] else 0) + 1];
    MapSumRemove(m', k);
    if k in m {
      MapSumRemove(m, k);
      assert m' - {k} == m - {k};
    } else {
      assert m' - {k} == m;
    }
  }

  /** A map of natural numbers sums to at least zero. */
  lemma {:induction false} MapSumNonNegative<K>(m: map<K, int>)
    requires forall k :: k in m ==> m[k] >= 0
    ensures MapSum(m) >= 0
    decreases |m|
  {
    if m != map[] {
      var k :| k in m;
      MapSumRemove(m, k);
      MapSumNonNegative(m - {k});
    }
  }

  /** `collections.Counter(xs)` (pandas `value_counts`): each distinct element with its number of occurrences. */
  function Tally<T(==,!new)>(xs: seq<T>): (r: map<T, int>)
    ensures forall x :: x in r <==> x in xs
    ensures forall x :: x in r ==> r[x] == multiset(xs)[x]
  {
    if xs == [] then map[]
    else
      var m := Tally(xs[1..]);
      assert xs == [xs[0]] + xs[1..];
      m[xs[0] := (if xs[0] in m then m[xs[0]] else 0) + 1]
  }

  /** The counts of a tally add up to the number of elements counted. */
  lemma {:induction false} TallyTotal<T(!new)>(xs: seq<T>)
    ensures MapSum(Tally(xs)) == |xs|
  {
    if xs != [] {
      var m := Tally(xs[1..]);
      assert Tally(xs) == m[xs[0] := (if xs[0] in m then m[xs[0]] else 0) + 1];
      TallyTotal(xs[1..]);
      MapSumIncrement(m, xs[0]);
    }
  }
}

=== FILE: datasets.dfy ===
/**
 * The dataset service (services/dataset_service.py): classifying an imported path, profiling
 * the data, refreshing, loading it as a table, and the target-column and statistics helpers.
 *
 * The filesystem and pandas are outside the model. What a dataset's path holds is given as an
 * `Env`: the CSV reader's result, the file's text, `json.loads`, `json_normalize`,
 * `DataFrame.head`, and the (directory, file name) entries an `os.walk` of an image folder yields. A pandas DataFrame is
 * a `Frame`: its column names in order, its length, and the per-column figures pandas computes.
 */
module Datasets {
  import opened Wrappers
  import opened Records
  import opened Collections
  import opened Text
  import Store

  const CsvExtensions: seq<string> := [".csv", ".tsv"]
  const JsonExtensions: seq<string> := [".json", ".jsonl"]
  const ImageExtensions: seq<string> := [".jpg", ".jpeg", ".png", ".gif", ".bmp", ".webp"]

  // ---------------------------------------------------------------------------
  // paths

  /** `os.path.basename`: everything after the last '/'. */
  function BaseName(path: string): (r: string)
    ensures '/' !in r
    ensures |r| <= |path| && path[|path| - |r|..] == r
    ensures '/' !in path ==> r == path
    ensures |r| < |path| ==> path[|path| - |r| - 1] == '/'
  {
    match LastIndexOf(path, '/')
    case None => path
    case Some(i) => path[i + 1..]
  }

  /**
   * The extension `os.path.splitext` reports for a file name without '/': from the last '.' to
   * the end, provided some character other than '.' precedes that dot; otherwise empty (so
   * ".bashrc" and "..." have no extension).
   */
  function Extension(name: string): (r: string)
    ensures r == [] || (r[0] == '.' && '.' !in r[1..])
    ensures |r| <= |name| && name[|name| - |r|..] == r
  {
    match LastIndexOf(name, '.')
    case None => ""
    case Some(i) =>
      if exists j :: 0 <= j < i && name[j] != '.' then name[i..] else ""
  }

  /** `os.path.splitext(path)[1]`. */
  function FileExtension(path: string): string {
    Extension(BaseName(path))
  }

  /** A stem that is not all dots, a dot, and a dotless suffix: the suffix is the extension. */
  lemma ExtensionOf(stem: string, ext: string)
    requires exists j :: 0 <= j < |stem| && stem[j] != '.'
    requires '.' !in ext
    ensures Extension(stem + "." + ext) == "." + ext
  {
    var name := stem + "." + ext;
    assert name[|stem|] == '.';
    assert name[|stem| + 1..] == ext;
    var i := LastIndexOf(name, '.').value;
    assert i == |stem|;
    var j :| 0 <= j < |stem| && stem[j] != '.';
    assert name[j] == stem[j];
    assert name[i..] == "." + ext;
  }

  /** `os.path.join(a, b)` on POSIX. */
  function JoinPath(a: string, b: string): (r: string)
    ensures b <= r
      || (a <= r && r[|a|..] == b)
      || (|r| == |a| + 1 + |b| && r[..|a|] == a && r[|a|] == '/' && r[|a| + 1..] == b)
  {
    if |b| > 0 && b[0] == '/' then b
    else if a == [] || a[|a| - 1] == '/' then a + b
    else a + "/" + b
  }

  // ---------------------------------------------------------------------------
  // import-time classification

  /** What `os.path.exists` and `os.path.isdir` report for a path. */
  datatype PathKind = Missing | Directory | RegularFile

  /**
   * The dataset type chosen on import: a folder holds images; a file's lower-cased extension
   * picks CSV or JSON; anything else is refused.
   */
  function ClassifyPath(path: string, on: PathKind): (r: Result<string>)
    ensures on == Missing ==> r == Failure("Path not found: " + path)
    ensures on == Directory ==> r == Success("images")
    ensures on == RegularFile ==>
      var ext := Lower(FileExtension(path));
      && (r.Success? <==> ext in CsvExtensions || ext in JsonExtensions)
      && (r.Success? ==> r.value == (if ext in CsvExtensions then "csv" else "json"))
      && (r.Failure? ==> r.error == "Unsupported file type: " + ext)
  {
    match on
    case Missing => Failure("Path not found: " + path)
    case Directory => Success("images")
    case RegularFile =>
      var ext := Lower(FileExtension(path));
      if ext in CsvExtensions then Success("csv")
      else if ext in JsonExtensions then Success("json")
      else Failure("Unsupported file type: " + ext)
  }

  /** A regular file named `<dir>/<stem>.<ext>` is classified by its extension, whatever its case. */
  lemma ClassifyByExtension(dir: string, stem: string, ext: string)
    requires '/' !in stem && '/' !in ext && '.' !in ext
    requires exists j :: 0 <= j < |stem| && stem[j] != '.'
    ensures var e := "." + Lower(ext);
      ClassifyPath(dir + "/" + stem + "." + ext, RegularFile)
        == if e in CsvExtensions then Success("csv")
           else if e in JsonExtensions then Success("json")
           else Failure("Unsupported file type: " + e)
  {
    LowerExtensionOf(dir, stem, ext);
  }

  lemma LowerExtensionOf(dir: string, stem: string, ext: string)
    requires '/' !in stem && '/' !in ext && '.' !in ext
    requires exists j :: 0 <= j < |stem| && stem[j] != '.'
    ensures Lower(FileExtension(dir + "/" + stem + "." + ext)) == "." + Lower(ext)
  {
    FileExtensionOf(dir, stem, ext);
    LowerDot(ext);
  }

  /** The extension of `<dir>/<stem>.<ext>` is `.<ext>`. */
  lemma FileExtensionOf(dir: string, stem: string, ext: string)
    requires '/' !in stem && '/' !in ext && '.' !in ext
    requires exists j :: 0 <= j < |stem| && stem[j] != '.'
    ensures FileExtension(dir + "/" + stem + "." + ext) == "." + ext
  {
    var name := stem + "." + ext;
    assert dir + "/" + stem + "." + ext == dir + "/" + name;
    BaseNameOf(dir, name);
    ExtensionOf(stem, ext);
  }

  /** Lower-casing leaves the dot of an extension alone. */
  lemma LowerDot(ext: string)
    ensures Lower("." + ext) == "." + Lower(ext)
  {
    LowerAppend(".", ext);
    assert Lower(".") == ".";
  }

  /** The last component of `<dir>/<name>` is `name`. */
  lemma BaseNameOf(dir: string, name: string)
    requires '/' !in name
    ensures BaseName(dir + "/" + name) == name
  {
    var path := dir + "/" + name;
    assert path[|dir|] == '/';
    assert path[|dir| + 1..] == name;
  }

  /** `import_dataset` names the dataset after the path's last component unless a name is given. */
  function DefaultName(path: string, name: Option<string>): (r: string)
    ensures name.Some? ==> r == name.value
    ensures name.None? ==> r == BaseName(path)
    ensures name.None? ==> '/' !in r && |r| <= |path| && path[|path| - |r|..] == r
    ensures name.None? && '/' !in path ==> r == path
  {
    name.GetOr(BaseName(path))
  }

  // ---------------------------------------------------------------------------
  // what pandas and the filesystem provide

  /** Figures pandas computes for one column. */
  datatype ColumnProfile = ColumnProfile(
    dtype: string,
    numeric: bool,
    missing: nat,
    mean: real,
    std: real,
    min: real,
    max: real,
    median: real,
    uniqueCount: nat,
    topValues: map<string, Json>)

  /**
   * A DataFrame: column names in order, row count, per-column figures and `value_counts()`.
   * `statsError` is the exception pandas raises while computing a column's `get_statistics`
   * figures, if any: `nunique` of a column holding lists raises TypeError, for one.
   */
  datatype Frame = Frame(
    columns: seq<string>,
    rowCount: nat,
    profile: string -> ColumnProfile,
    valueCounts: string -> map<string, Json>,
    statsError: string -> Option<string>)

  /** One file found by `os.walk` below a folder: its directory relative to the folder ("." at the top) and its name. */
  datatype ImageEntry = ImageEntry(dir: string, file: string)

  /** One row of the image table `load_data` builds. */
  datatype ImageRow = ImageRow(filename: string, path: string, className: string)

  /**
   * The contents of a dataset's path, as the reading libraries would report them. `readText` is
   * the file's text after Python's universal-newline translation, so "\r\n" and "\r" already
   * read as "\n" and the line functions split on '\n' alone.
   */
  datatype Env = Env(
    readCsv: Option<nat> -> Result<Frame>,
    readText: Result<string>,
    parse: string -> Result<Json>,
    normalize: seq<Json> -> Result<Frame>,
    head: (Frame, nat) -> Frame,
    entries: seq<ImageEntry>,
    describeImages: seq<ImageRow> -> string -> ColumnProfile)

  // ---------------------------------------------------------------------------
  // image folders

  predicate IsImageFile(file: string) {
    Lower(FileExtension(file)) in ImageExtensions
  }

  predicate IsImageEntry(e: ImageEntry) {
    IsImageFile(e.file)
  }

  /** Files at the top of the folder belong to class "root"; the others to their relative directory. */
  function ClassName(dir: string): string {
    if dir == "." then "root" else dir
  }

  function ClassesOf(images: seq<ImageEntry>): (r: seq<string>)
    ensures |r| == |images|
    ensures forall i :: 0 <= i < |images| ==> r[i] == ClassName(images[i].dir)
  {
    seq(|images|, i requires 0 <= i < |images| => ClassName(images[i].dir))
  }

  /** The number of images per class. */
  function ClassCounts(entries: seq<ImageEntry>): map<string, int> {
    Tally(ClassesOf(Filter(entries, IsImageEntry)))
  }

  function CountsAsJson(m: map<string, int>): (r: map<string, Json>)
    ensures r.Keys == m.Keys
  {
    map k | k in m :: JInt(m[k])
  }

  /** The integer total of a mapping whose values are counts. */
  ghost function CountTotal(schema: map<string, Json>): int {
    MapSum(map k | k in schema :: if schema[k].JInt? then schema[k].i else 0)
  }

  /** The record fields an analysis may change are the counts, the schema and the description. */
  predicate SameIdentity(a: Dataset, b: Dataset) {
    && a.id == b.id && a.name == b.name && a.path == b.path && a.kind == b.kind
    && a.createdAt == b.createdAt && a.fileSize == b.fileSize && a.labels == b.labels
    && a.version == b.version
  }

  /**
   * `_analyze_images`: counts the image files (by lower-cased extension) and groups them by
   * class. The schema maps each class to its count, so its counts add up to the row count and
   * its size is the column count.
   */
  function AnalyzeImages(d: Dataset, entries: seq<ImageEntry>): (r: Dataset)
    ensures SameIdentity(r, d) && r.description == d.description
    ensures r.rowCount == |Filter(entries, IsImageEntry)|
    ensures r.schema.Keys == set e | e in entries && IsImageEntry(e) :: ClassName(e.dir)
    ensures forall k :: k in r.schema ==> r.schema[k].JInt? && r.schema[k].i >= 1
    ensures CountTotal(r.schema) == r.rowCount
    ensures r.columnCount == |r.schema|
  {
    var images := Filter(entries, IsImageEntry);
    var counts := ClassCounts(entries);
    var schema := CountsAsJson(counts);
    ImageCountsAddUp(entries);
    ClassKeys(entries);
    d.(rowCount := |images|, columnCount := |counts|, schema := schema)
  }

  lemma ImageCountsAddUp(entries: seq<ImageEntry>)
    ensures CountTotal(CountsAsJson(ClassCounts(entries))) == |Filter(entries, IsImageEntry)|
  {
    var counts := ClassCounts(entries);
    var schema := CountsAsJson(counts);
    var back := map k | k in schema :: if schema[k].JInt? then schema[k].i else 0;
    assert back == counts;
    TallyTotal(ClassesOf(Filter(entries, IsImageEntry)));
  }

  lemma ClassKeys(entries: seq<ImageEntry>)
    ensures var counts := ClassCounts(entries);
      && counts.Keys == (set e | e in entries && IsImageEntry(e) :: ClassName(e.dir))
      && forall k :: k in counts ==> counts[k] >= 1
  {
    var images := Filter(entries, IsImageEntry);
    var classes := ClassesOf(images);
    var counts := ClassCounts(entries);
    forall k | k in counts ensures counts[k] >= 1 {
      assert k in multiset(classes);
    }
    ClassesOfKeys(images);
    ImageClassSet(entries);
  }

  lemma ImageClassSet(entries: seq<ImageEntry>)
    ensures (set e | e in Filter(entries, IsImageEntry) :: ClassName(e.dir))
         == (set e | e in entries && IsImageEntry(e) :: ClassName(e.dir))
  {
    FilterImage(entries, IsImageEntry, ClassOfEntry);
    assert forall e: ImageEntry :: ClassOfEntry(e) == ClassName(e.dir);
  }

  /** The class of one image entry. */
  function ClassOfEntry(e: ImageEntry): string {
    ClassName(e.dir)
  }

  lemma ClassesOfKeys(images: seq<ImageEntry>)
    ensures (set c | c in ClassesOf(images)) == set e | e in images :: ClassName(e.dir)
  {
    var classes := ClassesOf(images);
    forall k | k in classes ensures k in set e | e in images :: ClassName(e.dir) {
      var i :| 0 <= i < |classes| && classes[i] == k;
      assert images[i] in images;
    }
    forall e | e in images ensures ClassName(e.dir) in classes {
      var i :| 0 <= i < |images| && images[i] == e;
      assert classes[i] == ClassName(e.dir);
    }
  }

  // ---------------------------------------------------------------------------
  // JSON files: one array document, or one document per line

  datatype Layout = ArrayDocument | JsonLines

  /** `f.readline()` without its line break. */
  function FirstLine(content: string): string {
    Split(content, '\n')[0]
  }

  /** The stripped first line decides: '[' means one array document, anything else JSON lines. */
  function LayoutOf(content: string): Layout {
    var first := Strip(FirstLine(content));
    if |first| > 0 && first[0] == '[' then ArrayDocument else JsonLines
  }

  /** A file opening with '[' (after blanks on its first line) is read as one array. */
  lemma LayoutOfArray(blanks: string, rest: string)
    requires forall i :: 0 <= i < |blanks| ==> IsSpace(blanks[i]) && blanks[i] != '\n'
    ensures LayoutOf(blanks + "[" + rest) == ArrayDocument
  {
    var content := blanks + "[" + rest;
    var parts := Split(content, '\n');
    var first := parts[0];
    assert Join(parts, '\n') == content;
    assert first <= content by {
      if |parts| > 1 {
        assert content == first + ['\n'] + Join(parts[1..], '\n');
      }
    }
    assert content[|blanks|] == '[';
    assert |first| > |blanks|;
    assert first[|blanks|] == '[';
    StripSkipsBlanks(first, |blanks|);
  }

  /** Stripping a string that starts with blanks and then a non-blank keeps that non-blank first. */
  lemma {:induction false} StripSkipsBlanks(s: string, n: nat)
    requires n < |s| && !IsSpace(s[n])
    requires forall i :: 0 <= i < n ==> IsSpace(s[i])
    ensures |Strip(s)| > 0 && Strip(s)[0] == s[n]
    decreases n
  {
    if n == 0 {
      assert s[0] == s[n];
      StripLeadingNonSpace(s);
    } else {
      StripLeadingSpace(s);
      var tail := s[1..];
      assert tail[n - 1] == s[n];
      assert forall i :: 0 <= i < n - 1 ==> tail[i] == s[i + 1];
      StripSkipsBlanks(tail, n - 1);
    }
  }

  /** A string whose first character is not blank strips to one starting with that character. */
  lemma StripLeadingNonSpace(s: string)
    requires |s| > 0 && !IsSpace(s[0])
    ensures |Strip(s)| > 0 && Strip(s)[0] == s[0]
  {
    assert StripLeft(s) == s;
    assert !(forall i :: 0 <= i < |s| ==> IsSpace(s[i]));
  }

  /** A leading blank does not survive stripping. */
  lemma StripLeadingSpace(s: string)
    requires |s| > 0 && IsSpace(s[0])
    ensures Strip(s) == Strip(s[1..])
  {
  }

  /** The lines of a JSON-lines file that are not blank. */
  function NonBlankLines(content: string): (r: seq<string>)
    ensures forall l :: l in r <==> l in Split(content, '\n') && Strip(l) != []
  {
    Filter(Split(content, '\n'), (l: string) => Strip(l) != [])
  }

  /** `[json.loads(line) for line in lines]`: the first line that fails to parse fails the whole list. */
  function ParseEach(lines: seq<string>, parse: string -> Result<Json>): (r: Result<seq<Json>>)
    ensures r.Success? <==> forall i :: 0 <= i < |lines| ==> parse(lines[i]).Success?
    ensures r.Success? ==> |r.value| == |lines| && forall i :: 0 <= i < |lines| ==> r.value[i] == parse(lines[i]).value
  {
    if lines == [] then Success([])
    else
      var first :- parse(lines[0]);
      var rest :- ParseEach(lines[1..], parse);
      Success([first] + rest)
  }

  /** The data in a JSON dataset file: one array document, or the list of its lines' documents. */
  function ReadJsonData(content: string, parse: string -> Result<Json>): (r: Result<Json>)
    ensures LayoutOf(content) == ArrayDocument ==> r == parse(content)
    ensures LayoutOf(content) == JsonLines ==>
      var lines := NonBlankLines(content);
      && (r.Success? <==> forall i :: 0 <= i < |lines| ==> parse(lines[i]).Success?)
      && (r.Success? ==>
            && r.value.JArray? && |r.value.items| == |lines|
            && forall i :: 0 <= i < |lines| ==> r.value.items[i] == parse(lines[i]).value)
  {
    match LayoutOf(content)
    case ArrayDocument => parse(content)
    case JsonLines =>
      var docs :- ParseEach(NonBlankLines(content), parse);
      Success(JArray(docs))
  }

  /** What `json_normalize` is given: the items of an array, or the single document. */
  function RecordsOf(data: Json): seq<Json> {
    if data.JArray? then data.items else [data]
  }

  // ---------------------------------------------------------------------------
  // analysis

  /** `{col: str(dtype)}` over a frame's columns. */
  function DtypeSchema(frame: Frame): (r: map<string, Json>)
    ensures r.Keys == set c | c in frame.columns
  {
    map c | c in frame.columns :: JStr(frame.profile(c).dtype)
  }

  /** `r` is `d` with its row count, column count and dtype schema taken from `frame`. */
  predicate CountedFrom(r: Dataset, d: Dataset, frame: Frame) {
    r == d.(rowCount := frame.rowCount, columnCount := |frame.columns|, schema := DtypeSchema(frame))
  }

  /** The counts of a CSV file: the first thousand rows are read as a sample, then the whole file. */
  function CsvCounts(d: Dataset, env: Env): (r: Result<Dataset>)
    ensures r.Failure? <==> env.readCsv(Some(1000)).Failure? || env.readCsv(None).Failure?
    ensures r.Success? ==> CountedFrom(r.value, d, env.readCsv(None).value)
  {
    var sample :- env.readCsv(Some(1000));
    var full :- env.readCsv(None);
    Success(d.(rowCount := full.rowCount, columnCount := |full.columns|, schema := DtypeSchema(full)))
  }

  /** The counts of a JSON file; data that is not a non-empty list leaves the record as it is. */
  function JsonCounts(d: Dataset, env: Env): (r: Result<Dataset>)
    ensures env.readText.Failure? ==> r.Failure?
    ensures env.readText.Success? ==>
      var data := ReadJsonData(env.readText.value, env.parse);
      && (data.Failure? ==> r == Failure(data.error))
      && (data.Success? && !(data.value.JArray? && |data.value.items| > 0) ==> r == Success(d))
      && (data.Success? && data.value.JArray? && |data.value.items| > 0 ==>
            var frame := env.normalize(data.value.items);
            && (r.Success? <==> frame.Success?)
            && (r.Success? ==> CountedFrom(r.value, d, frame.value)))
  {
    var content :- env.readText;
    var data :- ReadJsonData(content, env.parse);
    if data.JArray? && |data.items| > 0 then
      var frame :- env.normalize(data.items);
      Success(d.(rowCount := frame.rowCount, columnCount := |frame.columns|, schema := DtypeSchema(frame)))
    else Success(d)
  }

  /**
   * The `except` of the analyses: on an error the record keeps its counts and schema and its
   * description becomes "Error analyzing: " and the message.
   */
  function FailSoft(d: Dataset, attempt: Result<Dataset>): (r: Dataset)
    ensures attempt.Success? ==> r == attempt.value
    ensures attempt.Failure? ==>
      && r.rowCount == d.rowCount && r.columnCount == d.columnCount && r.schema == d.schema
      && r.description == "Error analyzing: " + attempt.error
      && SameIdentity(r, d)
  {
    match attempt
    case Success(a) => a
    case Failure(e) => d.(description := "Error analyzing: " + e)
  }

  /**
   * `_analyze_dataset`: profiles a dataset by its type. Analysis never fails: a read or parse
   * error is caught by `FailSoft`; a dataset of another type comes back unchanged. Only the
   * counts, the schema and the description can change.
   */
  function AnalyzeDataset(d: Dataset, env: Env): (r: Dataset)
    ensures SameIdentity(r, d)
    ensures d.kind == "csv" ==> r == FailSoft(d, CsvCounts(d, env))
    ensures d.kind == "json" ==> r == FailSoft(d, JsonCounts(d, env))
    ensures d.kind == "images" ==> r == AnalyzeImages(d, env.entries)
    ensures d.kind != "csv" && d.kind != "json" && d.kind != "images" ==> r == d
  {
    if d.kind == "csv" then FailSoft(d, CsvCounts(d, env))
    else if d.kind == "json" then FailSoft(d, JsonCounts(d, env))
    else if d.kind == "images" then AnalyzeImages(d, env.entries)
    else d
  }

  /** A JSON file whose text or parse fails is recorded as an analysis error with its counts untouched. */
  lemma JsonParseErrorIsSoft(d: Dataset, env: Env)
    requires d.kind == "json"
    requires env.readText.Success? && ReadJsonData(env.readText.value, env.parse).Failure?
    ensures var r := AnalyzeDataset(d, env);
      && r.description == "Error analyzing: " + ReadJsonData(env.readText.value, env.parse).error
      && r.rowCount == d.rowCount && r.columnCount == d.columnCount && r.schema == d.schema
  {
  }

  // ---------------------------------------------------------------------------
  // import, update, refresh

  /**
   * `import_dataset`: classifies the path, builds the record (named after the path unless a name
   * is given, version 1), analyses it and inserts it. `id`, `now` and `fileSize` stand for the
   * generated uuid, the clock and the size read from disk.
   */
  function ImportDataset(s: Store.Store, path: string, name: Option<string>, on: PathKind, fileSize: int,
                         id: string, now: string, env: Env): (r: Result<(Store.Store, Dataset)>)
    ensures on == Missing ==> r == Failure("Path not found: " + path)
    ensures ClassifyPath(path, on).Failure? ==> r == Failure(ClassifyPath(path, on).error)
    ensures r.Success? <==> ClassifyPath(path, on).Success? && id !in s.datasets
    ensures ClassifyPath(path, on).Success? && id in s.datasets ==>
      r == Failure("UNIQUE constraint failed: datasets.id")
    ensures r.Success? ==>
      var created := NewDataset(id, DefaultName(path, name), path, ClassifyPath(path, on).value, now);
      r.value.1 == AnalyzeDataset(created.(fileSize := fileSize), env)
    ensures r.Success? ==> forall k :: k != id ==> Store.GetDataset(r.value.0, k) == Store.GetDataset(s, k)
    ensures r.Success? ==>
      var (s', d) := r.value;
      && ClassifyPath(path, on) == Success(d.kind)
      && d.id == id && d.path == path && d.name == DefaultName(path, name)
      && d.version == 1 && d.fileSize == fileSize && d.createdAt == now
      && Store.GetDataset(s', id) == Some(d)
      && id !in s.datasets
      && s'.experiments == s.experiments && s'.models == s.models && s'.annotations == s.annotations
  {
    var kind :- ClassifyPath(path, on);
    var created := NewDataset(id, DefaultName(path, name), path, kind, now).(fileSize := fileSize);
    var analysed := AnalyzeDataset(created, env);
    var s' :- Store.CreateDataset(s, analysed);
    Success((s', analysed))
  }

  /** `update_dataset`: writes the record back, with its version raised by one when asked. */
  function UpdateDataset(s: Store.Store, d: Dataset, incrementVersion: bool): (r: (Store.Store, Dataset))
    ensures r.1.version == if incrementVersion then d.version + 1 else d.version
    ensures r.1 == d.(version := r.1.version)
    ensures d.id in s.datasets ==> Store.GetDataset(r.0, d.id) == Some(r.1)
    ensures d.id !in s.datasets ==> r.0 == s
    ensures forall k :: k != d.id ==> Store.GetDataset(r.0, k) == Store.GetDataset(s, k)
    ensures r.0.experiments == s.experiments && r.0.models == s.models && r.0.annotations == s.annotations
  {
    var d' := if incrementVersion then d.(version := d.version + 1) else d;
    Store.UpdateDataset(s, d')
  }

  /**
   * `refresh_dataset`: re-analyses a stored dataset and stores it again one version up. An
   * unknown id is an error.
   */
  function RefreshDataset(s: Store.Store, id: string, env: Env): (r: Result<(Store.Store, Dataset)>)
    requires Store.Valid(s)
    ensures r.Failure? <==> id !in s.datasets
    ensures r.Failure? ==> r.error == "Dataset not found: " + id
    ensures r.Success? ==>
      var (s', d) := r.value;
      && d.version == s.datasets[id].version + 1
      && d.id == id && d.kind == s.datasets[id].kind
      && Store.GetDataset(s', id) == Some(d)
      && Store.Valid(s')
    ensures r.Success? ==> r.value.1 == AnalyzeDataset(s.datasets[id], env).(version := s.datasets[id].version + 1)
    ensures r.Success? ==> forall k :: k != id ==> Store.GetDataset(r.value.0, k) == Store.GetDataset(s, k)
    ensures r.Success? ==>
      r.value.0.experiments == s.experiments && r.value.0.models == s.models && r.value.0.annotations == s.annotations
  {
    match Store.GetDataset(s, id)
    case None => Failure("Dataset not found: " + id)
    case Some(stored) =>
      var analysed := AnalyzeDataset(stored, env);
      Success(Store.UpdateDataset(s, analysed.(version := analysed.version + 1)))
  }

  // ---------------------------------------------------------------------------
  // loading as a table

  /** `if limit:` — a limit of 0 counts as no limit. */
  function Limit(limit: Option<nat>): Option<nat> {
    if limit.Some? && limit.value > 0 then limit else None
  }

  /** How many of `n` rows are kept under `limit`. */
  function Kept(limit: Option<nat>, n: nat): (k: nat)
    ensures k <= n
    ensures Limit(limit).None? ==> k == n
    ensures Limit(limit).Some? ==> k == if Limit(limit).value < n then Limit(limit).value else n
  {
    if Limit(limit).Some? && Limit(limit).value < n then Limit(limit).value else n
  }

  /** A limit keeps at least one row of a non-empty table: a zero limit means no limit. */
  lemma KeptPositive(limit: Option<nat>, n: nat)
    requires n > 0
    ensures Kept(limit, n) > 0
  {
  }

  /** The table row for one image: its file name, its full path and its class. */
  function ImageRowOf(path: string, e: ImageEntry): ImageRow {
    ImageRow(e.file, JoinPath(if e.dir == "." then path else JoinPath(path, e.dir), e.file), ClassName(e.dir))
  }

  /** The rows `load_data` builds for an image folder, stopping once `limit` rows are collected. */
  function ImageRows(path: string, entries: seq<ImageEntry>, limit: Option<nat>): (r: seq<ImageRow>)
    ensures |r| == Kept(limit, |Filter(entries, IsImageEntry)|)
    ensures forall i :: 0 <= i < |r| ==>
      && r[i].filename == Filter(entries, IsImageEntry)[i].file
      && r[i].className == ClassName(Filter(entries, IsImageEntry)[i].dir)
  {
    var images := Filter(entries, IsImageEntry);
    seq(Kept(limit, |images|), i requires 0 <= i < Kept(limit, |images|) => ImageRowOf(path, images[i]))
  }

  function ImageColumn(rows: seq<ImageRow>, col: string): seq<string> {
    seq(|rows|, i requires 0 <= i < |rows| =>
      if col == "filename" then rows[i].filename
      else if col == "path" then rows[i].path
      else rows[i].className)
  }

  /** `pd.DataFrame(rows)`: three columns, or none at all when there are no rows. */
  function ImageFrame(rows: seq<ImageRow>, describe: seq<ImageRow> -> string -> ColumnProfile): (r: Frame)
    ensures r.rowCount == |rows|
    ensures r.columns == if rows == [] then [] else ["filename", "path", "class"]
  {
    Frame(if rows == [] then [] else ["filename", "path", "class"], |rows|, describe(rows),
          (col: string) => CountsAsJson(Tally(ImageColumn(rows, col))), (col: string) => None)
  }

  /** `df.head(limit)` when a non-zero limit is given, the whole frame otherwise. */
  function Cut(frame: Frame, limit: Option<nat>, head: (Frame, nat) -> Frame): Frame {
    if Limit(limit).Some? then head(frame, Limit(limit).value) else frame
  }

  /**
   * `DataFrame.head(n)`: the same columns, and the first `n` rows, or all of them when there are
   * fewer. The figures of the rows kept are pandas' business.
   */
  ghost predicate HeadCuts(head: (Frame, nat) -> Frame) {
    forall f: Frame, n: nat :: head(f, n).columns == f.columns && head(f, n).rowCount == Kept(Some(n), f.rowCount)
  }

  /** `load_data`: the dataset as a table of at most `limit` rows; an unknown type is an error. */
  function LoadFrame(d: Dataset, env: Env, limit: Option<nat>): (r: Result<Frame>)
    ensures d.kind == "csv" ==> r == env.readCsv(limit)
    ensures d.kind !in ["csv", "json", "images"] ==> r == Failure("Unknown dataset type: " + d.kind)
    ensures d.kind == "images" ==> r.Success? && r.value.rowCount == |ImageRows(d.path, env.entries, limit)|
  {
    if d.kind == "csv" then env.readCsv(limit)
    else if d.kind == "json" then
      var content :- env.readText;
      var data :- ReadJsonData(content, env.parse);
      var frame :- env.normalize(RecordsOf(data));
      Success(Cut(frame, limit, env.head))
    else if d.kind == "images" then
      Success(ImageFrame(ImageRows(d.path, env.entries, limit), env.describeImages))
    else Failure("Unknown dataset type: " + d.kind)
  }

  /**
   * The JSON and image branches of `load_data`: a read or parse error of a JSON file propagates,
   * otherwise its documents are normalised with the limit applied; an image folder always loads
   * as the table of its image rows.
   */
  lemma LoadFrameBranches(d: Dataset, env: Env, limit: Option<nat>)
    ensures d.kind == "json" && env.readText.Failure? ==> LoadFrame(d, env, limit) == Failure(env.readText.error)
    ensures d.kind == "json" && env.readText.Success? && ReadJsonData(env.readText.value, env.parse).Failure? ==>
      LoadFrame(d, env, limit) == Failure(ReadJsonData(env.readText.value, env.parse).error)
    ensures d.kind == "json" && env.readText.Success? && ReadJsonData(env.readText.value, env.parse).Success? ==>
      var normalized := env.normalize(RecordsOf(ReadJsonData(env.readText.value, env.parse).value));
      && (normalized.Failure? ==> LoadFrame(d, env, limit) == Failure(normalized.error))
      && (normalized.Success? ==> LoadFrame(d, env, limit) == Success(Cut(normalized.value, limit, env.head)))
    ensures d.kind == "images" ==>
      LoadFrame(d, env, limit) == Success(ImageFrame(ImageRows(d.path, env.entries, limit), env.describeImages))
  {
  }

  /**
   * A JSON file that normalises to `full` loads with `full`'s columns and at most `limit` of its
   * rows; no limit, or a zero one, keeps them all.
   */
  lemma JsonLoadKeepsLimit(d: Dataset, env: Env, limit: Option<nat>, full: Frame)
    requires HeadCuts(env.head)
    requires d.kind == "json" && env.readText.Success? && ReadJsonData(env.readText.value, env.parse).Success?
    requires env.normalize(RecordsOf(ReadJsonData(env.readText.value, env.parse).value)) == Success(full)
    ensures LoadFrame(d, env, limit).Success?
    ensures LoadFrame(d, env, limit).value.columns == full.columns
    ensures LoadFrame(d, env, limit).value.rowCount == Kept(limit, full.rowCount)
  {
    LoadFrameBranches(d, env, limit);
    if Limit(limit).Some? {
      var cut := env.head(full, Limit(limit).value);
      assert cut.rowCount == Kept(Some(Limit(limit).value), full.rowCount);
    }
  }

  // ---------------------------------------------------------------------------
  // target column

  const TargetNames: seq<string> := ["target", "label", "class", "y", "outcome", "result"]

  /** A candidate name matches a column when it occurs in the column name, ignoring case. */
  predicate NameMatches(col: string, name: string) {
    Contains(Lower(col), Lower(name))
  }

  /** The position of the first column that `name` matches. */
  function FirstMatch(columns: seq<string>, name: string): (r: Option<nat>)
    ensures r.None? <==> forall j :: 0 <= j < |columns| ==> !NameMatches(columns[j], name)
    ensures r.Some? ==>
      && r.value < |columns| && NameMatches(columns[r.value], name)
      && forall j :: 0 <= j < r.value ==> !NameMatches(columns[j], name)
  {
    if columns == [] then None
    else if NameMatches(columns[0], name) then Some(0)
    else match FirstMatch(columns[1..], name)
      case None => None
      case Some(j) => Some(j + 1)
  }

  /**
   * The nested loops of `detect_target_column`: the position of the earliest candidate that
   * matches some column. The column returned is that candidate's `FirstMatch`.
   */
  function TargetCandidate(columns: seq<string>, names: seq<string>): (r: Option<nat>)
    ensures r.None? <==> forall i :: 0 <= i < |names| ==> FirstMatch(columns, names[i]).None?
    ensures r.Some? ==>
      && r.value < |names| && FirstMatch(columns, names[r.value]).Some?
      && forall k :: 0 <= k < r.value ==> FirstMatch(columns, names[k]).None?
  {
    FirstPresent(Matches(columns, names))
  }

  /** Each candidate's `FirstMatch`, in candidate order. */
  function Matches(columns: seq<string>, names: seq<string>): (r: seq<Option<nat>>)
    ensures |r| == |names| && forall i :: 0 <= i < |names| ==> r[i] == FirstMatch(columns, names[i])
  {
    seq(|names|, i requires 0 <= i < |names| => FirstMatch(columns, names[i]))
  }

  /** The column the candidate search returns, if any. */
  function TargetColumnOf(columns: seq<string>): Option<string> {
    match TargetCandidate(columns, TargetNames)
    case None => None
    case Some(i) => Some(columns[FirstMatch(columns, TargetNames[i]).value])
  }

  /**
   * `detect_target_column`: a column named like a target, else "class" for images, else the
   * last column; None when there are no columns or the data cannot be loaded.
   */
  function DetectTargetColumn(d: Dataset, env: Env): (r: Option<string>)
    ensures LoadFrame(d, env, Some(100)).Failure? ==> r.None?
    ensures LoadFrame(d, env, Some(100)).Success? ==>
      var columns := LoadFrame(d, env, Some(100)).value.columns;
      var c := TargetCandidate(columns, TargetNames);
      && (c.Some? ==> r == Some(columns[FirstMatch(columns, TargetNames[c.value]).value]))
      && (c.None? && d.kind == "images" ==> r == Some("class"))
      && (c.None? && d.kind != "images" ==> r == if columns == [] then None else Some(columns[|columns| - 1]))
  {
    match LoadFrame(d, env, Some(100))
    case Failure(_) => None
    case Success(frame) =>
      var found := TargetColumnOf(frame.columns);
      if found.Some? then found
      else if d.kind == "images" then Some("class")
      else if |frame.columns| > 0 then Some(frame.columns[|frame.columns| - 1])
      else None
  }

  /** A candidate holding a letter the column name lacks, ignoring case, does not match it. */
  lemma NoMatch(col: string, name: string, k: nat)
    requires k < |name| && Lower(name)[k] !in Lower(col)
    ensures !NameMatches(col, name)
  {
    NotContainsMissingChar(Lower(col), Lower(name), k);
  }

  /** A column the candidate does not match is skipped by the scan. */
  lemma FirstMatchSkip(col: string, rest: seq<string>, name: string)
    requires !NameMatches(col, name)
    ensures FirstMatch(rest, name).None? ==> FirstMatch([col] + rest, name).None?
    ensures FirstMatch(rest, name).Some? ==> FirstMatch([col] + rest, name) == Some(FirstMatch(rest, name).value + 1)
  {
    assert ([col] + rest)[1..] == rest;
  }

  /** A candidate matching none of three columns. */
  lemma NoneOfThree(cols: seq<string>, name: string)
    requires |cols| == 3
    requires !NameMatches(cols[0], name) && !NameMatches(cols[1], name) && !NameMatches(cols[2], name)
    ensures FirstMatch(cols, name).None?
  {
    assert forall j :: 0 <= j < |cols| ==> !NameMatches(cols[j], name);
  }

  /** A candidate matching the third of three columns only. */
  lemma ThirdOfThree(cols: seq<string>, name: string)
    requires |cols| == 3
    requires !NameMatches(cols[0], name) && !NameMatches(cols[1], name) && NameMatches(cols[2], name)
    ensures FirstMatch(cols, name) == Some(2)
  {
    var r := FirstMatch(cols, name);
    assert r.Some?;
    assert r.value != 0 && r.value != 1;
  }

  lemma ExampleColumnMatches()
    ensures !NameMatches("id", "target") && !NameMatches("age", "target")
    ensures NameMatches("Target_Label", "target")
  {
    IdAgeTarget();
    TargetLabelMatches();
  }

  lemma IdAgeTarget()
    ensures !NameMatches("id", "target") && !NameMatches("age", "target")
  {
    assert Lower("target") == "target";
    assert Lower("id") == "id";
    NoMatch("id", "target", 0);
    assert Lower("age") == "age";
    NoMatch("age", "target", 0);
  }

  lemma TargetLabelMatches()
    ensures NameMatches("Target_Label", "target")
  {
    assert Lower("target") == "target";
    assert Lower("Target_Label") == "target_label";
    assert Contains("target_label", "target");
  }

  /** The earliest candidate wins over column order: "Target_Label" is found for "target". */
  lemma DetectTargetExample(cols: seq<string>)
    requires cols == ["id", "age", "Target_Label", "income"]
    ensures TargetColumnOf(cols) == Some("Target_Label")
  {
    ExampleColumnMatches();
    assert FirstMatch(cols[2..], "target") == Some(0);
    FirstMatchSkip(cols[1], cols[2..], "target");
    assert cols[1..] == [cols[1]] + cols[2..];
    FirstMatchSkip(cols[0], cols[1..], "target");
    assert cols == [cols[0]] + cols[1..];
    assert TargetNames[0] == "target";
    assert FirstMatch(cols, TargetNames[0]) == Some(2);
  }

  lemma FilenameMatches()
    ensures !NameMatches("filename", "target") && !NameMatches("filename", "label") && !NameMatches("filename", "class")
  {
    FilenameRejects("target");
    FilenameRejects("label");
    FilenameClass();
  }

  /** Neither "target" nor "label" occurs in "filename": each has a third letter the column name lacks. */
  lemma FilenameRejects(name: string)
    requires name == "target" || name == "label"
    ensures !NameMatches("filename", name)
  {
    assert Lower("filename") == "filename";
    if name == "target" {
      assert Lower("target") == "target";
    } else {
      assert Lower("label") == "label";
    }
    NoMatch("filename", name, 2);
  }

  lemma FilenameClass()
    ensures !NameMatches("filename", "class")
  {
    assert Lower("filename") == "filename";
    assert Lower("class") == "class";
    NoMatch("filename", "class", 0);
  }

  lemma PathMatches()
    ensures !NameMatches("path", "target") && !NameMatches("path", "label") && !NameMatches("path", "class")
  {
    assert Lower("path") == "path";
    assert Lower("target") == "target";
    NoMatch("path", "target", 2);
    assert Lower("label") == "label";
    NoMatch("path", "label", 2);
    assert Lower("class") == "class";
    NoMatch("path", "class", 0);
  }

  lemma ClassMatches()
    ensures !NameMatches("class", "target") && !NameMatches("class", "label") && NameMatches("class", "class")
  {
    assert Lower("class") == "class";
    assert Lower("target") == "target";
    NoMatch("class", "target", 2);
    assert Lower("label") == "label";
    NoMatch("class", "label", 2);
    assert Contains("class", "class");
  }

  /** An image table's columns are matched by the third candidate, "class". */
  lemma ImageTargetIsClass(cols: seq<string>)
    requires cols == ["filename", "path", "class"]
    ensures TargetColumnOf(cols) == Some("class")
  {
    assert cols[0] == "filename" && cols[1] == "path" && cols[2] == "class";
    assert TargetNames[0] == "target" && TargetNames[1] == "label" && TargetNames[2] == "class";
    FilenameMatches();
    PathMatches();
    ClassMatches();
    NoneOfThree(cols, TargetNames[0]);
    NoneOfThree(cols, TargetNames[1]);
    ThirdOfThree(cols, TargetNames[2]);
    TargetCandidateThird(cols, TargetNames);
  }

  /** When the first two candidates match nothing and the third does, the third is chosen. */
  lemma TargetCandidateThird(cols: seq<string>, names: seq<string>)
    requires |names| >= 3
    requires FirstMatch(cols, names[0]).None? && FirstMatch(cols, names[1]).None? && FirstMatch(cols, names[2]).Some?
    ensures TargetCandidate(cols, names) == Some(2)
  {
    var r := TargetCandidate(cols, names);
    assert r.Some?;
    assert r.value != 0 && r.value != 1;
    var third := names[2];
    assert r.value > 2 ==> FirstMatch(cols, third).None?;
  }

  // ---------------------------------------------------------------------------
  // class distribution and statistics

  /**
   * `get_class_distribution`: the value counts of the target column (given, or detected when
   * omitted); for an image folder whose target is not a column, the stored per-class schema;
   * otherwise, or when the data cannot be loaded, nothing.
   */
  function ClassDistribution(d: Dataset, env: Env, target: Option<string>): (r: map<string, Json>)
    ensures LoadFrame(d, env, None).Failure? ==> r == map[]
    ensures LoadFrame(d, env, None).Success? ==>
      var frame := LoadFrame(d, env, None).value;
      var t := if target.None? then DetectTargetColumn(d, env) else target;
      && (t.Some? && t.value != [] && t.value in frame.columns ==> r == frame.valueCounts(t.value))
      && (!(t.Some? && t.value != [] && t.value in frame.columns) ==> r == if d.kind == "images" then d.schema else map[])
  {
    match LoadFrame(d, env, None)
    case Failure(_) => map[]
    case Success(frame) =>
      var t := if target.None? then DetectTargetColumn(d, env) else target;
      if t.Some? && t.value != [] && t.value in frame.columns then frame.valueCounts(t.value)
      else if d.kind == "images" then d.schema
      else map[]
  }

  /**
   * For an image folder with at least one image, the detected distribution is the per-class
   * count, which is the schema a fresh analysis stores.
   */
  lemma ImageDistributionMatchesAnalysis(d: Dataset, env: Env)
    requires d.kind == "images"
    requires exists e :: e in env.entries && IsImageEntry(e)
    ensures ClassDistribution(d, env, None) == AnalyzeImages(d, env.entries).schema
  {
    DetectImageTarget(d, env);
    ImageFrameColumns(d, env, None);
    var frame := LoadFrame(d, env, None).value;
    DistributionOfDetected(d, env, frame);
    ImageClassColumn(d.path, env.entries);
    ImageSchemaIsCounts(d, env.entries);
  }

  /** A detected target that is a loaded column gives that column's value counts. */
  lemma DistributionOfDetected(d: Dataset, env: Env, frame: Frame)
    requires LoadFrame(d, env, None) == Success(frame)
    requires DetectTargetColumn(d, env) == Some("class") && "class" in frame.columns
    ensures ClassDistribution(d, env, None) == frame.valueCounts("class")
  {
  }

  /** The schema an image analysis stores is the per-class count. */
  lemma ImageSchemaIsCounts(d: Dataset, entries: seq<ImageEntry>)
    ensures AnalyzeImages(d, entries).schema == CountsAsJson(ClassCounts(entries))
  {
  }

  /** An image folder with at least one image has "class" as its detected target. */
  lemma DetectImageTarget(d: Dataset, env: Env)
    requires d.kind == "images"
    requires exists e :: e in env.entries && IsImageEntry(e)
    ensures DetectTargetColumn(d, env) == Some("class")
  {
    ImageFrameColumns(d, env, Some(100));
    ImageTargetIsClass(LoadFrame(d, env, Some(100)).value.columns);
  }

  /** An image folder with at least one image loads as the three-column table. */
  lemma ImageFrameColumns(d: Dataset, env: Env, limit: Option<nat>)
    requires d.kind == "images"
    requires exists e :: e in env.entries && IsImageEntry(e)
    ensures LoadFrame(d, env, limit).Success?
    ensures LoadFrame(d, env, limit).value.columns == ["filename", "path", "class"]
    ensures LoadFrame(d, env, limit).value.valueCounts("class")
         == CountsAsJson(Tally(ImageColumn(ImageRows(d.path, env.entries, limit), "class")))
  {
    var rows := ImageRows(d.path, env.entries, limit);
    ImageRowsNonEmpty(d.path, env.entries, limit);
    LoadImages(d, env, limit);
    ImageFrameShape(rows, env.describeImages);
  }

  /** An image folder loads as the table of its image rows. */
  lemma LoadImages(d: Dataset, env: Env, limit: Option<nat>)
    requires d.kind == "images"
    ensures LoadFrame(d, env, limit) == Success(ImageFrame(ImageRows(d.path, env.entries, limit), env.describeImages))
  {
  }

  /** A non-empty image table has the three columns, and counts the values of each. */
  lemma ImageFrameShape(rows: seq<ImageRow>, describe: seq<ImageRow> -> string -> ColumnProfile)
    requires rows != []
    ensures ImageFrame(rows, describe).columns == ["filename", "path", "class"]
    ensures ImageFrame(rows, describe).valueCounts("class") == CountsAsJson(Tally(ImageColumn(rows, "class")))
  {
  }

  /** Any image at all yields at least one row, whatever the limit. */
  lemma ImageRowsNonEmpty(path: string, entries: seq<ImageEntry>, limit: Option<nat>)
    requires exists e :: e in entries && IsImageEntry(e)
    ensures ImageRows(path, entries, limit) != []
  {
    var e :| e in entries && IsImageEntry(e);
    FilterKeeps(entries, IsImageEntry, e);
    KeptPositive(limit, |Filter(entries, IsImageEntry)|);
  }

  /** Without a limit, the class column lists every image's class in order. */
  lemma ImageClassColumn(path: string, entries: seq<ImageEntry>)
    ensures ImageColumn(ImageRows(path, entries, None), "class") == ClassesOf(Filter(entries, IsImageEntry))
  {
    var images := Filter(entries, IsImageEntry);
    var rows := ImageRows(path, entries, None);
    var column := ImageColumn(rows, "class");
    assert |rows| == |images|;
    forall i | 0 <= i < |images| ensures column[i] == ClassesOf(images)[i] {
      assert column[i] == rows[i].className;
    }
  }

  /** The figures `get_statistics` reports for one column. */
  datatype ColumnStats =
    | NumericStats(dtype: string, mean: Option<real>, std: Option<real>, min: Option<real>,
                   max: Option<real>, median: Option<real>)
    | OtherStats(dtype: string, uniqueCount: nat, topValues: map<string, Json>)

  datatype BasicStats = BasicStats(rowCount: int, columnCount: int, fileSize: int, kind: string)

  /** The result of `get_statistics`; `error` is the `'error'` key. */
  datatype Statistics = Statistics(
    basic: BasicStats,
    columns: map<string, ColumnStats>,
    missing: map<string, nat>,
    classDistribution: map<string, Json>,
    error: Option<string>)

  /** A numeric column's summary; every figure is null when the column holds no value at all. */
  function StatsOf(p: ColumnProfile, rowCount: nat): (r: ColumnStats)
    ensures p.numeric <==> r.NumericStats?
    ensures r.NumericStats? ==> (p.missing == rowCount <==> r.mean.None? && r.median.None?)
    ensures r.dtype == p.dtype
    ensures p.numeric && p.missing != rowCount ==>
      r == NumericStats(p.dtype, Some(p.mean), Some(p.std), Some(p.min), Some(p.max), Some(p.median))
    ensures p.numeric && p.missing == rowCount ==> r == NumericStats(p.dtype, None, None, None, None, None)
    ensures !p.numeric ==> r == OtherStats(p.dtype, p.uniqueCount, p.topValues)
  {
    if p.numeric then
      var some := p.missing != rowCount;
      NumericStats(p.dtype,
        if some then Some(p.mean) else None, if some then Some(p.std) else None,
        if some then Some(p.min) else None, if some then Some(p.max) else None,
        if some then Some(p.median) else None)
    else OtherStats(p.dtype, p.uniqueCount, p.topValues)
  }

  /** The statistics of the given columns of a frame, one entry per column. */
  function StatsByColumn(frame: Frame, cols: seq<string>): (r: map<string, ColumnStats>)
    ensures r.Keys == (set c | c in cols)
    ensures forall c :: c in r ==> r[c] == StatsOf(frame.profile(c), frame.rowCount)
  {
    map c | c in cols :: StatsOf(frame.profile(c), frame.rowCount)
  }

  /** Where the `for col in df.columns` loop of `get_statistics` raises, or the column count. */
  function FailingColumn(frame: Frame): (k: nat)
    ensures k <= |frame.columns|
    ensures forall i :: 0 <= i < k ==> frame.statsError(frame.columns[i]).None?
    ensures k < |frame.columns| ==> frame.statsError(frame.columns[k]).Some?
  {
    FirstWhere(frame.columns, (c: string) => frame.statsError(c).Some?)
  }

  /** The columns with missing values and how many each has. */
  function MissingCounts(frame: Frame): (r: map<string, int>)
    ensures forall c :: c in r <==> c in frame.columns && frame.profile(c).missing > 0
    ensures forall c :: c in r ==> r[c] == frame.profile(c).missing
  {
    map c | c in frame.columns && frame.profile(c).missing > 0 :: frame.profile(c).missing
  }

  /**
   * The table part of `get_statistics`: the figures of each column up to the first whose
   * figures raise; the missing-value counts only when no column raised, since they are computed
   * after the loop; and the error of the failing column.
   */
  function TableStatistics(basic: BasicStats, frame: Frame): (r: Statistics)
    ensures r.basic == basic && r.classDistribution == map[]
    ensures r.columns == StatsByColumn(frame, frame.columns[..FailingColumn(frame)])
    ensures FailingColumn(frame) == |frame.columns| ==>
      r.error.None? && r.missing == MissingCounts(frame) && r.columns == StatsByColumn(frame, frame.columns)
    ensures FailingColumn(frame) < |frame.columns| ==>
      r.missing == map[] && r.error == frame.statsError(frame.columns[FailingColumn(frame)])
  {
    var k := FailingColumn(frame);
    if k < |frame.columns| then
      Statistics(basic, StatsByColumn(frame, frame.columns[..k]), map[], map[], frame.statsError(frame.columns[k]))
    else
      assert frame.columns[..k] == frame.columns;
      Statistics(basic, StatsByColumn(frame, frame.columns), MissingCounts(frame), map[], None)
  }

  /**
   * `get_statistics`: the stored counts, plus per-column figures and missing-value counts for
   * tables, or the class schema for image folders. It never fails: an error while loading, or
   * while profiling a column, is reported in `error`. The column figures gathered before a
   * failing column are kept; the missing-value counts, computed after the loop, stay empty.
   */
  function GetStatistics(d: Dataset, env: Env): (r: Statistics)
    ensures r.basic == BasicStats(d.rowCount, d.columnCount, d.fileSize, d.kind)
    ensures LoadFrame(d, env, Some(10000)).Failure? ==>
      r.error == Some(LoadFrame(d, env, Some(10000)).error)
      && r.columns == map[] && r.missing == map[] && r.classDistribution == map[]
    ensures LoadFrame(d, env, Some(10000)).Success? && d.kind in ["csv", "json"] ==>
      r == TableStatistics(r.basic, LoadFrame(d, env, Some(10000)).value)
    ensures LoadFrame(d, env, Some(10000)).Success? && d.kind == "images" ==>
      r == Statistics(r.basic, map[], map[], d.schema, None)
  {
    var basic := BasicStats(d.rowCount, d.columnCount, d.fileSize, d.kind);
    match LoadFrame(d, env, Some(10000))
    case Failure(e) => Statistics(basic, map[], map[], map[], Some(e))
    case Success(frame) =>
      if d.kind in ["csv", "json"] then TableStatistics(basic, frame)
      else if d.kind == "images" then
        Statistics(basic, map[], map[], d.schema, None)
      else
        Statistics(basic, map[], map[], map[], None)
  }

  /**
   * A table's statistics carry no error exactly when it loads and every column's figures can
   * be computed.
   */
  lemma StatisticsCleanIff(d: Dataset, env: Env)
    requires d.kind in ["csv", "json"]
    ensures GetStatistics(d, env).error.None? <==>
      && LoadFrame(d, env, Some(10000)).Success?
      && forall c :: c in LoadFrame(d, env, Some(10000)).value.columns ==>
           LoadFrame(d, env, Some(10000)).value.statsError(c).None?
  {
    var load := LoadFrame(d, env, Some(10000));
    if load.Success? {
      var frame := load.value;
      var k := FailingColumn(frame);
      if k < |frame.columns| {
        assert frame.columns[k] in frame.columns;
      }
    }
  }

  /**
   * A column of lists makes `nunique` raise: with a clean column "a" before a failing column
   * "tags", the statistics keep "a" alone, report no missing values and carry the error.
   */
  lemma ListColumnStopsStatistics(basic: BasicStats, frame: Frame, e: string)
    requires frame.columns == ["a", "tags"]
    requires frame.statsError("a").None? && frame.statsError("tags") == Some(e)
    ensures TableStatistics(basic, frame).columns.Keys == {"a"}
    ensures TableStatistics(basic, frame).missing == map[]
    ensures TableStatistics(basic, frame).error == Some(e)
  {
    var k := FailingColumn(frame);
    assert frame.columns[0] == "a" && frame.columns[1] == "tags";
    assert k != 0;
    assert frame.statsError(frame.columns[1]).Some?;
    assert k != 2;
    assert frame.columns[..1] == ["a"];
  }
}

=== FILE: experiments.dfy ===
/**
 * Experiment tracking (services/experiment_service.py): the lifecycle of an experiment record,
 * logging of metrics and parameters, side-by-side comparison, picking the best run for a metric,
 * and filtered search. Every lifecycle step reads the stored record, changes some fields and
 * writes it back; none of them looks at the status it overwrites.
 */
module Experiments {
  import opened Wrappers
  import opened Records
  import opened Collections
  import Store

  /** The error every lifecycle step raises for an id that is not stored. */
  function NotFound(id: string): string {
    "Experiment not found: " + id
  }

  /**
   * `s'` is `s` with `e` written over the stored record of the same id: every other experiment
   * and every other table is as before, and the store keeps its keys.
   */
  ghost predicate WrittenBack(s: Store.Store, s': Store.Store, e: Experiment) {
    && Store.GetExperiment(s', e.id) == Some(e)
    && (forall k :: k != e.id ==> Store.GetExperiment(s', k) == Store.GetExperiment(s, k))
    && s'.datasets == s.datasets && s'.models == s.models && s'.annotations == s.annotations
    && Store.Valid(s')
  }

  // ---------------------------------------------------------------------------
  // creation

  /**
   * `create_experiment`: a new record in state "created", with no metrics yet; omitted
   * parameters, feature columns and tags are empty. `id` and `now` stand for the generated uuid
   * and the clock.
   */
  function CreateExperiment(s: Store.Store, id: string, name: string, datasetId: string, modelType: string,
                            description: string, parameters: map<string, Json>, featureColumns: seq<string>,
                            targetColumn: string, tags: seq<string>, now: string): (r: Result<(Store.Store, Experiment)>)
    requires Store.Valid(s)
    ensures r.Success? <==> id !in s.experiments
    ensures r.Success? ==>
      var (s', e) := r.value;
      && e.id == id && e.name == name && e.datasetId == datasetId && e.modelType == modelType
      && e.description == description && e.parameters == parameters && e.featureColumns == featureColumns
      && e.targetColumn == targetColumn && e.tags == tags && e.timestamp == now
      && e.status == StatusCreated && e.metrics == map[] && e.durationSeconds == 0.0 && e.notes == ""
      && Store.GetExperiment(s, id).None? && WrittenBack(s, s', e)
  {
    var e := NewExperiment(id, name, datasetId, modelType, now).(
      description := description, parameters := parameters, featureColumns := featureColumns,
      targetColumn := targetColumn, tags := tags);
    var s' :- Store.CreateExperiment(s, e);
    Success((s', e))
  }

  // ---------------------------------------------------------------------------
  // lifecycle

  /** `start_experiment`: status "running" and a fresh timestamp; nothing else changes. */
  function StartExperiment(s: Store.Store, id: string, now: string): (r: Result<(Store.Store, Experiment)>)
    requires Store.Valid(s)
    ensures r.Failure? <==> id !in s.experiments
    ensures r.Failure? ==> r.error == NotFound(id)
    ensures r.Success? ==>
      var (s', e) := r.value;
      && e.status == StatusRunning && e.timestamp == now
      && e == s.experiments[id].(status := StatusRunning, timestamp := now)
      && WrittenBack(s, s', e)
  {
    match Store.GetExperiment(s, id)
    case None => Failure(NotFound(id))
    case Some(stored) => Success(Store.UpdateExperiment(s, stored.(status := StatusRunning, timestamp := now)))
  }

  /** `e.metrics.update(metrics)`: the old entries overridden by the new ones; nothing else changes. */
  function WithMetrics(e: Experiment, metrics: map<string, real>): (r: Experiment)
    ensures forall k :: k in r.metrics <==> k in e.metrics || k in metrics
    ensures forall k :: k in metrics ==> r.metrics[k] == metrics[k]
    ensures forall k :: k in e.metrics && k !in metrics ==> r.metrics[k] == e.metrics[k]
    ensures r == e.(metrics := r.metrics)
  {
    e.(metrics := e.metrics + metrics)
  }

  /** Logging metrics twice is logging their merge once, the later values winning. */
  lemma WithMetricsTwice(e: Experiment, first: map<string, real>, second: map<string, real>)
    ensures WithMetrics(WithMetrics(e, first), second) == WithMetrics(e, first + second)
  {
  }

  /** `log_metrics`: the stored record with the new metrics merged in, written back. */
  function LogMetrics(s: Store.Store, id: string, metrics: map<string, real>): (r: Result<(Store.Store, Experiment)>)
    requires Store.Valid(s)
    ensures r.Failure? <==> id !in s.experiments
    ensures r.Failure? ==> r.error == NotFound(id)
    ensures r.Success? ==> r.value.1 == WithMetrics(s.experiments[id], metrics) && WrittenBack(s, r.value.0, r.value.1)
  {
    match Store.GetExperiment(s, id)
    case None => Failure(NotFound(id))
    case Some(stored) => Success(Store.UpdateExperiment(s, WithMetrics(stored, metrics)))
  }

  /** `log_parameters`: the stored record with `parameters.update` applied, written back. */
  function LogParameters(s: Store.Store, id: string, parameters: map<string, Json>): (r: Result<(Store.Store, Experiment)>)
    requires Store.Valid(s)
    ensures r.Failure? <==> id !in s.experiments
    ensures r.Failure? ==> r.error == NotFound(id)
    ensures r.Success? ==>
      var stored := s.experiments[id];
      && r.value.1 == stored.(parameters := DictUpdate(stored.parameters, parameters))
      && WrittenBack(s, r.value.0, r.value.1)
  {
    match Store.GetExperiment(s, id)
    case None => Failure(NotFound(id))
    case Some(stored) => Success(Store.UpdateExperiment(s, stored.(parameters := DictUpdate(stored.parameters, parameters))))
  }

  /**
   * `complete_experiment`: status "completed" and the given duration; the final metrics are
   * merged in (an empty map, Python's falsy `metrics`, is skipped), and the notes are replaced
   * only by non-empty notes.
   */
  function CompleteExperiment(s: Store.Store, id: string, metrics: map<string, real>, duration: real, notes: string)
    : (r: Result<(Store.Store, Experiment)>)
    requires Store.Valid(s)
    ensures r.Failure? <==> id !in s.experiments
    ensures r.Failure? ==> r.error == NotFound(id)
    ensures r.Success? ==>
      var (s', e) := r.value;
      var stored := s.experiments[id];
      && e.status == StatusCompleted && e.durationSeconds == duration
      && (forall k :: k in e.metrics <==> k in stored.metrics || k in metrics)
      && (forall k :: k in e.metrics ==> e.metrics[k] == if k in metrics then metrics[k] else stored.metrics[k])
      && e.notes == (if notes == "" then stored.notes else notes)
      && e == stored.(status := StatusCompleted, durationSeconds := duration, metrics := e.metrics, notes := e.notes)
      && WrittenBack(s, s', e)
  {
    match Store.GetExperiment(s, id)
    case None => Failure(NotFound(id))
    case Some(stored) =>
      var merged := if |metrics| > 0 then stored.metrics + metrics else stored.metrics;
      var noted := if notes != "" then notes else stored.notes;
      Success(Store.UpdateExperiment(s, stored.(status := StatusCompleted, durationSeconds := duration,
                                                metrics := merged, notes := noted)))
  }

  /** `fail_experiment`: status "failed", and the notes become the failure message, replacing any notes before. */
  function FailExperiment(s: Store.Store, id: string, message: string): (r: Result<(Store.Store, Experiment)>)
    requires Store.Valid(s)
    ensures r.Failure? <==> id !in s.experiments
    ensures r.Failure? ==> r.error == NotFound(id)
    ensures r.Success? ==>
      var (s', e) := r.value;
      && e.status == StatusFailed && e.notes == "Failed: " + message
      && e == s.experiments[id].(status := StatusFailed, notes := e.notes)
      && WrittenBack(s, s', e)
  {
    match Store.GetExperiment(s, id)
    case None => Failure(NotFound(id))
    case Some(stored) => Success(Store.UpdateExperiment(s, stored.(status := StatusFailed, notes := "Failed: " + message)))
  }

  /**
   * Statuses are never checked: from any stored state, completing and then failing an
   * experiment succeeds and ends in "failed" with the failure message as its only note, and
   * starting it again afterwards succeeds too.
   */
  lemma NoStatusGuard(s: Store.Store, id: string, metrics: map<string, real>, duration: real, notes: string,
                      message: string, now: string)
    requires Store.Valid(s) && id in s.experiments
    ensures CompleteExperiment(s, id, metrics, duration, notes).Success?
    ensures var done := CompleteExperiment(s, id, metrics, duration, notes).value.0;
      var failed := FailExperiment(done, id, message);
      && failed.Success? && failed.value.1.status == StatusFailed && failed.value.1.notes == "Failed: " + message
      && failed.value.1.durationSeconds == duration
      && StartExperiment(failed.value.0, id, now).Success?
      && StartExperiment(failed.value.0, id, now).value.1.status == StatusRunning
  {
    var done := CompleteExperiment(s, id, metrics, duration, notes).value;
    assert done.1.id == id;
    var failed := FailExperiment(done.0, id, message).value;
    assert failed.1.id == id;
  }

  /** Completing with no metrics and no notes keeps the logged metrics and the notes. */
  lemma CompleteKeepsLogged(s: Store.Store, id: string, duration: real)
    requires Store.Valid(s) && id in s.experiments
    ensures CompleteExperiment(s, id, map[], duration, "").Success?
    ensures var e := CompleteExperiment(s, id, map[], duration, "").value.1;
      e.metrics == s.experiments[id].metrics && e.notes == s.experiments[id].notes
  {
  }

  // ---------------------------------------------------------------------------
  // comparison

  /** The header fields `compare_experiments` lists for each experiment. */
  datatype Summary = Summary(id: string, name: string, modelType: string, status: string, timestamp: string)

  /** `{metric: {experiment id: value or None}}` and the same for parameters. */
  datatype Comparison = Comparison(
    experiments: seq<Summary>,
    metrics: map<string, map<string, Option<real>>>,
    parameters: map<string, map<string, Option<Json>>>)

  function SummaryOf(e: Experiment): Summary {
    Summary(e.id, e.name, e.modelType, e.status, e.timestamp)
  }

  /** The ids that resolve to a stored experiment, in the order given (duplicates kept). */
  function Resolved(s: Store.Store, ids: seq<string>): (r: seq<string>)
    ensures forall id :: id in r <==> id in ids && id in s.experiments
    ensures IsSubsequence(r, ids)
  {
    Filter(ids, id => id in s.experiments)
  }

  /** `dict.get`: the value under `k`, or None. */
  function Lookup<V>(m: map<string, V>, k: string): Option<V> {
    if k in m then Some(m[k]) else None
  }

  /**
   * `{name: {id: field(experiment).get(name) for each experiment} for name in all names}`: the
   * names are those of any of the experiments, and each maps every id to its value or None.
   */
  function Table<V>(exps: map<string, Experiment>, ids: seq<string>, field: Experiment -> map<string, V>)
    : (r: map<string, map<string, Option<V>>>)
    requires forall id :: id in ids ==> id in exps
    ensures forall k :: k in r <==> exists id :: id in ids && k in field(exps[id])
    ensures forall k, id :: k in r ==> (id in r[k] <==> id in ids)
    ensures forall k, id :: k in r && id in r[k] ==> r[k][id] == Lookup(field(exps[id]), k)
  {
    var names := set id, k | id in ids && k in field(exps[id]) :: k;
    map k | k in names :: map id | id in ids :: Lookup(field(exps[id]), k)
  }

  /**
   * `compare_experiments`: unknown ids are skipped; the metric names are the union of the
   * resolved experiments' metric names, and each maps every resolved id to that experiment's
   * value or None; the same for parameters.
   */
  function CompareExperiments(s: Store.Store, ids: seq<string>): (r: Comparison)
    ensures var known := Resolved(s, ids);
      && |r.experiments| == |known|
      && (forall i :: 0 <= i < |known| ==> r.experiments[i] == SummaryOf(s.experiments[known[i]]))
      && (forall k :: k in r.metrics <==> exists id :: id in known && k in s.experiments[id].metrics)
      && (forall k :: k in r.parameters <==> exists id :: id in known && k in s.experiments[id].parameters)
      && (forall k, id :: k in r.metrics ==> (id in r.metrics[k] <==> id in known))
      && (forall k, id :: k in r.parameters ==> (id in r.parameters[k] <==> id in known))
      && (forall k, id :: k in r.metrics && id in r.metrics[k] ==>
            r.metrics[k][id] == Lookup(s.experiments[id].metrics, k))
      && (forall k, id :: k in r.parameters && id in r.parameters[k] ==>
            r.parameters[k][id] == Lookup(s.experiments[id].parameters, k))
    ensures Resolved(s, ids) == [] ==> r == Comparison([], map[], map[])
  {
    var known := Resolved(s, ids);
    if known == [] then Comparison([], map[], map[])
    else
      Comparison(
        seq(|known|, i requires 0 <= i < |known| => SummaryOf(s.experiments[known[i]])),
        Table(s.experiments, known, (e: Experiment) => e.metrics),
        Table(s.experiments, known, (e: Experiment) => e.parameters))
  }

  /** In a valid store, each resolved experiment's logged value is reported under its own id. */
  lemma CompareReportsValues(s: Store.Store, ids: seq<string>, id: string, k: string)
    requires Store.Valid(s)
    requires id in ids && id in s.experiments && k in s.experiments[id].metrics
    ensures var c := CompareExperiments(s, ids);
      var e := s.experiments[id];
      k in c.metrics && e.id in c.metrics[k] && c.metrics[k][e.id] == Some(e.metrics[k])
  {
    assert id in Resolved(s, ids);
  }

  // ---------------------------------------------------------------------------
  // best experiment

  /** A run `get_best_experiment` considers: completed, with a value for the metric. */
  predicate Eligible(e: Experiment, metric: string) {
    e.status == StatusCompleted && metric in e.metrics
  }

  /** `a` is strictly better than `b` on an eligible metric in the chosen direction. */
  predicate Beats(a: Experiment, b: Experiment, metric: string, higherIsBetter: bool)
    requires metric in a.metrics && metric in b.metrics
  {
    if higherIsBetter then a.metrics[metric] > b.metrics[metric] else a.metrics[metric] < b.metrics[metric]
  }

  /**
   * The loop of `get_best_experiment` over a list: the position of the first eligible run that
   * no eligible run beats; a later run must be strictly better to replace the current best, so
   * the earliest of equal runs wins.
   */
  method BestIndex(exps: seq<Experiment>, metric: string, higherIsBetter: bool) returns (best: Option<nat>)
    ensures best.None? <==> forall i :: 0 <= i < |exps| ==> !Eligible(exps[i], metric)
    ensures best.Some? ==>
      var b := best.value;
      && b < |exps| && Eligible(exps[b], metric)
      && (forall j :: 0 <= j < |exps| && Eligible(exps[j], metric) ==> !Beats(exps[j], exps[b], metric, higherIsBetter))
      && (forall j :: 0 <= j < b && Eligible(exps[j], metric) ==> Beats(exps[b], exps[j], metric, higherIsBetter))
  {
    best := None;
    for i := 0 to |exps|
      invariant best.None? <==> forall j :: 0 <= j < i ==> !Eligible(exps[j], metric)
      invariant best.Some? ==>
        && best.value < i && Eligible(exps[best.value], metric)
        && (forall j :: 0 <= j < i && Eligible(exps[j], metric) ==> !Beats(exps[j], exps[best.value], metric, higherIsBetter))
        && (forall j :: 0 <= j < best.value && Eligible(exps[j], metric) ==> Beats(exps[best.value], exps[j], metric, higherIsBetter))
    {
      var e := exps[i];
      if Eligible(e, metric) {
        if best.None? || Beats(e, exps[best.value], metric, higherIsBetter) {
          best := Some(i);
        }
      }
    }
  }

  /**
   * `get_best_experiment`: among the dataset's completed experiments that have the metric, one
   * that none of the others beats; None when there is no such experiment.
   */
  method GetBestExperiment(s: Store.Store, datasetId: string, metric: string, higherIsBetter: bool)
    returns (r: Option<Experiment>)
    ensures r.None? <==>
      forall e :: e in s.experiments.Values && e.datasetId == datasetId ==> !Eligible(e, metric)
    ensures r.Some? ==>
      && r.value in s.experiments.Values && r.value.datasetId == datasetId && Eligible(r.value, metric)
      && forall e :: e in s.experiments.Values && e.datasetId == datasetId && Eligible(e, metric) ==>
           !Beats(e, r.value, metric, higherIsBetter)
  {
    var exps := Store.ExperimentsByDataset(s, datasetId);
    var best := BestIndex(exps, metric, higherIsBetter);
    if best.None? {
      r := None;
      forall e | e in s.experiments.Values && e.datasetId == datasetId ensures !Eligible(e, metric) {
        var i :| 0 <= i < |exps| && exps[i] == e;
      }
    } else {
      r := Some(exps[best.value]);
      forall e | e in s.experiments.Values && e.datasetId == datasetId && Eligible(e, metric)
        ensures !Beats(e, r.value, metric, higherIsBetter)
      {
        var i :| 0 <= i < |exps| && exps[i] == e;
      }
    }
  }

  // ---------------------------------------------------------------------------
  // search

  /**
   * The filters of `search_experiments`. An empty string, list or map is Python's falsy
   * argument (or None) and disables that filter.
   */
  datatype Query = Query(modelType: string, status: string, tags: seq<string>, minMetric: map<string, real>)

  const NoFilter := Query("", "", [], map[])

  /** `metrics.get(name, 0)`. */
  function MetricOrZero(e: Experiment, name: string): real {
    if name in e.metrics then e.metrics[name] else 0.0
  }

  /** Every active filter passes: same model type, same status, one shared tag, every minimum met. */
  predicate Matches(e: Experiment, q: Query) {
    && (q.modelType == "" || e.modelType == q.modelType)
    && (q.status == "" || e.status == q.status)
    && (q.tags == [] || exists t :: t in q.tags && t in e.tags)
    && (forall k :: k in q.minMetric ==> MetricOrZero(e, k) >= q.minMetric[k])
  }

  /** `Matches` with the query fixed, as a filter predicate. */
  function Matcher(q: Query): Experiment -> bool {
    e => Matches(e, q)
  }

  /** The loop of `search_experiments` over a list: the matching experiments in their original order. */
  function Search(exps: seq<Experiment>, q: Query): (r: seq<Experiment>)
    ensures IsSubsequence(r, exps)
    ensures forall e :: e in r <==> e in exps && Matches(e, q)
    ensures forall e :: multiset(r)[e] == if Matches(e, q) then multiset(exps)[e] else 0
  {
    Filter(exps, Matcher(q))
  }

  /** `search_experiments`: every stored experiment that matches, once each, newest first. */
  method SearchExperiments(s: Store.Store, q: Query) returns (r: seq<Experiment>)
    ensures forall e :: e in r <==> e in s.experiments.Values && Matches(e, q)
    ensures Store.Valid(s) ==> forall e :: multiset(r)[e] == if e in s.experiments.Values && Matches(e, q) then 1 else 0
    ensures SortedBy(r, Store.ExperimentNewerOrSame)
  {
    var all := Store.AllExperiments(s);
    r := Search(all, q);
    SubsequenceSorted(r, all, Store.ExperimentNewerOrSame);
  }

  /** With no filter set, the search returns its input unchanged. */
  lemma SearchWithoutFilters(exps: seq<Experiment>)
    ensures Search(exps, NoFilter) == exps
  {
    FilterAll(exps, Matcher(NoFilter));
  }

  /** The filters are conjunctive: searching by model type and then by status is one search by both. */
  lemma SearchConjunctive(exps: seq<Experiment>, modelType: string, status: string)
    ensures Search(Search(exps, Query(modelType, "", [], map[])), Query("", status, [], map[]))
         == Search(exps, Query(modelType, status, [], map[]))
  {
    FilterFilter(exps, Matcher(Query(modelType, "", [], map[])), Matcher(Query("", status, [], map[])),
                 Matcher(Query(modelType, status, [], map[])));
  }
}

=== FILE: labeling.dfy ===
/**
 * Dataset labeling (services/labeling_service.py): adding and editing per-item annotations,
 * looking one up by item index, bulk labeling, labeling statistics, export and import of
 * annotations as JSON or CSV, and the list of items still unlabeled. The annotations table has
 * a foreign key to datasets, but foreign keys are not switched on, so nothing here checks that
 * the dataset exists.
 */
module Labeling {
  import opened Wrappers
  import opened Records
  import opened Collections
  import opened Text
  import Store

  /** The error `update_label` raises for an id that is not stored. */
  function NotFound(id: string): string {
    "Annotation not found: " + id
  }

  /**
   * `s'` is `s` with `a` stored under its id: every other annotation and every other table is
   * as before, and the store keeps its keys.
   */
  ghost predicate WrittenBack(s: Store.Store, s': Store.Store, a: Annotation) {
    && Store.GetAnnotation(s', a.id) == Some(a)
    && (forall k :: k != a.id ==> Store.GetAnnotation(s', k) == Store.GetAnnotation(s, k))
    && s'.datasets == s.datasets && s'.experiments == s.experiments && s'.models == s.models
    && Store.Valid(s')
  }

  // ---------------------------------------------------------------------------
  // add_label and bulk_label

  /**
   * One label to add: the item, its label, and the optional path, tags and metadata. `None`
   * stands for an argument left out (or a key missing from a `bulk_label` entry).
   */
  datatype LabelEntry = LabelEntry(
    itemIndex: int,
    labelValue: string,
    itemPath: Option<string>,
    tags: Option<seq<string>>,
    metadata: Option<map<string, Json>>)

  /**
   * The annotation `add_label` builds for an entry; `id` and `now` stand for the generated uuid
   * and the clock. Python's `tags or []` and `metadata or {}` turn an omitted value into an
   * empty one and leave a given one as it is.
   */
  function EntryAnnotation(id: string, datasetId: string, entry: LabelEntry, now: string): (a: Annotation)
    ensures a.id == id && a.datasetId == datasetId
    ensures a.itemIndex == entry.itemIndex && a.labelValue == entry.labelValue
    ensures a.itemPath == (if entry.itemPath.Some? then entry.itemPath.value else "")
    ensures entry.tags.None? ==> a.tags == []
    ensures entry.tags.Some? ==> a.tags == entry.tags.value
    ensures entry.metadata.None? ==> a.metadata == map[]
    ensures entry.metadata.Some? ==> a.metadata == entry.metadata.value
    ensures a.createdAt == now && a.updatedAt == now
  {
    NewAnnotation(id, datasetId, entry.itemIndex, now).(
      itemPath := entry.itemPath.GetOr(""), labelValue := entry.labelValue,
      tags := entry.tags.GetOr([]), metadata := entry.metadata.GetOr(map[]))
  }

  /** `add_label`: inserts the new annotation, which fails only when its id is taken. */
  function AddLabel(s: Store.Store, id: string, datasetId: string, entry: LabelEntry, now: string)
    : (r: Result<(Store.Store, Annotation)>)
    requires Store.Valid(s)
    ensures r.Success? <==> id !in s.annotations
    ensures r.Success? ==>
      var (s', a) := r.value;
      && a == EntryAnnotation(id, datasetId, entry, now)
      && Store.GetAnnotation(s, id).None? && WrittenBack(s, s', a)
  {
    var a := EntryAnnotation(id, datasetId, entry, now);
    var s' :- Store.CreateAnnotation(s, a);
    Success((s', a))
  }

  /** Ids that no stored annotation uses and that are pairwise distinct, as fresh uuids are. */
  ghost predicate FreshIds(s: Store.Store, ids: seq<string>) {
    NoDuplicates(ids) && forall i :: 0 <= i < |ids| ==> ids[i] !in s.annotations
  }

  /**
   * `bulk_label`: one `add_label` per entry, in order. The result lists the new annotations in
   * input order, each carrying its entry's item index and label, and the store gains exactly
   * those annotations.
   */
  function BulkLabel(s: Store.Store, datasetId: string, entries: seq<LabelEntry>, ids: seq<string>, now: string)
    : (r: (Store.Store, seq<Annotation>))
    requires Store.Valid(s) && |ids| == |entries| && FreshIds(s, ids)
    ensures |r.1| == |entries|
    ensures forall i :: 0 <= i < |entries| ==> r.1[i] == EntryAnnotation(ids[i], datasetId, entries[i], now)
    ensures forall i :: 0 <= i < |ids| ==> Store.GetAnnotation(r.0, ids[i]) == Some(r.1[i])
    ensures forall k :: k !in ids ==> Store.GetAnnotation(r.0, k) == Store.GetAnnotation(s, k)
    ensures r.0.datasets == s.datasets && r.0.experiments == s.experiments && r.0.models == s.models
    ensures Store.Valid(r.0)
    decreases |entries|
  {
    if entries == [] then (s, [])
    else
      var added := AddLabel(s, ids[0], datasetId, entries[0], now);
      var (s1, a) := added.value;
      FreshTail(s, s1, ids);
      var (s2, rest) := BulkLabel(s1, datasetId, entries[1..], ids[1..], now);
      BulkStep(s, s1, s2, ids, a, rest);
      (s2, [a] + rest)
  }

  /** After the first id is used, the remaining ones are still fresh. */
  lemma FreshTail(s: Store.Store, s1: Store.Store, ids: seq<string>)
    requires FreshIds(s, ids) && |ids| >= 1
    requires forall k :: k != ids[0] ==> Store.GetAnnotation(s1, k) == Store.GetAnnotation(s, k)
    ensures FreshIds(s1, ids[1..])
  {
    forall i | 0 <= i < |ids| - 1 ensures ids[1..][i] !in s1.annotations {
      assert ids[1..][i] == ids[i + 1] != ids[0];
      assert Store.GetAnnotation(s1, ids[i + 1]) == Store.GetAnnotation(s, ids[i + 1]);
    }
  }

  /** The bookkeeping of one step of `BulkLabel`: the first insert, then the rest. */
  lemma BulkStep(s: Store.Store, s1: Store.Store, s2: Store.Store, ids: seq<string>, a: Annotation, rest: seq<Annotation>)
    requires |ids| == |rest| + 1 && NoDuplicates(ids)
    requires Store.GetAnnotation(s1, ids[0]) == Some(a)
    requires forall k :: k != ids[0] ==> Store.GetAnnotation(s1, k) == Store.GetAnnotation(s, k)
    requires forall i :: 0 <= i < |rest| ==> Store.GetAnnotation(s2, ids[1..][i]) == Some(rest[i])
    requires forall k :: k !in ids[1..] ==> Store.GetAnnotation(s2, k) == Store.GetAnnotation(s1, k)
    ensures forall i :: 0 <= i < |ids| ==> Store.GetAnnotation(s2, ids[i]) == Some(([a] + rest)[i])
    ensures forall k :: k !in ids ==> Store.GetAnnotation(s2, k) == Store.GetAnnotation(s, k)
  {
    assert ids == [ids[0]] + ids[1..];
    assert ids[0] !in ids[1..] by {
      forall i | 0 <= i < |ids| - 1 ensures ids[1..][i] != ids[0] {
        assert ids[1..][i] == ids[i + 1];
      }
    }
    forall i | 1 <= i < |ids| ensures Store.GetAnnotation(s2, ids[i]) == Some(([a] + rest)[i]) {
      assert ids[i] == ids[1..][i - 1];
    }
  }

  /** Each annotation `bulk_label` returns carries its entry's item index and label and the dataset. */
  lemma BulkLabelCopiesEntries(s: Store.Store, datasetId: string, entries: seq<LabelEntry>, ids: seq<string>, now: string)
    requires Store.Valid(s) && |ids| == |entries| && FreshIds(s, ids)
    ensures var anns := BulkLabel(s, datasetId, entries, ids, now).1;
      forall i :: 0 <= i < |entries| ==>
        && anns[i].itemIndex == entries[i].itemIndex && anns[i].labelValue == entries[i].labelValue
        && anns[i].datasetId == datasetId
  {
  }

  // ---------------------------------------------------------------------------
  // update_label

  /**
   * The edit `update_label` makes to a record: label and tags are replaced only when given,
   * given metadata is merged over the stored metadata key by key, and `updated_at` becomes
   * `now`; the id, dataset, item, path and creation time stay.
   */
  function Relabeled(a: Annotation, labelValue: Option<string>, tags: Option<seq<string>>,
                     metadata: Option<map<string, Json>>, now: string): (r: Annotation)
    ensures r.labelValue == (if labelValue.Some? then labelValue.value else a.labelValue)
    ensures r.tags == (if tags.Some? then tags.value else a.tags)
    ensures metadata.None? ==> r.metadata == a.metadata
    ensures metadata.Some? ==>
      && r.metadata.Keys == a.metadata.Keys + metadata.value.Keys
      && (forall k :: k in metadata.value ==> r.metadata[k] == metadata.value[k])
      && (forall k :: k in a.metadata && k !in metadata.value ==> r.metadata[k] == a.metadata[k])
    ensures r.updatedAt == now
    ensures r == a.(labelValue := r.labelValue, tags := r.tags, metadata := r.metadata, updatedAt := now)
  {
    a.(labelValue := labelValue.GetOr(a.labelValue),
       tags := tags.GetOr(a.tags),
       metadata := if metadata.Some? then a.metadata + metadata.value else a.metadata,
       updatedAt := now)
  }

  /**
   * `update_label`: an unknown id raises; otherwise the stored record is edited as `Relabeled`
   * says and written back. The record is read back through `Annotation.from_dict`, which gives
   * the stored record unchanged (Records.AnnotationRoundTrip).
   */
  function UpdateLabel(s: Store.Store, id: string, labelValue: Option<string>, tags: Option<seq<string>>,
                       metadata: Option<map<string, Json>>, now: string): (r: Result<(Store.Store, Annotation)>)
    requires Store.Valid(s)
    ensures r.Failure? <==> id !in s.annotations
    ensures r.Failure? ==> r.error == NotFound(id)
    ensures r.Success? ==>
      var (s', a) := r.value;
      && a == Relabeled(s.annotations[id], labelValue, tags, metadata, now)
      && a.id == id && a.datasetId == s.annotations[id].datasetId && a.itemIndex == s.annotations[id].itemIndex
      && WrittenBack(s, s', a)
  {
    match Store.GetAnnotation(s, id)
    case None => Failure(NotFound(id))
    case Some(stored) =>
      Success(Store.UpdateAnnotation(s, Relabeled(stored, labelValue, tags, metadata, now)))
  }

  /** Two metadata updates in a row leave what one update with both maps merged would. */
  lemma RelabeledMetadataTwice(a: Annotation, m1: map<string, Json>, m2: map<string, Json>, t1: string, t2: string)
    ensures Relabeled(Relabeled(a, None, None, Some(m1), t1), None, None, Some(m2), t2)
         == Relabeled(a, None, None, Some(m1 + m2), t2)
  {
    assert a.metadata + m1 + m2 == a.metadata + (m1 + m2);
  }

  /** An update with nothing to change only moves `updated_at`. */
  lemma RelabeledNothing(a: Annotation, now: string)
    ensures Relabeled(a, None, None, None, now) == a.(updatedAt := now)
  {
  }

  // ---------------------------------------------------------------------------
  // get_annotation_by_index

  /** The position of the first annotation with the given item index, scanning from the front. */
  method FirstWithIndex(anns: seq<Annotation>, itemIndex: int) returns (r: Option<nat>)
    ensures r.None? <==> forall i :: 0 <= i < |anns| ==> anns[i].itemIndex != itemIndex
    ensures r.Some? ==> r.value < |anns| && anns[r.value].itemIndex == itemIndex
    ensures r.Some? ==> forall i :: 0 <= i < r.value ==> anns[i].itemIndex != itemIndex
  {
    var i := 0;
    while i < |anns|
      invariant 0 <= i <= |anns|
      invariant forall j :: 0 <= j < i ==> anns[j].itemIndex != itemIndex
    {
      if anns[i].itemIndex == itemIndex {
        return Some(i);
      }
      i := i + 1;
    }
    return None;
  }

  /**
   * `get_annotation_by_index`: the first annotation of the dataset, in `item_index` order, for
   * that item; `None` exactly when the dataset has no annotation for it.
   */
  method GetAnnotationByIndex(s: Store.Store, datasetId: string, itemIndex: int) returns (r: Option<Annotation>)
    ensures r.Some? ==> r.value in s.annotations.Values && r.value.datasetId == datasetId && r.value.itemIndex == itemIndex
    ensures r.None? <==> forall a :: a in s.annotations.Values && a.datasetId == datasetId ==> a.itemIndex != itemIndex
  {
    var anns := Store.AnnotationsByDataset(s, datasetId);
    var found := FirstWithIndex(anns, itemIndex);
    if found.Some? {
      r := Some(anns[found.value]);
    } else {
      r := None;
      forall a | a in s.annotations.Values && a.datasetId == datasetId
        ensures a.itemIndex != itemIndex
      {
        var i :| 0 <= i < |anns| && anns[i] == a;
      }
    }
  }

  /** `delete_label`: removes that one annotation and reports whether it existed. */
  function DeleteLabel(s: Store.Store, id: string): (r: (Store.Store, bool))
    ensures r.1 <==> id in s.annotations
    ensures id !in r.0.annotations
    ensures forall k :: k != id ==> Store.GetAnnotation(r.0, k) == Store.GetAnnotation(s, k)
    ensures r.0.datasets == s.datasets && r.0.experiments == s.experiments && r.0.models == s.models
  {
    Store.DeleteAnnotation(s, id)
  }

  /** `clear_annotations`: removes every annotation of the dataset and returns how many went. */
  function ClearAnnotations(s: Store.Store, datasetId: string): (r: (Store.Store, nat))
    ensures r.1 == |s.annotations| - |r.0.annotations|
    ensures forall k :: k in r.0.annotations <==> k in s.annotations && s.annotations[k].datasetId != datasetId
    ensures forall k :: k in r.0.annotations ==> r.0.annotations[k] == s.annotations[k]
    ensures r.0.datasets == s.datasets && r.0.experiments == s.experiments && r.0.models == s.models
  {
    Store.DeleteAnnotationsByDataset(s, datasetId)
  }

  // ---------------------------------------------------------------------------
  // get_label_statistics

  /** The labels of the annotations, in order. */
  function LabelsOf(anns: seq<Annotation>): (r: seq<string>)
    ensures |r| == |anns| && forall i :: 0 <= i < |anns| ==> r[i] == anns[i].labelValue
  {
    if anns == [] then [] else [anns[0].labelValue] + LabelsOf(anns[1..])
  }

  /** Every tag of every annotation, annotation by annotation, each tag as often as it is listed. */
  function TagsOf(anns: seq<Annotation>): (r: seq<string>)
    ensures forall t :: t in r <==> exists i :: 0 <= i < |anns| && t in anns[i].tags
  {
    if anns == [] then [] else anns[0].tags + TagsOf(anns[1..])
  }

  /** Python's truth value of a label: only the empty string is false. */
  predicate IsLabeled(labelValue: string) {
    labelValue != ""
  }

  /** The dictionary `get_label_statistics` returns for a dataset that exists. */
  datatype Stats = Stats(
    totalItems: int,
    labeledItems: nat,
    unlabeledItems: nat,
    progressPercent: real,
    labelDistribution: map<string, int>,
    tagDistribution: map<string, int>,
    uniqueLabels: nat,
    uniqueTags: nat)

  /**
   * The statistics of a dataset with `rowCount` rows and annotations `anns`. Every annotation
   * counts as labeled, even one with an empty label, but only non-empty labels enter the label
   * distribution. The percentage is exact here (Python computes it in floating point).
   */
  function Statistics(rowCount: int, anns: seq<Annotation>): (r: Stats)
    ensures r.totalItems == rowCount && r.labeledItems == |anns|
    ensures r.labeledItems + r.unlabeledItems >= rowCount
    ensures r.unlabeledItems == 0 || r.labeledItems + r.unlabeledItems == rowCount
    ensures r.progressPercent == Progress(|anns|, rowCount)
    ensures forall l :: l in r.labelDistribution <==> IsLabeled(l) && l in LabelsOf(anns)
    ensures forall l :: l in r.labelDistribution ==> r.labelDistribution[l] == multiset(LabelsOf(anns))[l]
    ensures forall t :: t in r.tagDistribution <==> t in TagsOf(anns)
    ensures forall t :: t in r.tagDistribution ==> r.tagDistribution[t] == multiset(TagsOf(anns))[t]
    ensures r.uniqueLabels == |r.labelDistribution| && r.uniqueTags == |r.tagDistribution|
  {
    var labeled := |anns|;
    var labels := Tally(Filter(LabelsOf(anns), IsLabeled));
    var tags := Tally(TagsOf(anns));
    Stats(
      rowCount,
      labeled,
      if rowCount - labeled > 0 then rowCount - labeled else 0,
      Progress(labeled, rowCount),
      labels,
      tags,
      |labels|,
      |tags|)
  }

  /**
   * `progress_percent`: `labeled / total * 100` when the dataset has rows, and 0 when it has
   * none (the division is guarded, so an empty dataset does not raise).
   */
  function Progress(labeled: nat, total: int): (p: real)
    ensures total <= 0 ==> p == 0.0
    ensures total > 0 ==> p * (total as real) == (labeled as real) * 100.0
    ensures total > 0 ==> (p <= 100.0 <==> labeled <= total)
  {
    if total <= 0 then 0.0
    else
      var q := (labeled as real) / (total as real);
      assert q * (total as real) == labeled as real;
      q * 100.0
  }

  /** The label counts add up to at most the number of annotations, and to exactly that when no label is empty. */
  lemma LabelDistributionTotal(rowCount: int, anns: seq<Annotation>)
    ensures MapSum(Statistics(rowCount, anns).labelDistribution) <= Statistics(rowCount, anns).labeledItems
    ensures (forall i :: 0 <= i < |anns| ==> IsLabeled(anns[i].labelValue)) ==>
      MapSum(Statistics(rowCount, anns).labelDistribution) == Statistics(rowCount, anns).labeledItems
  {
    var labels := Filter(LabelsOf(anns), IsLabeled);
    TallyTotal(labels);
    if forall i :: 0 <= i < |anns| ==> IsLabeled(anns[i].labelValue) {
      FilterAll(LabelsOf(anns), IsLabeled);
    }
  }

  /** The tag counts add up to the number of tag occurrences. */
  lemma TagDistributionTotal(rowCount: int, anns: seq<Annotation>)
    ensures MapSum(Statistics(rowCount, anns).tagDistribution) == |TagsOf(anns)|
  {
    TallyTotal(TagsOf(anns));
  }

  /**
   * `get_label_statistics`: `anns` are the dataset's annotations as `get_annotations_by_dataset`
   * lists them; a missing dataset gives the error entry instead of statistics.
   */
  method LabelStatistics(s: Store.Store, datasetId: string) returns (anns: seq<Annotation>, r: Result<Stats>)
    ensures forall a :: a in anns <==> a in s.annotations.Values && a.datasetId == datasetId
    ensures r.Failure? <==> datasetId !in s.datasets
    ensures r.Failure? ==> r.error == "Dataset not found"
    ensures r.Success? ==> r.value == Statistics(s.datasets[datasetId].rowCount, anns)
    ensures Store.Valid(s) ==>
      forall a :: multiset(anns)[a] == if a in s.annotations.Values && a.datasetId == datasetId then 1 else 0
  {
    anns := Store.AnnotationsByDataset(s, datasetId);
    match Store.GetDataset(s, datasetId)
    case None =>
      r := Failure("Dataset not found");
    case Some(d) =>
      r := Success(Statistics(d.rowCount, anns));
  }

  // ---------------------------------------------------------------------------
  // the tags cell of the CSV format

  /** Export writes the tags into one cell as `';'.join(tags)`. */
  function EncodeTags(tags: seq<string>): string {
    Join(tags, ';')
  }

  /** Each piece stripped, and the pieces that strip to nothing dropped. */
  function CleanPieces(pieces: seq<string>): (r: seq<string>)
    ensures |r| <= |pieces|
    ensures forall t :: t in r ==> t != "" && IsStripped(t)
  {
    if pieces == [] then []
    else
      var t := Strip(pieces[0]);
      var rest := CleanPieces(pieces[1..]);
      if t == [] then rest else [t] + rest
  }

  /**
   * Import reads the tags cell back: an empty or missing cell gives no tags; otherwise the cell
   * is split at ';', every piece stripped, and empty pieces dropped.
   */
  function DecodeTags(cell: string): (r: seq<string>)
    ensures cell == "" ==> r == []
    ensures forall t :: t in r ==> t != "" && IsStripped(t)
  {
    if cell == "" then [] else CleanPieces(Split(cell, ';'))
  }

  /** Every piece that strips to something is kept, stripped. */
  lemma {:induction false} CleanPiecesComplete(pieces: seq<string>, i: nat)
    requires i < |pieces| && Strip(pieces[i]) != []
    ensures Strip(pieces[i]) in CleanPieces(pieces)
  {
    if i > 0 {
      assert pieces[i] == pieces[1..][i - 1];
      CleanPiecesComplete(pieces[1..], i - 1);
    }
  }

  /** Every kept tag is the strip of some piece: the piece at `i`. */
  lemma {:induction false} CleanPiecesSound(pieces: seq<string>, t: string) returns (i: nat)
    requires t in CleanPieces(pieces)
    ensures i < |pieces| && t == Strip(pieces[i])
  {
    if t == Strip(pieces[0]) {
      i := 0;
    } else {
      var k := CleanPiecesSound(pieces[1..], t);
      assert pieces[1..][k] == pieces[k + 1];
      i := k + 1;
    }
  }

  /** The kept tags are exactly the non-empty strips of the pieces. */
  lemma CleanPiecesMembers(pieces: seq<string>, t: string)
    ensures t in CleanPieces(pieces) <==> t != [] && exists i :: 0 <= i < |pieces| && t == Strip(pieces[i])
  {
    if t in CleanPieces(pieces) {
      var i := CleanPiecesSound(pieces, t);
    }
    if t != [] && exists i :: 0 <= i < |pieces| && t == Strip(pieces[i]) {
      var i :| 0 <= i < |pieces| && t == Strip(pieces[i]);
      CleanPiecesComplete(pieces, i);
    }
  }

  /**
   * A tag is read from a non-empty cell exactly when it is the non-empty strip of one of the
   * cell's ';'-pieces.
   */
  lemma DecodeTagsMembers(cell: string, pieces: seq<string>, t: string)
    requires cell != "" && pieces == Split(cell, ';')
    ensures t in DecodeTags(cell) <==> t != [] && exists i :: 0 <= i < |pieces| && t == Strip(pieces[i])
  {
    assert DecodeTags(cell) == CleanPieces(pieces);
    CleanPiecesMembers(pieces, t);
  }

  /** A tag that survives the CSV cell: non-empty, free of ';' and of surrounding whitespace. */
  predicate CleanTag(t: string) {
    t != "" && ';' !in t && IsStripped(t)
  }

  lemma {:induction false} CleanPiecesKeepsClean(pieces: seq<string>)
    requires forall i :: 0 <= i < |pieces| ==> pieces[i] != "" && IsStripped(pieces[i])
    ensures CleanPieces(pieces) == pieces
  {
    if pieces != [] {
      StripIdentity(pieces[0]);
      CleanPiecesKeepsClean(pieces[1..]);
    }
  }

  /** Joining parts whose first part is non-empty gives a non-empty string. */
  lemma JoinNonEmpty(parts: seq<string>, sep: char)
    requires |parts| >= 1 && parts[0] != ""
    ensures Join(parts, sep) != ""
  {
    if |parts| > 1 {
      assert Join(parts, sep) == parts[0] + [sep] + Join(parts[1..], sep);
    }
  }

  /** Tags that are all clean come back from the CSV cell exactly, and no tags come back as none. */
  lemma TagsRoundTrip(tags: seq<string>)
    requires forall i :: 0 <= i < |tags| ==> CleanTag(tags[i])
    ensures DecodeTags(EncodeTags(tags)) == tags
  {
    if tags != [] {
      JoinNonEmpty(tags, ';');
      SplitJoin(tags, ';');
      CleanPiecesKeepsClean(tags);
    }
  }

  /** A tag with surrounding whitespace does not survive: " a" comes back as "a". */
  lemma PaddedTagIsStripped()
    ensures DecodeTags(EncodeTags([" a"])) == ["a"]
  {
    var padded := " a";
    PaddedCell(padded);
    PaddedStrip('a');
    var one: seq<string> := [padded];
    assert one[1..] == [];
    assert CleanPieces(one) == ["a"];
  }

  /** The cell of the single tag " a" is that tag, and it splits into itself. */
  lemma PaddedCell(padded: string)
    requires padded == " a"
    ensures EncodeTags([padded]) == padded && Split(padded, ';') == [padded]
  {
    assert padded == [' ', 'a'];
  }

  /** Stripping one leading blank before a non-blank character leaves that character. */
  lemma PaddedStrip(c: char)
    requires !IsSpace(c)
    ensures Strip([' ', c]) == [c]
  {
    assert StripLeft([' ', c]) == [c] by {
      assert [' ', c] == [' '] + [c];
      StripLeftBlank(' ', [c]);
      StripLeftStop([c]);
    }
    assert StripRight([c]) == [c] by {
      StripRightStop([c]);
    }
  }

  // ---------------------------------------------------------------------------
  // export_annotations

  /** The columns of the CSV export, in order. */
  const CsvHeader: seq<string> := ["item_index", "item_path", "label", "tags", "created_at"]

  /** One CSV export row: the writer turns the item index into its decimal text. */
  function CsvRow(a: Annotation): (r: seq<string>)
    ensures |r| == |CsvHeader|
  {
    [IntToString(a.itemIndex), a.itemPath, a.labelValue, EncodeTags(a.tags), a.createdAt]
  }

  /** One item of the JSON export: everything but the ids. */
  function JsonItem(a: Annotation): Json {
    JObject(map[
      "item_index" := JInt(a.itemIndex),
      "item_path" := JStr(a.itemPath),
      "label" := JStr(a.labelValue),
      "tags" := EncodeStrings(a.tags),
      "metadata" := JObject(a.metadata),
      "created_at" := JStr(a.createdAt),
      "updated_at" := JStr(a.updatedAt)])
  }

  /** What an export writes: a JSON list of items, or a CSV header and rows. */
  datatype Export =
    | JsonDocument(items: seq<Json>)
    | CsvTable(header: seq<string>, rows: seq<seq<string>>)

  /** The error both export and import raise for a format other than "json" and "csv". */
  function UnsupportedFormat(format: string): string {
    "Unsupported format: " + format
  }

  /**
   * `export_annotations`: one JSON item or CSV row per annotation, in the order given (the
   * dataset's annotations by `item_index`); any other format raises before anything is written.
   */
  function ExportAnnotations(anns: seq<Annotation>, format: string): (r: Result<Export>)
    ensures r.Failure? <==> format != "json" && format != "csv"
    ensures r.Failure? ==> r.error == UnsupportedFormat(format)
    ensures format == "json" ==>
      && r.Success? && r.value.JsonDocument? && |r.value.items| == |anns|
      && forall i :: 0 <= i < |anns| ==> r.value.items[i] == JsonItem(anns[i])
    ensures format == "csv" ==>
      && r.Success? && r.value.CsvTable? && r.value.header == CsvHeader && |r.value.rows| == |anns|
      && forall i :: 0 <= i < |anns| ==> r.value.rows[i] == CsvRow(anns[i])
  {
    if format == "json" then Success(JsonDocument(seq(|anns|, i requires 0 <= i < |anns| => JsonItem(anns[i]))))
    else if format == "csv" then Success(CsvTable(CsvHeader, seq(|anns|, i requires 0 <= i < |anns| => CsvRow(anns[i]))))
    else Failure(UnsupportedFormat(format))
  }

  // ---------------------------------------------------------------------------
  // import_annotations

  /**
   * `csv.DictReader`: a data row read against the header, each column name mapped to its cell;
   * when a name repeats, the later column wins. Cells beyond the header, and columns missing
   * from a short row, are not modelled.
   */
  function ReadRow(header: seq<string>, cells: seq<string>): (r: map<string, string>)
    ensures forall k :: k in r ==> k in header
    ensures |header| == |cells| ==> forall i :: 0 <= i < |header| ==> header[i] in r
    decreases |header|
  {
    if header == [] || cells == [] then map[]
    else
      var rest := ReadRow(header[1..], cells[1..]);
      if header[0] in rest then rest else rest[header[0] := cells[0]]
  }

  /** A key's value in a CSV row, or the default when the column is absent (`row.get(key, default)`). */
  function CellOr(row: map<string, string>, key: string, default: string): string {
    if key in row then row[key] else default
  }

  /**
   * The `add_label` arguments one CSV row gives: the item index through `int()`, label and path
   * defaulting to empty, the tags cell decoded, and no metadata. A missing or unreadable item
   * index raises.
   */
  function CsvEntry(row: map<string, string>): (r: Result<LabelEntry>)
    ensures "item_index" !in row ==> r.Failure?
    ensures "item_index" in row ==> (r.Success? <==> ParseInt(row["item_index"]).Some?)
    ensures r.Success? ==>
      && r.value.itemIndex == ParseInt(row["item_index"]).value
      && r.value.labelValue == CellOr(row, "label", "")
      && r.value.itemPath == Some(CellOr(row, "item_path", ""))
      && r.value.tags == Some(DecodeTags(CellOr(row, "tags", "")))
      && r.value.metadata.None?
  {
    if "item_index" !in row then Failure("KeyError: 'item_index'")
    else match ParseInt(row["item_index"])
      case None => Failure(IntError(row["item_index"]))
      case Some(n) =>
        Success(LabelEntry(n, CellOr(row, "label", ""), Some(CellOr(row, "item_path", "")),
                           Some(DecodeTags(CellOr(row, "tags", ""))), None))
  }

  /** `item.get(key, default)` for a string field of a JSON item; a value of another type is not modelled. */
  function StringOr(fields: map<string, Json>, key: string, default: string): Result<string> {
    if key !in fields then Success(default)
    else if fields[key].JStr? then Success(fields[key].s)
    else Failure("expected a string for " + key)
  }

  /** `item.get(key)` for the tags of a JSON item: absent or null means omitted. */
  function StringsField(fields: map<string, Json>, key: string): Result<Option<seq<string>>> {
    if key !in fields || fields[key].JNull? then Success(None)
    else
      var tags :- DecodeStrings(fields[key]);
      Success(Some(tags))
  }

  /** `item.get(key)` for the metadata of a JSON item: absent or null means omitted. */
  function ObjectField(fields: map<string, Json>, key: string): Result<Option<map<string, Json>>> {
    if key !in fields || fields[key].JNull? then Success(None)
    else
      var m :- DecodeObject(fields[key]);
      Success(Some(m))
  }

  /**
   * The `add_label` arguments one JSON item gives. A missing `item_index` raises; label and path
   * default to empty; tags and metadata are passed on as found.
   */
  function JsonEntry(item: Json): (r: Result<LabelEntry>)
    ensures r.Success? ==> item.JObject? && "item_index" in item.fields && item.fields["item_index"] == JInt(r.value.itemIndex)
    ensures item.JObject? && "item_index" !in item.fields ==> r.Failure?
    ensures r.Success? <==>
      && item.JObject?
      && "item_index" in item.fields && item.fields["item_index"].JInt?
      && ("label" in item.fields ==> item.fields["label"].JStr?)
      && ("item_path" in item.fields ==> item.fields["item_path"].JStr?)
      && ("tags" in item.fields && !item.fields["tags"].JNull? ==> DecodeStrings(item.fields["tags"]).Success?)
      && ("metadata" in item.fields && !item.fields["metadata"].JNull? ==> DecodeObject(item.fields["metadata"]).Success?)
    ensures r.Success? ==>
      var fields := item.fields;
      && r.value.labelValue == (if "label" in fields then fields["label"].s else "")
      && r.value.itemPath == Some(if "item_path" in fields then fields["item_path"].s else "")
      && r.value.tags == (if "tags" !in fields || fields["tags"].JNull? then None
                          else Some(DecodeStrings(fields["tags"]).value))
      && r.value.metadata == (if "metadata" !in fields || fields["metadata"].JNull? then None
                              else Some(DecodeObject(fields["metadata"]).value))
  {
    match item
    case JObject(fields) =>
      if "item_index" !in fields then Failure("KeyError: 'item_index'")
      else if !fields["item_index"].JInt? then Failure("expected an integer for item_index")
      else
        var labelValue :- StringOr(fields, "label", "");
        var itemPath :- StringOr(fields, "item_path", "");
        var tags :- StringsField(fields, "tags");
        var metadata :- ObjectField(fields, "metadata");
        Success(LabelEntry(fields["item_index"].i, labelValue, Some(itemPath), tags, metadata))
    case _ => Failure("expected a JSON object")
  }

  /**
   * The items read one by one up to the first that cannot be read: the entries read, and the
   * error of the item that stopped the reading, if any.
   */
  function ReadEntries<T>(items: seq<T>, read: T -> Result<LabelEntry>): (r: (seq<LabelEntry>, Option<string>))
    ensures |r.0| <= |items|
    ensures forall i :: 0 <= i < |r.0| ==> read(items[i]) == Success(r.0[i])
    ensures r.1.None? <==> |r.0| == |items|
    ensures r.1.Some? ==> read(items[|r.0|]).Failure? && r.1.value == read(items[|r.0|]).error
  {
    if items == [] then ([], None)
    else match read(items[0])
      case Failure(e) => ([], Some(e))
      case Success(entry) =>
        var (rest, err) := ReadEntries(items[1..], read);
        ([entry] + rest, err)
  }

  /** A prefix of fresh ids is fresh. */
  lemma FreshPrefix(s: Store.Store, ids: seq<string>, n: nat)
    requires FreshIds(s, ids) && n <= |ids|
    ensures FreshIds(s, ids[..n])
  {
  }

  /**
   * What an import leaves: the store, the annotations added, and the error that stopped it.
   * Each `add_label` commits on its own, so the annotations added before a bad item stay.
   */
  datatype Imported = Imported(store: Store.Store, added: seq<Annotation>, error: Option<string>)

  /** Reading and adding item by item, stopping at the first item that cannot be read. */
  function ImportEntries<T>(s: Store.Store, datasetId: string, items: seq<T>, read: T -> Result<LabelEntry>,
                            ids: seq<string>, now: string): (r: Imported)
    requires Store.Valid(s) && |ids| == |items| && FreshIds(s, ids)
    ensures r.error.None? ==> |r.added| == |items|
    ensures r.error.Some? ==> |r.added| < |items|
    ensures r.error.None? <==> forall i :: 0 <= i < |items| ==> read(items[i]).Success?
    ensures r.error.Some? ==> read(items[|r.added|]).Failure? && r.error.value == read(items[|r.added|]).error
    ensures forall i :: 0 <= i < |r.added| ==>
      read(items[i]).Success? && r.added[i] == EntryAnnotation(ids[i], datasetId, read(items[i]).value, now)
    ensures forall i :: 0 <= i < |r.added| ==> Store.GetAnnotation(r.store, ids[i]) == Some(r.added[i])
    ensures forall k :: k !in ids[..|r.added|] ==> Store.GetAnnotation(r.store, k) == Store.GetAnnotation(s, k)
    ensures Store.Valid(r.store)
    ensures r.store.datasets == s.datasets && r.store.experiments == s.experiments && r.store.models == s.models
  {
    var (entries, err) := ReadEntries(items, read);
    FreshPrefix(s, ids, |entries|);
    var (s', added) := BulkLabel(s, datasetId, entries, ids[..|entries|], now);
    Imported(s', added, err)
  }

  /**
   * How `for item in data` walks the document `json.load` returned: a list yields its items; an
   * object yields its keys and a string its characters, and the first of those raises at
   * `item['item_index']`; any other value is not iterable and raises before the loop starts.
   */
  datatype Walk = Items(items: seq<Json>) | FirstItemFails(error: string) | NotIterable(error: string)

  const StringIndexError := "string indices must be integers"
  const NotIterableError := "object is not iterable"

  function WalkJson(doc: Json): (r: Walk)
    ensures doc.JArray? ==> r == Items(doc.items)
    ensures r.Items? <==> doc.JArray? || doc == JObject(map[]) || doc == JStr("")
    ensures r.Items? && !doc.JArray? ==> r.items == []
    ensures r.FirstItemFails? ==> r.error == StringIndexError
    ensures r.NotIterable? <==> doc.JNull? || doc.JBool? || doc.JInt? || doc.JReal?
  {
    match doc
    case JArray(items) => Items(items)
    case JObject(fields) => if fields == map[] then Items([]) else FirstItemFails(StringIndexError)
    case JStr(text) => if text == "" then Items([]) else FirstItemFails(StringIndexError)
    case _ => NotIterable(NotIterableError)
  }

  /** How many uuids a JSON import can draw: one per item of a list, none otherwise. */
  function JsonItemCount(doc: Json): nat {
    if WalkJson(doc).Items? then |WalkJson(doc).items| else 0
  }

  /**
   * What the input file holds as each reader sees it: the document `json.load` returns, and the
   * rows `csv.DictReader` yields.
   */
  datatype ImportFile = ImportFile(asJson: Json, asCsv: seq<map<string, string>>)

  /**
   * `import_annotations`: the file read in the given format, item by item through `add_label`.
   * Any other format, or a JSON document that cannot be iterated, raises before anything is
   * added. `ids` are the uuids the adds draw.
   */
  function ImportAnnotations(s: Store.Store, datasetId: string, format: string, file: ImportFile,
                             ids: seq<string>, now: string): (r: Result<Imported>)
    requires Store.Valid(s) && FreshIds(s, ids) && |ids| >= JsonItemCount(file.asJson) && |ids| >= |file.asCsv|
    ensures r.Failure? <==> (format != "json" && format != "csv") || (format == "json" && WalkJson(file.asJson).NotIterable?)
    ensures format != "json" && format != "csv" ==> r == Failure(UnsupportedFormat(format))
    ensures format == "json" ==> match WalkJson(file.asJson)
      case Items(items) => r == Success(ImportEntries(s, datasetId, items, JsonEntry, ids[..|items|], now))
      case FirstItemFails(e) => r == Success(Imported(s, [], Some(e)))
      case NotIterable(e) => r == Failure(e)
    ensures format == "csv" ==> r == Success(ImportEntries(s, datasetId, file.asCsv, CsvEntry, ids[..|file.asCsv|], now))
  {
    if format == "json" then
      match WalkJson(file.asJson)
      case Items(items) =>
        FreshPrefix(s, ids, |items|);
        Success(ImportEntries(s, datasetId, items, JsonEntry, ids[..|items|], now))
      case FirstItemFails(e) => Success(Imported(s, [], Some(e)))
      case NotIterable(e) => Failure(e)
    else if format == "csv" then
      FreshPrefix(s, ids, |file.asCsv|);
      Success(ImportEntries(s, datasetId, file.asCsv, CsvEntry, ids[..|file.asCsv|], now))
    else Failure(UnsupportedFormat(format))
  }

  /**
   * A JSON file holding an object rather than a list adds nothing: an empty object imports
   * cleanly, any other stops at its first key with the store untouched.
   */
  lemma ObjectImportAddsNothing(s: Store.Store, datasetId: string, fields: map<string, Json>,
                                csv: seq<map<string, string>>, ids: seq<string>, now: string)
    requires Store.Valid(s) && FreshIds(s, ids) && |ids| >= |csv|
    ensures var r := ImportAnnotations(s, datasetId, "json", ImportFile(JObject(fields), csv), ids, now);
      && r.Success? && r.value.added == []
      && (r.value.error.None? <==> fields == map[])
      && forall k :: Store.GetAnnotation(r.value.store, k) == Store.GetAnnotation(s, k)
  {
  }

  // ---------------------------------------------------------------------------
  // export, then import

  /** An exported JSON item reads back as the annotation's index, label, path, tags and metadata. */
  lemma JsonItemRoundTrip(a: Annotation)
    ensures JsonEntry(JsonItem(a)) == Success(LabelEntry(a.itemIndex, a.labelValue, Some(a.itemPath), Some(a.tags), Some(a.metadata)))
  {
    var fields := JsonItem(a).fields;
    assert fields["item_index"] == JInt(a.itemIndex);
    assert StringOr(fields, "label", "") == Success(a.labelValue);
    assert StringOr(fields, "item_path", "") == Success(a.itemPath);
    StringsRoundTrip(a.tags);
    assert StringsField(fields, "tags") == Success(Some(a.tags));
    assert ObjectField(fields, "metadata") == Success(Some(a.metadata));
  }

  /** With column names that do not repeat, every column maps to its own cell. */
  lemma {:induction false} ReadRowLookup(header: seq<string>, cells: seq<string>)
    requires |header| == |cells| && NoDuplicates(header)
    ensures forall i :: 0 <= i < |header| ==> header[i] in ReadRow(header, cells) && ReadRow(header, cells)[header[i]] == cells[i]
    decreases |header|
  {
    if header != [] {
      ReadRowLookup(header[1..], cells[1..]);
      var rest := ReadRow(header[1..], cells[1..]);
      assert header[0] !in rest by {
        assert forall i :: 1 <= i < |header| ==> header[i] == header[1..][i - 1];
      }
      forall i | 1 <= i < |header| ensures ReadRow(header, cells)[header[i]] == cells[i] {
        assert header[i] == header[1..][i - 1] && cells[i] == cells[1..][i - 1];
      }
    }
  }

  /** The five column names differ. */
  lemma CsvHeaderDistinct()
    ensures NoDuplicates(CsvHeader)
  {
    assert CsvHeader[0][5] == 'i' && CsvHeader[1][5] == 'p';
    assert CsvHeader[2][0] == 'l' && CsvHeader[3][0] == 't' && CsvHeader[4][0] == 'c';
    assert CsvHeader[0][0] == 'i' && CsvHeader[1][0] == 'i';
  }

  /** The header read against an exported row gives each column its cell. */
  lemma ReadExportedRow(a: Annotation)
    ensures var row := ReadRow(CsvHeader, CsvRow(a));
      && "item_index" in row && row["item_index"] == IntToString(a.itemIndex)
      && CellOr(row, "item_path", "") == a.itemPath
      && CellOr(row, "label", "") == a.labelValue
      && CellOr(row, "tags", "") == EncodeTags(a.tags)
  {
    CsvHeaderDistinct();
    ReadRowLookup(CsvHeader, CsvRow(a));
    assert CsvHeader[0] == "item_index" && CsvHeader[1] == "item_path";
    assert CsvHeader[2] == "label" && CsvHeader[3] == "tags";
  }

  /**
   * An exported CSV row reads back as the annotation's index, label, path and tags when its tags
   * are clean; metadata is not in the CSV format and comes back as omitted.
   */
  lemma CsvRowRoundTrip(a: Annotation)
    requires forall i :: 0 <= i < |a.tags| ==> CleanTag(a.tags[i])
    ensures CsvEntry(ReadRow(CsvHeader, CsvRow(a))) == Success(LabelEntry(a.itemIndex, a.labelValue, Some(a.itemPath), Some(a.tags), None))
  {
    ReadExportedRow(a);
    IntRoundTrip(a.itemIndex);
    TagsRoundTrip(a.tags);
  }

  /** The rows `csv.DictReader` yields for a table written with that header. */
  function ReadTable(header: seq<string>, rows: seq<seq<string>>): (r: seq<map<string, string>>)
    ensures |r| == |rows| && forall i :: 0 <= i < |rows| ==> r[i] == ReadRow(header, rows[i])
  {
    seq(|rows|, i requires 0 <= i < |rows| => ReadRow(header, rows[i]))
  }

  /**
   * Exporting a dataset's annotations as CSV and importing the file adds one annotation per
   * exported one, in order, with the same item index, label, path and tags, provided every tag
   * is clean.
   */
  lemma CsvExportImport(s: Store.Store, datasetId: string, anns: seq<Annotation>, ids: seq<string>, now: string)
    requires Store.Valid(s) && FreshIds(s, ids) && |ids| >= |anns|
    requires forall i, k :: 0 <= i < |anns| && 0 <= k < |anns[i].tags| ==> CleanTag(anns[i].tags[k])
    ensures ExportAnnotations(anns, "csv").Success?
    ensures var table := ExportAnnotations(anns, "csv").value;
      var r := ImportAnnotations(s, datasetId, "csv", ImportFile(JArray([]), ReadTable(table.header, table.rows)), ids, now);
      && r.Success? && r.value.error.None? && |r.value.added| == |anns|
      && forall i :: 0 <= i < |anns| ==>
        && r.value.added[i].datasetId == datasetId
        && r.value.added[i].itemIndex == anns[i].itemIndex
        && r.value.added[i].labelValue == anns[i].labelValue
        && r.value.added[i].itemPath == anns[i].itemPath
        && r.value.added[i].tags == anns[i].tags
  {
    var table := ExportAnnotations(anns, "csv").value;
    var rows := ReadTable(table.header, table.rows);
    forall i | 0 <= i < |anns|
      ensures CsvEntry(rows[i]) == Success(LabelEntry(anns[i].itemIndex, anns[i].labelValue, Some(anns[i].itemPath), Some(anns[i].tags), None))
    {
      CsvRowRoundTrip(anns[i]);
    }
  }

  // ---------------------------------------------------------------------------
  // get_unlabeled_indices

  /** The item indices of a dataset that some annotation covers. */
  ghost function LabeledIndices(s: Store.Store, datasetId: string): set<int> {
    set a | a in s.annotations.Values && a.datasetId == datasetId :: a.itemIndex
  }

  /** `[i for i in range(total) if i not in labeled]`. */
  method UnlabeledBelow(labeled: set<int>, total: int) returns (r: seq<int>)
    ensures forall i, j :: 0 <= i < j < |r| ==> r[i] < r[j]
    ensures forall i :: 0 <= i < |r| ==> 0 <= r[i] < total
    ensures forall n :: n in r <==> 0 <= n < total && n !in labeled
  {
    r := [];
    var n := 0;
    while n < total
      invariant 0 <= n <= (if total > 0 then total else 0)
      invariant forall i, j :: 0 <= i < j < |r| ==> r[i] < r[j]
      invariant forall i :: 0 <= i < |r| ==> 0 <= r[i] < n
      invariant forall m :: m in r <==> 0 <= m < n && m !in labeled
    {
      if n !in labeled {
        r := r + [n];
      }
      n := n + 1;
    }
  }

  /**
   * `get_unlabeled_indices`: the indices in `[0, total)` that no annotation of the dataset
   * covers, ascending.
   */
  method GetUnlabeledIndices(s: Store.Store, datasetId: string, total: int) returns (r: seq<int>)
    ensures forall i, j :: 0 <= i < j < |r| ==> r[i] < r[j]
    ensures forall i :: 0 <= i < |r| ==> 0 <= r[i] < total
    ensures forall n :: n in r <==> 0 <= n < total && n !in LabeledIndices(s, datasetId)
  {
    var anns := Store.AnnotationsByDataset(s, datasetId);
    var labeled := set a | a in anns :: a.itemIndex;
    assert labeled == LabeledIndices(s, datasetId);
    r := UnlabeledBelow(labeled, total);
  }
}

=== FILE: records.dfy ===
/**
 * The four persisted records (database/models.py) and their row encoding.
 *
 * Each record's `to_dict` turns it into a row of column values; map- and list-valued fields are
 * stored as JSON text. `from_dict` reads a row back, filling defaults for missing columns. JSON
 * text is represented here by the document it denotes (`Json`), so `json.dumps` becomes a
 * conversion from a typed field to a `Json` tree and `json.loads` the partial inverse.
 */
module Records {
  import opened Wrappers

  // ---------------------------------------------------------------------------
  // JSON documents and typed fields

  /** A JSON document. */
  datatype Json =
    | JNull
    | JBool(b: bool)
    | JInt(i: int)
    | JReal(r: real)
    | JStr(s: string)
    | JArray(items: seq<Json>)
    | JObject(fields: map<string, Json>)

  /** `json.dumps` of a mapping with arbitrary JSON values (schema, labels, parameters, metadata). */
  function EncodeObject(m: map<string, Json>): Json {
    JObject(m)
  }

  /** `json.loads` where a mapping is expected; any other document does not fit the field. */
  function DecodeObject(doc: Json): (r: Result<map<string, Json>>)
    ensures r.Success? <==> doc.JObject?
  {
    match doc
    case JObject(m) => Success(m)
    case _ => Failure("expected a JSON object")
  }

  /** `json.dumps` of a metric mapping (name to float). */
  function EncodeMetrics(m: map<string, real>): Json {
    JObject(map k | k in m :: JReal(m[k]))
  }

  predicate IsNumber(doc: Json) {
    doc.JInt? || doc.JReal?
  }

  function NumberValue(doc: Json): real
    requires IsNumber(doc)
  {
    if doc.JInt? then doc.i as real else doc.r
  }

  /** `json.loads` of a metric mapping: an object whose values are all numbers. */
  function DecodeMetrics(doc: Json): (r: Result<map<string, real>>)
    ensures r.Success? <==> doc.JObject? && forall k :: k in doc.fields ==> IsNumber(doc.fields[k])
    ensures r.Success? ==> r.value.Keys == doc.fields.Keys
  {
    match doc
    case JObject(f) =>
      if forall k | k in f :: IsNumber(f[k]) then
        Success(map k | k in f :: NumberValue(f[k]))
      else Failure("expected numeric metric values")
    case _ => Failure("expected a JSON object")
  }

  /** `json.dumps` of a list of strings (feature columns, tags). */
  function EncodeStrings(xs: seq<string>): Json {
    JArray(seq(|xs|, i requires 0 <= i < |xs| => JStr(xs[i])))
  }

  /** `json.loads` of a list of strings. */
  function DecodeStrings(doc: Json): (r: Result<seq<string>>)
    ensures r.Success? <==> doc.JArray? && forall i :: 0 <= i < |doc.items| ==> doc.items[i].JStr?
    ensures r.Success? ==> |r.value| == |doc.items|
  {
    match doc
    case JArray(items) =>
      if forall i | 0 <= i < |items| :: items[i].JStr? then
        Success(seq(|items|, i requires 0 <= i < |items| && items[i].JStr? => items[i].s))
      else Failure("expected a JSON array of strings")
    case _ => Failure("expected a JSON array")
  }

  /** Decoding an encoded metric mapping gives it back. */
  lemma MetricsRoundTrip(m: map<string, real>)
    ensures DecodeMetrics(EncodeMetrics(m)) == Success(m)
  {
    var f := EncodeMetrics(m).fields;
    assert forall k | k in f :: IsNumber(f[k]);
    var back := map k | k in f :: NumberValue(f[k]);
    assert back.Keys == m.Keys;
    assert forall k | k in m :: back[k] == m[k];
    assert back == m;
    assert DecodeMetrics(JObject(f)) == Success(back);
  }

  /** Decoding an encoded string list gives it back. */
  lemma StringsRoundTrip(xs: seq<string>)
    ensures DecodeStrings(EncodeStrings(xs)) == Success(xs)
  {
    var items := EncodeStrings(xs).items;
    assert forall i | 0 <= i < |items| :: items[i] == JStr(xs[i]);
    var back := seq(|items|, i requires 0 <= i < |items| && items[i].JStr? => items[i].s);
    assert back == xs;
  }

  // ---------------------------------------------------------------------------
  // rows

  /**
   * One column value of a row. `FJson` is a text cell holding JSON (what `json.dumps` wrote);
   * `FMapping` is a Python dict handed to `from_dict` directly instead of text.
   */
  datatype Field =
    | FStr(s: string)
    | FInt(i: int)
    | FReal(r: real)
    | FJson(doc: Json)
    | FMapping(m: map<string, Json>)

  type Row = map<string, Field>

  /** `data[key]` for a text column: a missing key raises KeyError. */
  function RequiredStr(row: Row, key: string): Result<string> {
    if key !in row then Failure("KeyError: " + key)
    else if row[key].FStr? then Success(row[key].s)
    else Failure("not text: " + key)
  }

  function RequiredInt(row: Row, key: string): Result<int> {
    if key !in row then Failure("KeyError: " + key)
    else if row[key].FInt? then Success(row[key].i)
    else Failure("not an integer: " + key)
  }

  /** `data.get(key, default)` for a text column. */
  function StrOr(row: Row, key: string, default: string): Result<string> {
    if key !in row then Success(default)
    else if row[key].FStr? then Success(row[key].s)
    else Failure("not text: " + key)
  }

  function IntOr(row: Row, key: string, default: int): Result<int> {
    if key !in row then Success(default)
    else if row[key].FInt? then Success(row[key].i)
    else Failure("not an integer: " + key)
  }

  /** A REAL column; SQLite may hand back an integer for it. */
  function RealOr(row: Row, key: string, default: real): Result<real> {
    if key !in row then Success(default)
    else match row[key]
      case FReal(r) => Success(r)
      case FInt(i) => Success(i as real)
      case _ => Failure("not a number: " + key)
  }

  /**
   * `json.loads(data.get(key, default_text))`: the column must hold JSON text; a dict raises
   * TypeError.
   */
  function JsonOr(row: Row, key: string, default: Json): Result<Json> {
    if key !in row then Success(default)
    else if row[key].FJson? then Success(row[key].doc)
    else Failure("TypeError: the JSON object must be str: " + key)
  }

  /** `json.loads(data.get(key, '{}'))` where the text must encode an object. */
  function ObjectOr(row: Row, key: string): Result<map<string, Json>> {
    var doc :- JsonOr(row, key, JObject(map[]));
    DecodeObject(doc)
  }

  /** `json.loads(data.get(key, '{}'))` for a metric mapping. */
  function MetricsOr(row: Row, key: string): Result<map<string, real>> {
    var doc :- JsonOr(row, key, JObject(map[]));
    DecodeMetrics(doc)
  }

  /** `json.loads(data.get(key, '[]'))` for a list of strings. */
  function StringsOr(row: Row, key: string): Result<seq<string>> {
    var doc :- JsonOr(row, key, JArray([]));
    DecodeStrings(doc)
  }

  /**
   * `json.loads(v) if isinstance(v, str) else v` with `v = data.get(key, '{}')`: JSON text is
   * decoded, a mapping passes through unchanged.
   */
  function MappingOr(row: Row, key: string): Result<map<string, Json>> {
    if key !in row then Success(map[])
    else match row[key]
      case FJson(doc) => DecodeObject(doc)
      case FMapping(m) => Success(m)
      case _ => Failure("not a mapping: " + key)
  }

  // ---------------------------------------------------------------------------
  // Dataset

  /** A dataset: `kind` is the source's `type` ('csv', 'json' or 'images'). */
  datatype Dataset = Dataset(
    id: string,
    name: string,
    path: string,
    kind: string,
    createdAt: string,
    description: string,
    rowCount: int,
    columnCount: int,
    fileSize: int,
    schema: map<string, Json>,
    labels: map<string, Json>,
    version: int)

  /** `Dataset(id=..., name=..., path=..., type=...)` with every other field defaulted. */
  function NewDataset(id: string, name: string, path: string, kind: string, now: string): Dataset {
    Dataset(id, name, path, kind, now, "", 0, 0, 0, map[], map[], 1)
  }

  const DatasetColumns: set<string> :=
    {"id", "name", "path", "type", "created_at", "description", "row_count", "column_count",
     "file_size", "schema", "labels", "version"}

  function DatasetToRow(d: Dataset): Row {
    map[
      "id" := FStr(d.id),
      "name" := FStr(d.name),
      "path" := FStr(d.path),
      "type" := FStr(d.kind),
      "created_at" := FStr(d.createdAt),
      "description" := FStr(d.description),
      "row_count" := FInt(d.rowCount),
      "column_count" := FInt(d.columnCount),
      "file_size" := FInt(d.fileSize),
      "schema" := FJson(EncodeObject(d.schema)),
      "labels" := FJson(EncodeObject(d.labels)),
      "version" := FInt(d.version)]
  }

  /** `to_dict` writes exactly the columns of the table. */
  lemma DatasetRowKeys(d: Dataset)
    ensures DatasetToRow(d).Keys == DatasetColumns
  {
  }

  /** `Dataset.from_dict`; `now` is the timestamp used when `created_at` is missing. */
  function DatasetFromRow(row: Row, now: string): Result<Dataset> {
    var id :- RequiredStr(row, "id");
    var name :- RequiredStr(row, "name");
    var path :- RequiredStr(row, "path");
    var kind :- RequiredStr(row, "type");
    var createdAt :- StrOr(row, "created_at", now);
    var description :- StrOr(row, "description", "");
    var rowCount :- IntOr(row, "row_count", 0);
    var columnCount :- IntOr(row, "column_count", 0);
    var fileSize :- IntOr(row, "file_size", 0);
    var schema :- MappingOr(row, "schema");
    var labels :- MappingOr(row, "labels");
    var version :- IntOr(row, "version", 1);
    Success(Dataset(id, name, path, kind, createdAt, description, rowCount, columnCount, fileSize,
                    schema, labels, version))
  }

  /** Reading back what `to_dict` wrote reproduces the dataset field for field. */
  lemma DatasetRoundTrip(d: Dataset, now: string)
    ensures DatasetFromRow(DatasetToRow(d), now) == Success(d)
  {
    DatasetRowIdentity(d);
    DatasetRowCounts(d);
    DatasetRowRest(d);
  }

  /** What `to_dict` writes for a dataset's identity. */
  lemma DatasetRowIdentity(d: Dataset)
    ensures var row := DatasetToRow(d);
      && "id" in row && row["id"] == FStr(d.id)
      && "name" in row && row["name"] == FStr(d.name)
      && "path" in row && row["path"] == FStr(d.path)
      && "type" in row && row["type"] == FStr(d.kind)
  {
  }

  /** What `to_dict` writes for a dataset's description and sizes. */
  lemma DatasetRowCounts(d: Dataset)
    ensures var row := DatasetToRow(d);
      && "created_at" in row && row["created_at"] == FStr(d.createdAt)
      && "description" in row && row["description"] == FStr(d.description)
      && "row_count" in row && row["row_count"] == FInt(d.rowCount)
      && "column_count" in row && row["column_count"] == FInt(d.columnCount)
  {
  }

  /** What `to_dict` writes for a dataset's file size, schema, labels and version. */
  lemma DatasetRowRest(d: Dataset)
    ensures var row := DatasetToRow(d);
      && "file_size" in row && row["file_size"] == FInt(d.fileSize)
      && "schema" in row && row["schema"] == FJson(EncodeObject(d.schema))
      && "labels" in row && row["labels"] == FJson(EncodeObject(d.labels))
      && "version" in row && row["version"] == FInt(d.version)
  {
  }

  /** Only the four required columns present: every other field takes the constructor's default. */
  lemma DatasetDefaults(id: string, name: string, path: string, kind: string, now: string)
    ensures var row := map["id" := FStr(id), "name" := FStr(name), "path" := FStr(path), "type" := FStr(kind)];
      && DatasetFromRow(row, now) == Success(NewDataset(id, name, path, kind, now))
      && NewDataset(id, name, path, kind, now).version == 1
      && NewDataset(id, name, path, kind, now).rowCount == 0
      && NewDataset(id, name, path, kind, now).columnCount == 0
      && NewDataset(id, name, path, kind, now).fileSize == 0
  {
  }

  /** Schema and labels given as mappings rather than JSON text are taken over unchanged. */
  lemma DatasetMappingPassThrough(row: Row, now: string, schema: map<string, Json>, labels: map<string, Json>)
    requires DatasetFromRow(row, now).Success?
    ensures var r := DatasetFromRow(row["schema" := FMapping(schema)]["labels" := FMapping(labels)], now);
      r.Success? && r.value.schema == schema && r.value.labels == labels
  {
  }

  /** A row missing one of the required columns is rejected. */
  lemma DatasetRequiresKeys(row: Row, now: string)
    requires "id" !in row || "name" !in row || "path" !in row || "type" !in row
    ensures DatasetFromRow(row, now).Failure?
  {
  }

  // ---------------------------------------------------------------------------
  // Experiment

  const StatusCreated := "created"
  const StatusRunning := "running"
  const StatusCompleted := "completed"
  const StatusFailed := "failed"

  datatype Experiment = Experiment(
    id: string,
    name: string,
    datasetId: string,
    modelType: string,
    parameters: map<string, Json>,
    metrics: map<string, real>,
    timestamp: string,
    description: string,
    featureColumns: seq<string>,
    targetColumn: string,
    status: string,
    durationSeconds: real,
    notes: string,
    tags: seq<string>)

  /** `Experiment(id=..., name=..., dataset_id=..., model_type=...)` with every other field defaulted. */
  function NewExperiment(id: string, name: string, datasetId: string, modelType: string, now: string): Experiment {
    Experiment(id, name, datasetId, modelType, map[], map[], now, "", [], "", StatusCreated, 0.0, "", [])
  }

  const ExperimentColumns: set<string> :=
    {"id", "name", "dataset_id", "model_type", "parameters", "metrics", "timestamp", "description",
     "feature_columns", "target_column", "status", "duration_seconds", "notes", "tags"}

  function ExperimentToRow(e: Experiment): Row {
    map[
      "id" := FStr(e.id),
      "name" := FStr(e.name),
      "dataset_id" := FStr(e.datasetId),
      "model_type" := FStr(e.modelType),
      "parameters" := FJson(EncodeObject(e.parameters)),
      "metrics" := FJson(EncodeMetrics(e.metrics)),
      "timestamp" := FStr(e.timestamp),
      "description" := FStr(e.description),
      "feature_columns" := FJson(EncodeStrings(e.featureColumns)),
      "target_column" := FStr(e.targetColumn),
      "status" := FStr(e.status),
      "duration_seconds" := FReal(e.durationSeconds),
      "notes" := FStr(e.notes),
      "tags" := FJson(EncodeStrings(e.tags))]
  }

  /** `to_dict` writes exactly the columns of the table. */
  lemma ExperimentRowKeys(e: Experiment)
    ensures ExperimentToRow(e).Keys == ExperimentColumns
  {
  }

  /** `Experiment.from_dict`. */
  function ExperimentFromRow(row: Row, now: string): Result<Experiment> {
    var id :- RequiredStr(row, "id");
    var name :- RequiredStr(row, "name");
    var datasetId :- RequiredStr(row, "dataset_id");
    var modelType :- RequiredStr(row, "model_type");
    var parameters :- ObjectOr(row, "parameters");
    var metrics :- MetricsOr(row, "metrics");
    var timestamp :- StrOr(row, "timestamp", now);
    var description :- StrOr(row, "description", "");
    var featureColumns :- StringsOr(row, "feature_columns");
    var targetColumn :- StrOr(row, "target_column", "");
    var status :- StrOr(row, "status", StatusCreated);
    var duration :- RealOr(row, "duration_seconds", 0.0);
    var notes :- StrOr(row, "notes", "");
    var tags :- StringsOr(row, "tags");
    Success(Experiment(id, name, datasetId, modelType, parameters, metrics, timestamp, description,
                       featureColumns, targetColumn, status, duration, notes, tags))
  }

  lemma ExperimentRoundTrip(e: Experiment, now: string)
    ensures ExperimentFromRow(ExperimentToRow(e), now) == Success(e)
  {
    ExperimentRowIdentity(e);
    ExperimentRowSettings(e);
    ExperimentRowColumns(e);
    ExperimentRowOutcome(e);
    MetricsRoundTrip(e.metrics);
    StringsRoundTrip(e.featureColumns);
    StringsRoundTrip(e.tags);
  }

  /** What `to_dict` writes for an experiment's identity. */
  lemma ExperimentRowIdentity(e: Experiment)
    ensures var row := ExperimentToRow(e);
      && "id" in row && row["id"] == FStr(e.id)
      && "name" in row && row["name"] == FStr(e.name)
      && "dataset_id" in row && row["dataset_id"] == FStr(e.datasetId)
      && "model_type" in row && row["model_type"] == FStr(e.modelType)
  {
  }

  /** What `to_dict` writes for an experiment's settings and results. */
  lemma ExperimentRowSettings(e: Experiment)
    ensures var row := ExperimentToRow(e);
      && "parameters" in row && row["parameters"] == FJson(EncodeObject(e.parameters))
      && "metrics" in row && row["metrics"] == FJson(EncodeMetrics(e.metrics))
      && "timestamp" in row && row["timestamp"] == FStr(e.timestamp)
  {
  }

  /** What `to_dict` writes for an experiment's description and columns. */
  lemma ExperimentRowColumns(e: Experiment)
    ensures var row := ExperimentToRow(e);
      && "description" in row && row["description"] == FStr(e.description)
      && "feature_columns" in row && row["feature_columns"] == FJson(EncodeStrings(e.featureColumns))
      && "target_column" in row && row["target_column"] == FStr(e.targetColumn)
      && "status" in row && row["status"] == FStr(e.status)
  {
  }

  /** What `to_dict` writes for an experiment's outcome. */
  lemma ExperimentRowOutcome(e: Experiment)
    ensures var row := ExperimentToRow(e);
      && "duration_seconds" in row && row["duration_seconds"] == FReal(e.durationSeconds)
      && "notes" in row && row["notes"] == FStr(e.notes)
      && "tags" in row && row["tags"] == FJson(EncodeStrings(e.tags))
  {
  }

  /** Only the four required columns present: every other field takes the constructor's default. */
  lemma ExperimentDefaults(id: string, name: string, datasetId: string, modelType: string, now: string)
    ensures var row := map["id" := FStr(id), "name" := FStr(name), "dataset_id" := FStr(datasetId), "model_type" := FStr(modelType)];
      && ExperimentFromRow(row, now) == Success(NewExperiment(id, name, datasetId, modelType, now))
      && NewExperiment(id, name, datasetId, modelType, now).status == StatusCreated
  {
    var row := map["id" := FStr(id), "name" := FStr(name), "dataset_id" := FStr(datasetId), "model_type" := FStr(modelType)];
    ExperimentOptionalAbsent(row);
    ExperimentFromRequired(row, now);
  }

  lemma ExperimentOptionalAbsent(row: Row)
    requires row.Keys == {"id", "name", "dataset_id", "model_type"}
    ensures && "parameters" !in row && "metrics" !in row && "timestamp" !in row && "description" !in row
      && "feature_columns" !in row && "target_column" !in row && "status" !in row
      && "duration_seconds" !in row && "notes" !in row && "tags" !in row
  {
  }

  /** A row holding the required texts and none of the optional columns reads as a new experiment. */
  lemma ExperimentFromRequired(row: Row, now: string)
    requires && "parameters" !in row && "metrics" !in row && "timestamp" !in row && "description" !in row
      && "feature_columns" !in row && "target_column" !in row && "status" !in row
      && "duration_seconds" !in row && "notes" !in row && "tags" !in row
    requires && RequiredStr(row, "id").Success? && RequiredStr(row, "name").Success?
      && RequiredStr(row, "dataset_id").Success? && RequiredStr(row, "model_type").Success?
    ensures ExperimentFromRow(row, now)
         == Success(NewExperiment(row["id"].s, row["name"].s, row["dataset_id"].s, row["model_type"].s, now))
  {
    assert DecodeStrings(JArray([])) == Success([]);
  }

  /** Unlike the dataset's schema, an experiment's parameters given as a mapping are not accepted. */
  lemma ExperimentRejectsMapping(row: Row, now: string, parameters: map<string, Json>)
    ensures ExperimentFromRow(row["parameters" := FMapping(parameters)], now).Failure?
  {
  }

  // ---------------------------------------------------------------------------
  // Model

  const DefaultModelVersion := "1.0.0"

  datatype Model = Model(
    id: string,
    name: string,
    experimentId: string,
    filePath: string,
    createdAt: string,
    framework: string,
    version: string,
    metrics: map<string, real>,
    notes: string,
    tags: seq<string>,
    fileSize: int)

  function NewModel(id: string, name: string, experimentId: string, filePath: string, now: string): Model {
    Model(id, name, experimentId, filePath, now, "", DefaultModelVersion, map[], "", [], 0)
  }

  const ModelColumns: set<string> :=
    {"id", "name", "experiment_id", "file_path", "created_at", "framework", "version", "metrics",
     "notes", "tags", "file_size"}

  function ModelToRow(m: Model): Row {
    map[
      "id" := FStr(m.id),
      "name" := FStr(m.name),
      "experiment_id" := FStr(m.experimentId),
      "file_path" := FStr(m.filePath),
      "created_at" := FStr(m.createdAt),
      "framework" := FStr(m.framework),
      "version" := FStr(m.version),
      "metrics" := FJson(EncodeMetrics(m.metrics)),
      "notes" := FStr(m.notes),
      "tags" := FJson(EncodeStrings(m.tags)),
      "file_size" := FInt(m.fileSize)]
  }

  /** `to_dict` writes exactly the columns of the table. */
  lemma ModelRowKeys(m: Model)
    ensures ModelToRow(m).Keys == ModelColumns
  {
  }

  /** `Model.from_dict`. */
  function ModelFromRow(row: Row, now: string): Result<Model> {
    var id :- RequiredStr(row, "id");
    var name :- RequiredStr(row, "name");
    var experimentId :- RequiredStr(row, "experiment_id");
    var filePath :- RequiredStr(row, "file_path");
    var createdAt :- StrOr(row, "created_at", now);
    var framework :- StrOr(row, "framework", "");
    var version :- StrOr(row, "version", DefaultModelVersion);
    var metrics :- MetricsOr(row, "metrics");
    var notes :- StrOr(row, "notes", "");
    var tags :- StringsOr(row, "tags");
    var fileSize :- IntOr(row, "file_size", 0);
    Success(Model(id, name, experimentId, filePath, createdAt, framework, version, metrics, notes,
                  tags, fileSize))
  }

  lemma ModelRoundTrip(m: Model, now: string)
    ensures ModelFromRow(ModelToRow(m), now) == Success(m)
  {
    ModelRowIdentity(m);
    ModelRowRelease(m);
    ModelRowRest(m);
    MetricsRoundTrip(m.metrics);
    StringsRoundTrip(m.tags);
  }

  /** What `to_dict` writes for a model's identity. */
  lemma ModelRowIdentity(m: Model)
    ensures var row := ModelToRow(m);
      && "id" in row && row["id"] == FStr(m.id)
      && "name" in row && row["name"] == FStr(m.name)
      && "experiment_id" in row && row["experiment_id"] == FStr(m.experimentId)
      && "file_path" in row && row["file_path"] == FStr(m.filePath)
  {
  }

  /** What `to_dict` writes for a model's creation time, framework, version and metrics. */
  lemma ModelRowRelease(m: Model)
    ensures var row := ModelToRow(m);
      && "created_at" in row && row["created_at"] == FStr(m.createdAt)
      && "framework" in row && row["framework"] == FStr(m.framework)
      && "version" in row && row["version"] == FStr(m.version)
      && "metrics" in row && row["metrics"] == FJson(EncodeMetrics(m.metrics))
  {
  }

  /** What `to_dict` writes for a model's notes, tags and file size. */
  lemma ModelRowRest(m: Model)
    ensures var row := ModelToRow(m);
      && "notes" in row && row["notes"] == FStr(m.notes)
      && "tags" in row && row["tags"] == FJson(EncodeStrings(m.tags))
      && "file_size" in row && row["file_size"] == FInt(m.fileSize)
  {
  }

  lemma ModelDefaults(id: string, name: string, experimentId: string, filePath: string, now: string)
    ensures var row := map["id" := FStr(id), "name" := FStr(name), "experiment_id" := FStr(experimentId), "file_path" := FStr(filePath)];
      && ModelFromRow(row, now) == Success(NewModel(id, name, experimentId, filePath, now))
      && NewModel(id, name, experimentId, filePath, now).version == "1.0.0"
  {
    var row := map["id" := FStr(id), "name" := FStr(name), "experiment_id" := FStr(experimentId), "file_path" := FStr(filePath)];
    ModelOptionalAbsent(row);
    ModelFromRequired(row, now);
  }

  lemma ModelOptionalAbsent(row: Row)
    requires row.Keys == {"id", "name", "experiment_id", "file_path"}
    ensures && "created_at" !in row && "framework" !in row && "version" !in row && "metrics" !in row
      && "notes" !in row && "tags" !in row && "file_size" !in row
  {
  }

  /** A row holding the required texts and none of the optional columns reads as a new model. */
  lemma ModelFromRequired(row: Row, now: string)
    requires && "created_at" !in row && "framework" !in row && "version" !in row && "metrics" !in row
      && "notes" !in row && "tags" !in row && "file_size" !in row
    requires && RequiredStr(row, "id").Success? && RequiredStr(row, "name").Success?
      && RequiredStr(row, "experiment_id").Success? && RequiredStr(row, "file_path").Success?
    ensures ModelFromRow(row, now)
         == Success(NewModel(row["id"].s, row["name"].s, row["experiment_id"].s, row["file_path"].s, now))
  {
    assert DecodeStrings(JArray([])) == Success([]);
  }

  // ---------------------------------------------------------------------------
  // Annotation

  datatype Annotation = Annotation(
    id: string,
    datasetId: string,
    itemIndex: int,
    itemPath: string,
    labelValue: string,
    tags: seq<string>,
    metadata: map<string, Json>,
    createdAt: string,
    updatedAt: string)

  function NewAnnotation(id: string, datasetId: string, itemIndex: int, now: string): Annotation {
    Annotation(id, datasetId, itemIndex, "", "", [], map[], now, now)
  }

  const AnnotationColumns: set<string> :=
    {"id", "dataset_id", "item_index", "item_path", "label", "tags", "metadata", "created_at",
     "updated_at"}

  function AnnotationToRow(a: Annotation): Row {
    map[
      "id" := FStr(a.id),
      "dataset_id" := FStr(a.datasetId),
      "item_index" := FInt(a.itemIndex),
      "item_path" := FStr(a.itemPath),
      "label" := FStr(a.labelValue),
      "tags" := FJson(EncodeStrings(a.tags)),
      "metadata" := FJson(EncodeObject(a.metadata)),
      "created_at" := FStr(a.createdAt),
      "updated_at" := FStr(a.updatedAt)]
  }

  /** `to_dict` writes exactly the columns of the table. */
  lemma AnnotationRowKeys(a: Annotation)
    ensures AnnotationToRow(a).Keys == AnnotationColumns
  {
  }

  /** `Annotation.from_dict`. */
  function AnnotationFromRow(row: Row, now: string): Result<Annotation> {
    var id :- RequiredStr(row, "id");
    var datasetId :- RequiredStr(row, "dataset_id");
    var itemIndex :- RequiredInt(row, "item_index");
    var itemPath :- StrOr(row, "item_path", "");
    var labelValue :- StrOr(row, "label", "");
    var tags :- StringsOr(row, "tags");
    var metadata :- ObjectOr(row, "metadata");
    var createdAt :- StrOr(row, "created_at", now);
    var updatedAt :- StrOr(row, "updated_at", now);
    Success(Annotation(id, datasetId, itemIndex, itemPath, labelValue, tags, metadata, createdAt, updatedAt))
  }

  lemma AnnotationRoundTrip(a: Annotation, now: string)
    ensures AnnotationFromRow(AnnotationToRow(a), now) == Success(a)
  {
    StringsRoundTrip(a.tags);
  }

  lemma AnnotationDefaults(id: string, datasetId: string, itemIndex: int, now: string)
    ensures var row := map["id" := FStr(id), "dataset_id" := FStr(datasetId), "item_index" := FInt(itemIndex)];
      AnnotationFromRow(row, now) == Success(NewAnnotation(id, datasetId, itemIndex, now))
  {
    assert DecodeStrings(JArray([])) == Success([]);
  }
}

=== FILE: registry.dfy ===
/**
 * The model registry (services/model_service.py): registering trained models, updating their
 * metadata, filtered search, picking the latest version of a named model by plain string order,
 * and bumping the patch component of a dotted version string.
 */
module Registry {
  import opened Wrappers
  import opened Records
  import opened Collections
  import opened Text
  import Store

  function NotFound(id: string): string {
    "Model not found: " + id
  }

  /** `s'` is `s` with `m` written over the stored model of the same id, and nothing else changed. */
  ghost predicate WrittenBack(s: Store.Store, s': Store.Store, m: Model) {
    && Store.GetModel(s', m.id) == Some(m)
    && (forall k :: k != m.id ==> Store.GetModel(s', k) == Store.GetModel(s, k))
    && s'.datasets == s.datasets && s'.experiments == s.experiments && s'.annotations == s.annotations
    && Store.Valid(s')
  }

  // ---------------------------------------------------------------------------
  // registration and metadata

  /**
   * `register_model`: the version is "1.0.0" unless one is given; omitted metrics and tags are
   * empty. `id`, `now` and `fileSize` stand for the generated uuid, the clock and the size of the
   * file on disk (0 when it does not exist); `filePath` is taken as already absolute.
   */
  function RegisterModel(s: Store.Store, id: string, name: string, experimentId: string, filePath: string,
                         framework: string, version: Option<string>, metrics: map<string, real>, notes: string,
                         tags: seq<string>, fileSize: nat, now: string): (r: Result<(Store.Store, Model)>)
    requires Store.Valid(s)
    ensures r.Success? <==> id !in s.models
    ensures r.Success? ==>
      var (s', m) := r.value;
      && m.id == id && m.name == name && m.experimentId == experimentId && m.filePath == filePath
      && m.framework == framework && m.metrics == metrics && m.notes == notes && m.tags == tags
      && m.fileSize == fileSize && m.createdAt == now
      && m.version == (if version.Some? then version.value else "1.0.0")
      && Store.GetModel(s, id).None? && WrittenBack(s, s', m)
  {
    var m := NewModel(id, name, experimentId, filePath, now).(
      framework := framework, version := version.GetOr(DefaultModelVersion), metrics := metrics,
      notes := notes, tags := tags, fileSize := fileSize);
    var s' :- Store.CreateModel(s, m);
    Success((s', m))
  }

  /**
   * The edits of `update_model`: notes and tags are replaced when given (an empty value
   * counts as given), the metrics are merged with the new values winning, and nothing else
   * changes.
   */
  function Annotated(m: Model, notes: Option<string>, tags: Option<seq<string>>, metrics: map<string, real>)
    : (r: Model)
    ensures r.notes == if notes.Some? then notes.value else m.notes
    ensures r.tags == if tags.Some? then tags.value else m.tags
    ensures forall k :: k in r.metrics <==> k in m.metrics || k in metrics
    ensures forall k :: k in r.metrics ==> r.metrics[k] == if k in metrics then metrics[k] else m.metrics[k]
    ensures r == m.(notes := r.notes, tags := r.tags, metrics := r.metrics)
  {
    var noted := if notes.Some? then m.(notes := notes.value) else m;
    var tagged := if tags.Some? then noted.(tags := tags.value) else noted;
    if |metrics| > 0 then tagged.(metrics := tagged.metrics + metrics) else tagged
  }

  /** `update_model`: the stored model with the edits applied, written back; an unknown id is an error. */
  function UpdateModel(s: Store.Store, id: string, notes: Option<string>, tags: Option<seq<string>>,
                       metrics: map<string, real>): (r: Result<(Store.Store, Model)>)
    requires Store.Valid(s)
    ensures r.Failure? <==> id !in s.models
    ensures r.Failure? ==> r.error == NotFound(id)
    ensures r.Success? ==> r.value.1 == Annotated(s.models[id], notes, tags, metrics) && WrittenBack(s, r.value.0, r.value.1)
  {
    match Store.GetModel(s, id)
    case None => Failure(NotFound(id))
    case Some(stored) => Success(Store.UpdateModel(s, Annotated(stored, notes, tags, metrics)))
  }

  /** Leaving every edit out changes nothing. */
  lemma AnnotatedNothing(m: Model)
    ensures Annotated(m, None, None, map[]) == m
  {
  }

  /** `get_model_with_experiment`: the model and its experiment, which may be missing; None for an unknown model. */
  function ModelWithExperiment(s: Store.Store, id: string): (r: Option<(Model, Option<Experiment>)>)
    ensures r.None? <==> id !in s.models
    ensures r.Some? ==>
      && r.value.0 == s.models[id]
      && r.value.1 == Store.GetExperiment(s, s.models[id].experimentId)
  {
    match Store.GetModel(s, id)
    case None => None
    case Some(m) => Some((m, Store.GetExperiment(s, m.experimentId)))
  }

  // ---------------------------------------------------------------------------
  // search

  /** The filters of `search_models`; an empty value disables its filter. */
  datatype Query = Query(framework: string, tags: seq<string>, minMetric: map<string, real>)

  /** `metrics.get(name, 0)`. */
  function MetricOrZero(m: Model, name: string): real {
    if name in m.metrics then m.metrics[name] else 0.0
  }

  predicate Matches(m: Model, q: Query) {
    && (q.framework == "" || m.framework == q.framework)
    && (q.tags == [] || exists t :: t in q.tags && t in m.tags)
    && (forall k :: k in q.minMetric ==> MetricOrZero(m, k) >= q.minMetric[k])
  }

  function Matcher(q: Query): Model -> bool {
    m => Matches(m, q)
  }

  /** The loop of `search_models` over a list: the matching models in their original order. */
  function Search(models: seq<Model>, q: Query): (r: seq<Model>)
    ensures IsSubsequence(r, models)
    ensures forall m :: m in r <==> m in models && Matches(m, q)
    ensures forall m :: multiset(r)[m] == if Matches(m, q) then multiset(models)[m] else 0
  {
    Filter(models, Matcher(q))
  }

  /** `search_models`: every stored model that matches, once each, newest first. */
  method SearchModels(s: Store.Store, q: Query) returns (r: seq<Model>)
    ensures forall m :: m in r <==> m in s.models.Values && Matches(m, q)
    ensures Store.Valid(s) ==> forall m :: multiset(r)[m] == if m in s.models.Values && Matches(m, q) then 1 else 0
    ensures SortedBy(r, Store.ModelNewerOrSame)
  {
    var all := Store.AllModels(s);
    r := Search(all, q);
    SubsequenceSorted(r, all, Store.ModelNewerOrSame);
  }

  /** A metric a model lacks counts as 0, so a positive minimum on it excludes the model. */
  lemma MissingMetricFails(m: Model, name: string, minimum: real)
    requires name !in m.metrics && minimum > 0.0
    ensures !Matches(m, Query("", [], map[name := minimum]))
  {
    assert name in map[name := minimum];
  }

  // ---------------------------------------------------------------------------
  // latest version

  /**
   * `matching.sort(key=version, reverse=True)[0]` over a list: the first model of that name whose
   * version is greatest in string order (the sort is stable, so the earliest of equal versions
   * comes first).
   */
  method LatestIndex(models: seq<Model>, name: string) returns (r: Option<nat>)
    ensures r.None? <==> forall i :: 0 <= i < |models| ==> models[i].name != name
    ensures r.Some? ==>
      var b := r.value;
      && b < |models| && models[b].name == name
      && (forall j :: 0 <= j < |models| && models[j].name == name ==> LexLe(models[j].version, models[b].version))
      && (forall j :: 0 <= j < b && models[j].name == name ==> LexLess(models[j].version, models[b].version))
  {
    r := None;
    for i := 0 to |models|
      invariant r.None? <==> forall j :: 0 <= j < i ==> models[j].name != name
      invariant r.Some? ==>
        && r.value < i && models[r.value].name == name
        && (forall j :: 0 <= j < i && models[j].name == name ==> LexLe(models[j].version, models[r.value].version))
        && (forall j :: 0 <= j < r.value && models[j].name == name ==> LexLess(models[j].version, models[r.value].version))
    {
      if models[i].name == name {
        if r.None? {
          r := Some(i);
          LexLessIrreflexive(models[i].version);
        } else if LexLess(models[r.value].version, models[i].version) {
          var prev := r.value;
          forall j | 0 <= j < i && models[j].name == name
            ensures LexLess(models[j].version, models[i].version)
            ensures LexLe(models[j].version, models[i].version)
          {
            LexLeLess(models[j].version, models[prev].version, models[i].version);
            LexLessAsymmetric(models[j].version, models[i].version);
          }
          LexLessIrreflexive(models[i].version);
          r := Some(i);
        }
      }
    }
  }

  /**
   * `get_latest_version`: None when no model has the name; otherwise a model of that name whose
   * version no other model of that name exceeds in string order. The stable sort keeps the
   * newest-first order of the listing among equal versions, so no model of that name and
   * version was created later.
   */
  method GetLatestVersion(s: Store.Store, name: string) returns (r: Option<Model>)
    ensures r.None? <==> forall m :: m in s.models.Values ==> m.name != name
    ensures r.Some? ==>
      && r.value in s.models.Values && r.value.name == name
      && forall m :: m in s.models.Values && m.name == name ==> LexLe(m.version, r.value.version)
    ensures r.Some? ==>
      forall m :: m in s.models.Values && m.name == name && m.version == r.value.version ==>
        LexLe(m.createdAt, r.value.createdAt)
  {
    var all := Store.AllModels(s);
    var best := LatestIndex(all, name);
    if best.None? {
      r := None;
      forall m | m in s.models.Values ensures m.name != name {
        var i :| 0 <= i < |all| && all[i] == m;
      }
    } else {
      r := Some(all[best.value]);
      forall m | m in s.models.Values && m.name == name ensures LexLe(m.version, r.value.version) {
        var i :| 0 <= i < |all| && all[i] == m;
      }
      forall m | m in s.models.Values && m.name == name && m.version == r.value.version
        ensures LexLe(m.createdAt, r.value.createdAt)
      {
        var i :| 0 <= i < |all| && all[i] == m;
        if i < best.value {
          LexLessIrreflexive(m.version);
          assert false;
        } else if i > best.value {
          assert Store.ModelNewerOrSame(all[best.value], all[i]);
        } else {
          Store.ModelOrderIsPreorder();
        }
      }
    }
  }

  /** String order is not numeric order: "1.0.9" sorts above "1.0.10". */
  lemma StringOrderIsNotNumeric()
    ensures LexLess("1.0.10", "1.0.9")
  {
    var a := "1.0.10";
    var b := "1.0.9";
    assert a[1..] == ".0.10" && b[1..] == ".0.9";
    assert a[2..] == "0.10" && b[2..] == "0.9";
    assert a[3..] == ".10" && b[3..] == ".9";
    assert a[4..] == "10" && b[4..] == "9";
  }

  // ---------------------------------------------------------------------------
  // version increment

  /**
   * The version `increment_version` computes: with exactly three dot-separated parts, the third
   * is read with `int()` and written back one higher (an unreadable part is an error); any other
   * version gets ".1" appended.
   */
  function NextVersion(version: string): (r: Result<string>)
    ensures |Split(version, '.')| != 3 ==> r == Success(version + ".1")
    ensures |Split(version, '.')| == 3 ==> (r.Failure? <==> ParseInt(Split(version, '.')[2]).None?)
  {
    var parts := Split(version, '.');
    if |parts| == 3 then
      match ParseInt(parts[2])
      case None => Failure(IntError(parts[2]))
      case Some(n) => Success(Join([parts[0], parts[1], IntToString(n + 1)], '.'))
    else Success(version + ".1")
  }

  /** A version `increment_version` bumps in place: three dot-separated parts, the last an integer. */
  predicate Bumpable(version: string)
  {
    var parts := Split(version, '.');
    |parts| == 3 && ParseInt(parts[2]).Some?
  }

  /** The integer value of a bumpable version's third part. */
  function Patch(version: string): int
    requires Bumpable(version)
  {
    ParseInt(Split(version, '.')[2]).value
  }

  /**
   * A three-part version keeps its first two parts and gets a third part that `int()` reads
   * as one more than before: "1.0.0" becomes "1.0.1".
   */
  lemma NextVersionBumpsPatch(version: string)
    requires Bumpable(version)
    ensures NextVersion(version).Success?
    ensures var parts := Split(version, '.');
      Split(NextVersion(version).value, '.') == [parts[0], parts[1], IntToString(Patch(version) + 1)]
    ensures Bumpable(NextVersion(version).value)
    ensures Patch(NextVersion(version).value) == Patch(version) + 1
  {
    var parts := Split(version, '.');
    var n := ParseInt(parts[2]).value;
    assert NextVersion(version) == Success(Join([parts[0], parts[1], IntToString(n + 1)], '.'));
    NoDotInNumber(n + 1);
    SplitThree(parts[0], parts[1], IntToString(n + 1));
    IntRoundTrip(n + 1);
  }

  /** Three dot-free parts joined with dots split back into themselves. */
  lemma SplitThree(a: string, b: string, c: string)
    requires '.' !in a && '.' !in b && '.' !in c
    ensures Split(Join([a, b, c], '.'), '.') == [a, b, c]
  {
    var parts := [a, b, c];
    assert forall i :: 0 <= i < |parts| ==> '.' !in parts[i];
    SplitJoin(parts, '.');
  }

  /** `str(n)` holds no dot. */
  lemma NoDotInNumber(n: int)
    ensures '.' !in IntToString(n)
  {
    var m: nat := if n < 0 then -n else n;
    var digits := NatToString(m);
    assert '.' !in digits by {
      forall i | 0 <= i < |digits| ensures digits[i] != '.' {
        assert IsDigit(digits[i]);
      }
    }
    assert IntToString(n) == (if n < 0 then "-" else "") + digits;
  }

  /** A version without exactly three parts gains a part, "1.0" becoming "1.0.1". */
  lemma NextVersionAddsPart(version: string)
    requires |Split(version, '.')| != 3
    ensures NextVersion(version).Success?
    ensures Split(NextVersion(version).value, '.') == Split(version, '.') + ["1"]
  {
    var one := "1";
    assert version + ".1" == version + ['.'] + one;
    assert NextVersion(version) == Success(version + ['.'] + one);
    SplitSnoc(version, one, '.');
  }

  /** Two increments of a three-part version raise its patch number by two. */
  lemma NextVersionTwice(version: string)
    requires Bumpable(version)
    ensures NextVersion(version).Success? && Bumpable(NextVersion(version).value)
    ensures NextVersion(NextVersion(version).value).Success?
    ensures Bumpable(NextVersion(NextVersion(version).value).value)
    ensures Patch(NextVersion(NextVersion(version).value).value) == Patch(version) + 2
  {
    NextVersionBumpsPatch(version);
    NextVersionBumpsPatch(NextVersion(version).value);
  }

  /**
   * `increment_version`: the stored model with its version bumped, written back; only the
   * version changes, and an unknown id or an unreadable patch number is an error.
   */
  function IncrementVersion(s: Store.Store, id: string): (r: Result<(Store.Store, Model)>)
    requires Store.Valid(s)
    ensures id !in s.models ==> r == Failure(NotFound(id))
    ensures id in s.models ==> (r.Success? <==> NextVersion(s.models[id].version).Success?)
    ensures r.Success? ==>
      var (s', m) := r.value;
      && m == s.models[id].(version := NextVersion(s.models[id].version).value)
      && WrittenBack(s, s', m)
  {
    match Store.GetModel(s, id)
    case None => Failure(NotFound(id))
    case Some(stored) =>
      var version :- NextVersion(stored.version);
      Success(Store.UpdateModel(s, stored.(version := version)))
  }
}

=== FILE: store.dfy ===
/**
 * The record store (database/db_manager.py): four tables keyed by record id. Each method of
 * `DatabaseManager` runs its statements inside one `get_connection()` block, which commits on
 * success and rolls back on an exception; here every operation is one function from the old
 * store to the new one, and a failing operation yields no new store.
 */
module Store {
  import opened Wrappers
  import opened Records
  import opened Collections
  import Text

  datatype Store = Store(
    datasets: map<string, Dataset>,
    experiments: map<string, Experiment>,
    models: map<string, Model>,
    annotations: map<string, Annotation>)

  const Empty := Store(map[], map[], map[], map[])

  /** The store's key for each row is the record's own `id` (the PRIMARY KEY column). */
  ghost predicate Valid(s: Store) {
    && (forall k :: k in s.datasets ==> s.datasets[k].id == k)
    && (forall k :: k in s.experiments ==> s.experiments[k].id == k)
    && (forall k :: k in s.models ==> s.models[k].id == k)
    && (forall k :: k in s.annotations ==> s.annotations[k].id == k)
  }

  // ---------------------------------------------------------------------------
  // get

  function GetDataset(s: Store, id: string): Option<Dataset> {
    if id in s.datasets then Some(s.datasets[id]) else None
  }

  function GetExperiment(s: Store, id: string): Option<Experiment> {
    if id in s.experiments then Some(s.experiments[id]) else None
  }

  function GetModel(s: Store, id: string): Option<Model> {
    if id in s.models then Some(s.models[id]) else None
  }

  function GetAnnotation(s: Store, id: string): Option<Annotation> {
    if id in s.annotations then Some(s.annotations[id]) else None
  }

  /** In a valid store a lookup returns a record carrying the id asked for. */
  lemma GetReturnsRequestedId(s: Store, id: string)
    requires Valid(s)
    ensures GetDataset(s, id).Some? ==> GetDataset(s, id).value.id == id
    ensures GetExperiment(s, id).Some? ==> GetExperiment(s, id).value.id == id
    ensures GetModel(s, id).Some? ==> GetModel(s, id).value.id == id
    ensures GetAnnotation(s, id).Some? ==> GetAnnotation(s, id).value.id == id
  {
  }

  // ---------------------------------------------------------------------------
  // create: INSERT, which fails on an id already present

  function CreateDataset(s: Store, d: Dataset): (r: Result<Store>)
    ensures r.Success? <==> GetDataset(s, d.id).None?
    ensures r.Success? ==> GetDataset(r.value, d.id) == Some(d)
    ensures r.Success? ==> forall k :: k != d.id ==> GetDataset(r.value, k) == GetDataset(s, k)
    ensures r.Success? ==> r.value.experiments == s.experiments && r.value.models == s.models && r.value.annotations == s.annotations
    ensures r.Success? && Valid(s) ==> Valid(r.value)
  {
    if d.id in s.datasets then Failure("UNIQUE constraint failed: datasets.id")
    else Success(s.(datasets := s.datasets[d.id := d]))
  }

  function CreateExperiment(s: Store, e: Experiment): (r: Result<Store>)
    ensures r.Success? <==> GetExperiment(s, e.id).None?
    ensures r.Success? ==> GetExperiment(r.value, e.id) == Some(e)
    ensures r.Success? ==> forall k :: k != e.id ==> GetExperiment(r.value, k) == GetExperiment(s, k)
    ensures r.Success? ==> r.value.datasets == s.datasets && r.value.models == s.models && r.value.annotations == s.annotations
    ensures r.Success? && Valid(s) ==> Valid(r.value)
  {
    if e.id in s.experiments then Failure("UNIQUE constraint failed: experiments.id")
    else Success(s.(experiments := s.experiments[e.id := e]))
  }

  function CreateModel(s: Store, m: Model): (r: Result<Store>)
    ensures r.Success? <==> GetModel(s, m.id).None?
    ensures r.Success? ==> GetModel(r.value, m.id) == Some(m)
    ensures r.Success? ==> forall k :: k != m.id ==> GetModel(r.value, k) == GetModel(s, k)
    ensures r.Success? ==> r.value.datasets == s.datasets && r.value.experiments == s.experiments && r.value.annotations == s.annotations
    ensures r.Success? && Valid(s) ==> Valid(r.value)
  {
    if m.id in s.models then Failure("UNIQUE constraint failed: models.id")
    else Success(s.(models := s.models[m.id := m]))
  }

  function CreateAnnotation(s: Store, a: Annotation): (r: Result<Store>)
    ensures r.Success? <==> GetAnnotation(s, a.id).None?
    ensures r.Success? ==> GetAnnotation(r.value, a.id) == Some(a)
    ensures r.Success? ==> forall k :: k != a.id ==> GetAnnotation(r.value, k) == GetAnnotation(s, k)
    ensures r.Success? ==> r.value.datasets == s.datasets && r.value.experiments == s.experiments && r.value.models == s.models
    ensures r.Success? && Valid(s) ==> Valid(r.value)
  {
    if a.id in s.annotations then Failure("UNIQUE constraint failed: annotations.id")
    else Success(s.(annotations := s.annotations[a.id := a]))
  }

  // ---------------------------------------------------------------------------
  // update: UPDATE ... SET <every column but id> WHERE id = ?; the argument is returned

  /** A stored record and its replacement share the id, so every other field is overwritten. */
  function UpdateDataset(s: Store, d: Dataset): (r: (Store, Dataset))
    ensures r.1 == d
    ensures GetDataset(r.0, d.id) == if GetDataset(s, d.id).Some? then Some(d) else None
    ensures forall k :: k != d.id ==> GetDataset(r.0, k) == GetDataset(s, k)
    ensures r.0.experiments == s.experiments && r.0.models == s.models && r.0.annotations == s.annotations
    ensures Valid(s) ==> Valid(r.0)
  {
    if d.id in s.datasets then (s.(datasets := s.datasets[d.id := d]), d) else (s, d)
  }

  function UpdateExperiment(s: Store, e: Experiment): (r: (Store, Experiment))
    ensures r.1 == e
    ensures GetExperiment(r.0, e.id) == if GetExperiment(s, e.id).Some? then Some(e) else None
    ensures forall k :: k != e.id ==> GetExperiment(r.0, k) == GetExperiment(s, k)
    ensures r.0.datasets == s.datasets && r.0.models == s.models && r.0.annotations == s.annotations
    ensures Valid(s) ==> Valid(r.0)
  {
    if e.id in s.experiments then (s.(experiments := s.experiments[e.id := e]), e) else (s, e)
  }

  function UpdateModel(s: Store, m: Model): (r: (Store, Model))
    ensures r.1 == m
    ensures GetModel(r.0, m.id) == if GetModel(s, m.id).Some? then Some(m) else None
    ensures forall k :: k != m.id ==> GetModel(r.0, k) == GetModel(s, k)
    ensures r.0.datasets == s.datasets && r.0.experiments == s.experiments && r.0.annotations == s.annotations
    ensures Valid(s) ==> Valid(r.0)
  {
    if m.id in s.models then (s.(models := s.models[m.id := m]), m) else (s, m)
  }

  function UpdateAnnotation(s: Store, a: Annotation): (r: (Store, Annotation))
    ensures r.1 == a
    ensures GetAnnotation(r.0, a.id) == if GetAnnotation(s, a.id).Some? then Some(a) else None
    ensures forall k :: k != a.id ==> GetAnnotation(r.0, k) == GetAnnotation(s, k)
    ensures r.0.datasets == s.datasets && r.0.experiments == s.experiments && r.0.models == s.models
    ensures Valid(s) ==> Valid(r.0)
  {
    if a.id in s.annotations then (s.(annotations := s.annotations[a.id := a]), a) else (s, a)
  }

  // ---------------------------------------------------------------------------
  // delete

  /** The table without the rows whose key is in `gone`. */
  function Without<V>(m: map<string, V>, gone: set<string>): (r: map<string, V>)
    ensures forall k :: k in r <==> k in m && k !in gone
    ensures forall k :: k in r ==> r[k] == m[k]
  {
    map k | k in m && k !in gone :: m[k]
  }

  /** Keys of the annotations that belong to a dataset. */
  function AnnotationKeysOf(anns: map<string, Annotation>, datasetId: string): set<string> {
    set k | k in anns && anns[k].datasetId == datasetId
  }

  /** Keys of the models that belong to an experiment. */
  function ModelKeysOf(models: map<string, Model>, experimentId: string): set<string> {
    set k | k in models && models[k].experimentId == experimentId
  }

  /**
   * Deletes the dataset's annotations, then the dataset, in one transaction. The result reports
   * only whether the dataset row existed; the annotations go either way.
   */
  function DeleteDataset(s: Store, id: string): (r: (Store, bool))
    ensures r.1 <==> GetDataset(s, id).Some?
    ensures GetDataset(r.0, id).None?
    ensures forall k :: k != id ==> GetDataset(r.0, k) == GetDataset(s, k)
    ensures forall k :: k in r.0.annotations <==> k in s.annotations && s.annotations[k].datasetId != id
    ensures forall k :: k in r.0.annotations ==> r.0.annotations[k] == s.annotations[k]
    ensures r.0.experiments == s.experiments && r.0.models == s.models
    ensures Valid(s) ==> Valid(r.0)
  {
    var s' := s.(annotations := Without(s.annotations, AnnotationKeysOf(s.annotations, id)),
                 datasets := Without(s.datasets, {id}));
    (s', id in s.datasets)
  }

  /** Deletes the experiment's models, then the experiment; reports whether the experiment existed. */
  function DeleteExperiment(s: Store, id: string): (r: (Store, bool))
    ensures r.1 <==> GetExperiment(s, id).Some?
    ensures GetExperiment(r.0, id).None?
    ensures forall k :: k != id ==> GetExperiment(r.0, k) == GetExperiment(s, k)
    ensures forall k :: k in r.0.models <==> k in s.models && s.models[k].experimentId != id
    ensures forall k :: k in r.0.models ==> r.0.models[k] == s.models[k]
    ensures r.0.datasets == s.datasets && r.0.annotations == s.annotations
    ensures Valid(s) ==> Valid(r.0)
  {
    var s' := s.(models := Without(s.models, ModelKeysOf(s.models, id)),
                 experiments := Without(s.experiments, {id}));
    (s', id in s.experiments)
  }

  function DeleteModel(s: Store, id: string): (r: (Store, bool))
    ensures r.1 <==> GetModel(s, id).Some?
    ensures GetModel(r.0, id).None?
    ensures forall k :: k != id ==> GetModel(r.0, k) == GetModel(s, k)
    ensures r.0.datasets == s.datasets && r.0.experiments == s.experiments && r.0.annotations == s.annotations
    ensures Valid(s) ==> Valid(r.0)
  {
    (s.(models := Without(s.models, {id})), id in s.models)
  }

  function DeleteAnnotation(s: Store, id: string): (r: (Store, bool))
    ensures r.1 <==> GetAnnotation(s, id).Some?
    ensures GetAnnotation(r.0, id).None?
    ensures forall k :: k != id ==> GetAnnotation(r.0, k) == GetAnnotation(s, k)
    ensures r.0.datasets == s.datasets && r.0.experiments == s.experiments && r.0.models == s.models
    ensures Valid(s) ==> Valid(r.0)
  {
    (s.(annotations := Without(s.annotations, {id})), id in s.annotations)
  }

  /** Deletes every annotation of the dataset and returns how many rows went. */
  function DeleteAnnotationsByDataset(s: Store, datasetId: string): (r: (Store, nat))
    ensures r.1 == |s.annotations| - |r.0.annotations|
    ensures forall k :: k in r.0.annotations <==> k in s.annotations && s.annotations[k].datasetId != datasetId
    ensures forall k :: k in r.0.annotations ==> r.0.annotations[k] == s.annotations[k]
    ensures r.0.datasets == s.datasets && r.0.experiments == s.experiments && r.0.models == s.models
    ensures Valid(s) ==> Valid(r.0)
  {
    var gone := AnnotationKeysOf(s.annotations, datasetId);
    WithoutSplit(s.annotations, gone);
    (s.(annotations := Without(s.annotations, gone)), |gone|)
  }

  /** Deleting a set of present keys removes exactly that many entries. */
  lemma WithoutSplit<V>(m: map<string, V>, gone: set<string>)
    requires gone <= m.Keys
    ensures |m| == |Without(m, gone)| + |gone|
  {
    var kept := Without(m, gone);
    assert m.Keys == kept.Keys + gone;
    assert kept.Keys * gone == {};
  }

  // ---------------------------------------------------------------------------
  // listing: SELECT ... [WHERE ...] ORDER BY ...

  /** `ORDER BY created_at DESC`: a dataset comes no later than one created before it. */
  predicate DatasetNewerOrSame(a: Dataset, b: Dataset) {
    Text.LexLe(b.createdAt, a.createdAt)
  }

  /** `ORDER BY timestamp DESC`. */
  predicate ExperimentNewerOrSame(a: Experiment, b: Experiment) {
    Text.LexLe(b.timestamp, a.timestamp)
  }

  /** `ORDER BY created_at DESC`. */
  predicate ModelNewerOrSame(a: Model, b: Model) {
    Text.LexLe(b.createdAt, a.createdAt)
  }

  /** `ORDER BY item_index` (ascending). */
  predicate AnnotationIndexOrder(a: Annotation, b: Annotation) {
    a.itemIndex <= b.itemIndex
  }

  lemma DatasetOrderIsPreorder()
    ensures TotalPreorder(DatasetNewerOrSame)
  {
    forall a: Dataset, b: Dataset, c: Dataset
      ensures DatasetNewerOrSame(a, b) || DatasetNewerOrSame(b, a)
      ensures DatasetNewerOrSame(a, b) && DatasetNewerOrSame(b, c) ==> DatasetNewerOrSame(a, c)
    {
      Text.LexLeTotalTransitive(c.createdAt, b.createdAt, a.createdAt);
      Text.LexLeTotalTransitive(a.createdAt, b.createdAt, c.createdAt);
    }
  }

  lemma ExperimentOrderIsPreorder()
    ensures TotalPreorder(ExperimentNewerOrSame)
  {
    forall a: Experiment, b: Experiment, c: Experiment
      ensures ExperimentNewerOrSame(a, b) || ExperimentNewerOrSame(b, a)
      ensures ExperimentNewerOrSame(a, b) && ExperimentNewerOrSame(b, c) ==> ExperimentNewerOrSame(a, c)
    {
      Text.LexLeTotalTransitive(c.timestamp, b.timestamp, a.timestamp);
      Text.LexLeTotalTransitive(a.timestamp, b.timestamp, c.timestamp);
    }
  }

  lemma ModelOrderIsPreorder()
    ensures TotalPreorder(ModelNewerOrSame)
  {
    forall a: Model, b: Model, c: Model
      ensures ModelNewerOrSame(a, b) || ModelNewerOrSame(b, a)
      ensures ModelNewerOrSame(a, b) && ModelNewerOrSame(b, c) ==> ModelNewerOrSame(a, c)
    {
      Text.LexLeTotalTransitive(c.createdAt, b.createdAt, a.createdAt);
      Text.LexLeTotalTransitive(a.createdAt, b.createdAt, c.createdAt);
    }
  }

  lemma AnnotationOrderIsPreorder()
    ensures TotalPreorder(AnnotationIndexOrder)
  {
  }

  /**
   * The rows of one table that pass `keep`, ordered by `le`: `SELECT * FROM t WHERE ... ORDER BY ...`.
   * Rows with equal sort keys come back in an unspecified order, as in SQLite.
   */
  method Select<V(==,!new)>(table: map<string, V>, keep: V -> bool, le: (V, V) -> bool) returns (r: seq<V>)
    requires TotalPreorder(le)
    ensures forall v :: v in r <==> v in table.Values && keep(v)
    ensures Injective(table) ==> forall v :: multiset(r)[v] == if v in table.Values && keep(v) then 1 else 0
    ensures SortedBy(r, le)
  {
    var all := ValueSeq(table);
    var kept := Filter(all, keep);
    r := SortBy(kept, le);
    forall v ensures v in r <==> v in kept {
      assert v in r <==> v in multiset(r);
      assert v in kept <==> v in multiset(kept);
    }
  }

  lemma ValidInjective(s: Store)
    requires Valid(s)
    ensures Injective(s.datasets) && Injective(s.experiments) && Injective(s.models) && Injective(s.annotations)
  {
  }

  /** `get_all_datasets`: every dataset once, newest `created_at` first. */
  method AllDatasets(s: Store) returns (r: seq<Dataset>)
    ensures forall d :: d in r <==> d in s.datasets.Values
    ensures Valid(s) ==> forall d :: multiset(r)[d] == if d in s.datasets.Values then 1 else 0
    ensures SortedBy(r, DatasetNewerOrSame)
  {
    DatasetOrderIsPreorder();
    if Valid(s) {
      ValidInjective(s);
    }
    r := Select(s.datasets, (d: Dataset) => true, DatasetNewerOrSame);
  }

  /** `get_all_experiments`: every experiment once, newest `timestamp` first. */
  method AllExperiments(s: Store) returns (r: seq<Experiment>)
    ensures forall e :: e in r <==> e in s.experiments.Values
    ensures Valid(s) ==> forall e :: multiset(r)[e] == if e in s.experiments.Values then 1 else 0
    ensures SortedBy(r, ExperimentNewerOrSame)
  {
    ExperimentOrderIsPreorder();
    if Valid(s) {
      ValidInjective(s);
    }
    r := Select(s.experiments, (e: Experiment) => true, ExperimentNewerOrSame);
  }

  /** `get_experiments_by_dataset`: that dataset's experiments, each once, newest first. */
  method ExperimentsByDataset(s: Store, datasetId: string) returns (r: seq<Experiment>)
    ensures forall e :: e in r <==> e in s.experiments.Values && e.datasetId == datasetId
    ensures Valid(s) ==> forall e :: multiset(r)[e] == if e in s.experiments.Values && e.datasetId == datasetId then 1 else 0
    ensures SortedBy(r, ExperimentNewerOrSame)
  {
    ExperimentOrderIsPreorder();
    if Valid(s) {
      ValidInjective(s);
    }
    r := Select(s.experiments, (e: Experiment) => e.datasetId == datasetId, ExperimentNewerOrSame);
  }

  /** `get_all_models`: every model once, newest `created_at` first. */
  method AllModels(s: Store) returns (r: seq<Model>)
    ensures forall m :: m in r <==> m in s.models.Values
    ensures Valid(s) ==> forall m :: multiset(r)[m] == if m in s.models.Values then 1 else 0
    ensures SortedBy(r, ModelNewerOrSame)
  {
    ModelOrderIsPreorder();
    if Valid(s) {
      ValidInjective(s);
    }
    r := Select(s.models, (m: Model) => true, ModelNewerOrSame);
  }

  /** `get_models_by_experiment`: that experiment's models, each once, newest first. */
  method ModelsByExperiment(s: Store, experimentId: string) returns (r: seq<Model>)
    ensures forall m :: m in r <==> m in s.models.Values && m.experimentId == experimentId
    ensures Valid(s) ==> forall m :: multiset(r)[m] == if m in s.models.Values && m.experimentId == experimentId then 1 else 0
    ensures SortedBy(r, ModelNewerOrSame)
  {
    ModelOrderIsPreorder();
    if Valid(s) {
      ValidInjective(s);
    }
    r := Select(s.models, (m: Model) => m.experimentId == experimentId, ModelNewerOrSame);
  }

  /** `get_annotations_by_dataset`: exactly that dataset's annotations, each once, by ascending `item_index`. */
  method AnnotationsByDataset(s: Store, datasetId: string) returns (r: seq<Annotation>)
    ensures forall a :: a in r <==> a in s.annotations.Values && a.datasetId == datasetId
    ensures Valid(s) ==> forall a :: multiset(r)[a] == if a in s.annotations.Values && a.datasetId == datasetId then 1 else 0
    ensures forall i, j :: 0 <= i < j < |r| ==> r[i].itemIndex <= r[j].itemIndex
  {
    AnnotationOrderIsPreorder();
    if Valid(s) {
      ValidInjective(s);
    }
    r := Select(s.annotations, (a: Annotation) => a.datasetId == datasetId, AnnotationIndexOrder);
  }
}

=== FILE: text.dfy ===
/**
 * The string operations of Python's `str` that the services rely on: `strip`, ASCII `lower`,
 * `startswith`, the `in` substring test, `split`/`join` on one separator character, `int(...)`
 * and `str(...)` on integers, and the code-point lexicographic order used by `sort` and by
 * SQLite's default text collation.
 */
module Text {
  import opened Wrappers

  /** The ASCII characters `str.strip()` and `int()` treat as whitespace. */
  predicate IsSpace(c: char) {
    c == ' ' || (9 <= c as int <= 13) || (28 <= c as int <= 31)
  }

  predicate IsDigit(c: char) {
    '0' <= c <= '9'
  }

  // ---------------------------------------------------------------------------
  // strip

  function StripLeft(s: string): (r: string)
    ensures |r| <= |s| && r == s[|s| - |r|..]
    ensures r == [] || !IsSpace(r[0])
    ensures forall i :: 0 <= i < |s| - |r| ==> IsSpace(s[i])
  {
    if s != [] && IsSpace(s[0]) then StripLeft(s[1..]) else s
  }

  function StripRight(s: string): (r: string)
    ensures |r| <= |s| && r == s[..|r|]
    ensures r == [] || !IsSpace(r[|r| - 1])
    ensures forall i :: |r| <= i < |s| ==> IsSpace(s[i])
  {
    if s != [] && IsSpace(s[|s| - 1]) then StripRight(s[..|s| - 1]) else s
  }

  /** `str.strip()`: removes leading and trailing whitespace and nothing else. */
  function Strip(s: string): (r: string)
    ensures r == [] || (!IsSpace(r[0]) && !IsSpace(r[|r| - 1]))
  {
    StripRight(StripLeft(s))
  }

  /** `strip` leaves nothing exactly when every character is whitespace. */
  lemma StripEmpty(s: string)
    ensures Strip(s) == [] <==> forall i :: 0 <= i < |s| ==> IsSpace(s[i])
  {
  }

  /** What `strip` leaves is a piece of the original string. */
  lemma StripOccurs(s: string)
    ensures Occurs(Strip(s), s)
  {
    var left := StripLeft(s);
    var r := StripRight(left);
    assert r == s[|s| - |left|..][..|r|];
    assert OccursAt(r, s, |s| - |left|);
  }

  /** A string that `strip` leaves as it is. */
  predicate IsStripped(s: string) {
    s == [] || (!IsSpace(s[0]) && !IsSpace(s[|s| - 1]))
  }

  /** `lstrip` passes over a leading blank. */
  lemma StripLeftBlank(c: char, s: string)
    requires IsSpace(c)
    ensures StripLeft([c] + s) == StripLeft(s)
  {
    assert ([c] + s)[1..] == s;
  }

  /** `lstrip` stops at a leading non-blank. */
  lemma StripLeftStop(s: string)
    requires s != [] && !IsSpace(s[0])
    ensures StripLeft(s) == s
  {
  }

  /** `rstrip` stops at a trailing non-blank. */
  lemma StripRightStop(s: string)
    requires s != [] && !IsSpace(s[|s| - 1])
    ensures StripRight(s) == s
  {
  }

  lemma StripIdentity(s: string)
    requires IsStripped(s)
    ensures Strip(s) == s
  {
  }

  // ---------------------------------------------------------------------------
  // lower, startswith, substring

  /** ASCII case folding of one character. */
  function LowerChar(c: char): (r: char)
    ensures 'A' <= c <= 'Z' ==> r as int == c as int + 32
    ensures !('A' <= c <= 'Z') ==> r == c
  {
    if 'A' <= c <= 'Z' then (c as int + 32) as char else c
  }

  /** `str.lower()` restricted to ASCII letters. */
  function Lower(s: string): (r: string)
    ensures |r| == |s|
    ensures forall i :: 0 <= i < |s| ==> r[i] == LowerChar(s[i])
  {
    seq(|s|, i requires 0 <= i < |s| => LowerChar(s[i]))
  }

  lemma LowerAppend(a: string, b: string)
    ensures Lower(a + b) == Lower(a) + Lower(b)
  {
  }

  /** `needle in hay` for strings: some slice of `hay` equals `needle`. */
  ghost predicate Occurs(needle: string, hay: string) {
    exists i :: OccursAt(needle, hay, i)
  }

  /** `needle` is the slice of `hay` starting at `i`. */
  ghost predicate OccursAt(needle: string, hay: string, i: int) {
    0 <= i <= |hay| - |needle| && hay[i..i + |needle|] == needle
  }

  /** The substring search, scanning start positions from the left. */
  function Contains(hay: string, needle: string): (b: bool)
    ensures b <==> Occurs(needle, hay)
  {
    if needle <= hay then
      assert OccursAt(needle, hay, 0);
      true
    else if hay == [] then
      false
    else
      var b := Contains(hay[1..], needle);
      OccursInTail(hay, needle);
      b
  }

  /** Past position 0, an occurrence in `hay` is an occurrence in its tail. */
  lemma OccursInTail(hay: string, needle: string)
    requires hay != [] && !(needle <= hay)
    ensures Occurs(needle, hay) <==> Occurs(needle, hay[1..])
  {
    if Occurs(needle, hay[1..]) {
      var i :| OccursAt(needle, hay[1..], i);
      assert hay[i + 1..i + 1 + |needle|] == hay[1..][i..i + |needle|];
      assert OccursAt(needle, hay, i + 1);
    }
    if Occurs(needle, hay) {
      var i :| OccursAt(needle, hay, i);
      assert hay[i..i + |needle|] == hay[1..][i - 1..i - 1 + |needle|];
      assert OccursAt(needle, hay[1..], i - 1);
    }
  }

  /** A needle holding a character the haystack lacks does not occur in it. */
  lemma NotContainsMissingChar(hay: string, needle: string, k: nat)
    requires k < |needle| && needle[k] !in hay
    ensures !Contains(hay, needle)
  {
  }

  // ---------------------------------------------------------------------------
  // split and join on one separator character

  function IndexOf(s: string, c: char): (i: nat)
    requires c in s
    ensures i < |s| && s[i] == c && c !in s[..i]
  {
    if s[0] == c then 0 else 1 + IndexOf(s[1..], c)
  }

  /** `s.rfind(c)`: the position of the last `c`, or None when `c` does not occur. */
  function LastIndexOf(s: string, c: char): (r: Option<nat>)
    ensures r.None? <==> c !in s
    ensures r.Some? ==> r.value < |s| && s[r.value] == c && c !in s[r.value + 1..]
  {
    if s == [] then None
    else if s[|s| - 1] == c then Some(|s| - 1)
    else
      var r := LastIndexOf(s[..|s| - 1], c);
      assert s == s[..|s| - 1] + [s[|s| - 1]];
      r
  }

  /** `sep.join(parts)`. */
  function Join(parts: seq<string>, sep: char): string {
    if |parts| == 0 then ""
    else if |parts| == 1 then parts[0]
    else parts[0] + [sep] + Join(parts[1..], sep)
  }

  /** `s.split(sep)`: the pieces between separators; joining them back gives `s`. */
  function Split(s: string, sep: char): (r: seq<string>)
    ensures |r| >= 1
    ensures forall i :: 0 <= i < |r| ==> sep !in r[i]
    ensures Join(r, sep) == s
    decreases |s|
  {
    if sep !in s then [s]
    else
      var i := IndexOf(s, sep);
      var rest := Split(s[i + 1..], sep);
      var r := [s[..i]] + rest;
      assert r[1..] == rest;
      assert s == s[..i] + [sep] + s[i + 1..];
      r
  }

  /** Splitting a joined list gives the list back when no part contains the separator. */
  lemma {:induction false} SplitJoin(parts: seq<string>, sep: char)
    requires |parts| >= 1
    requires forall i :: 0 <= i < |parts| ==> sep !in parts[i]
    ensures Split(Join(parts, sep), sep) == parts
  {
    if |parts| > 1 {
      var tail := Join(parts[1..], sep);
      SplitJoin(parts[1..], sep);
      SplitCons(parts[0], tail, sep);
      assert [parts[0]] + parts[1..] == parts;
    }
  }

  /** A separator-free head, a separator and a tail split into the head followed by the tail's parts. */
  lemma SplitCons(head: string, tail: string, sep: char)
    requires sep !in head
    ensures Split(head + [sep] + tail, sep) == [head] + Split(tail, sep)
  {
    var s := head + [sep] + tail;
    IndexOfPrefix(head, [sep] + tail, sep);
    assert head + ([sep] + tail) == s;
    assert s[..|head|] == head;
    assert s[|head| + 1..] == tail;
  }

  /** Joining one more part appends the separator and the part. */
  lemma {:induction false} JoinSnoc(parts: seq<string>, last: string, sep: char)
    requires |parts| >= 1
    ensures Join(parts + [last], sep) == Join(parts, sep) + [sep] + last
  {
    if |parts| > 1 {
      JoinSnoc(parts[1..], last, sep);
      assert (parts + [last])[1..] == parts[1..] + [last];
    }
  }

  /** Appending a separator and a separator-free piece adds one part to the split. */
  lemma SplitSnoc(s: string, last: string, sep: char)
    requires sep !in last
    ensures Split(s + [sep] + last, sep) == Split(s, sep) + [last]
  {
    var parts := Split(s, sep);
    JoinSnoc(parts, last, sep);
    SplitJoin(parts + [last], sep);
  }

  lemma {:induction false} IndexOfPrefix(a: string, b: string, c: char)
    requires c !in a && |b| > 0 && b[0] == c
    ensures IndexOf(a + b, c) == |a|
  {
    if a != [] {
      assert (a + b)[1..] == a[1..] + b;
      IndexOfPrefix(a[1..], b, c);
    } else {
      assert a + b == b;
    }
  }

  // ---------------------------------------------------------------------------
  // int() and str() on integers

  function DigitValue(c: char): nat
    requires IsDigit(c)
  {
    c as int - '0' as int
  }

  function DigitChar(d: nat): (c: char)
    requires d < 10
    ensures IsDigit(c) && DigitValue(c) == d
  {
    ('0' as int + d) as char
  }

  /** `str(n)` for a natural number: decimal digits, most significant first, no leading zero. */
  function NatToString(n: nat): (s: string)
    ensures |s| >= 1 && (forall i :: 0 <= i < |s| ==> IsDigit(s[i]))
    decreases n
  {
    if n < 10 then [DigitChar(n)] else NatToString(n / 10) + [DigitChar(n % 10)]
  }

  /** `str(n)` for any integer. */
  function IntToString(n: int): string {
    if n < 0 then "-" + NatToString(-n) else NatToString(n)
  }

  /**
   * The digit body `int()` accepts after the sign: decimal digits, where single underscores may
   * separate two digits.
   */
  predicate IsDigitBody(d: string) {
    && |d| >= 1
    && IsDigit(d[0])
    && IsDigit(d[|d| - 1])
    && (forall i :: 0 <= i < |d| ==> IsDigit(d[i]) || d[i] == '_')
    && (forall i :: 0 <= i < |d| - 1 ==> !(d[i] == '_' && d[i + 1] == '_'))
  }

  /** The value of a digit body, underscores ignored. */
  function BodyValue(d: string): nat
    requires forall i :: 0 <= i < |d| ==> IsDigit(d[i]) || d[i] == '_'
  {
    if d == [] then 0
    else if d[|d| - 1] == '_' then BodyValue(d[..|d| - 1])
    else BodyValue(d[..|d| - 1]) * 10 + DigitValue(d[|d| - 1])
  }

  /** `int(s)`: surrounding whitespace, an optional sign, then a digit body; anything else raises. */
  function ParseInt(s: string): Option<int> {
    var t := Strip(s);
    var body := if t != [] && (t[0] == '-' || t[0] == '+') then t[1..] else t;
    if !IsDigitBody(body) then None
    else if t[0] == '-' then Some(-(BodyValue(body) as int))
    else Some(BodyValue(body))
  }

  /** The message of the `ValueError` that `int(s)` raises on a string it cannot read. */
  function IntError(s: string): string {
    "invalid literal for int() with base 10: '" + s + "'"
  }

  lemma {:induction false} NatToStringValue(n: nat)
    ensures BodyValue(NatToString(n)) == n
    decreases n
  {
    var s := NatToString(n);
    if n >= 10 {
      assert s[..|s| - 1] == NatToString(n / 10);
      NatToStringValue(n / 10);
    }
  }

  /** `int(str(n)) == n`. */
  lemma IntRoundTrip(n: int)
    ensures ParseInt(IntToString(n)) == Some(n)
  {
    var m: nat := if n < 0 then -n else n;
    var digits := NatToString(m);
    var s := IntToString(n);
    IntToStringStripped(n);
    DigitsAreBody(digits);
    NatToStringValue(m);
    assert (if s[0] == '-' || s[0] == '+' then s[1..] else s) == digits;
  }

  /** `str(n)` has no surrounding whitespace. */
  lemma IntToStringStripped(n: int)
    ensures Strip(IntToString(n)) == IntToString(n)
  {
    var m: nat := if n < 0 then -n else n;
    var s := IntToString(n);
    assert s == (if n < 0 then "-" else "") + NatToString(m);
    assert IsDigit(s[|s| - 1]);
    StripIdentity(s);
  }

  /** A run of decimal digits is a digit body `int()` accepts. */
  lemma DigitsAreBody(d: string)
    requires |d| >= 1 && forall i :: 0 <= i < |d| ==> IsDigit(d[i])
    ensures IsDigitBody(d)
  {
  }

  // ---------------------------------------------------------------------------
  // lexicographic order

  /** Python's `<` on `str` (and SQLite's BINARY collation): first differing code point decides, a proper prefix is smaller. */
  predicate LexLess(a: string, b: string)
    decreases |a|
  {
    if a == [] then b != []
    else if b == [] then false
    else if a[0] != b[0] then a[0] < b[0]
    else LexLess(a[1..], b[1..])
  }

  /** `a <= b` for strings. */
  predicate LexLe(a: string, b: string) {
    !LexLess(b, a)
  }

  lemma {:induction false} LexLessIrreflexive(a: string)
    ensures !LexLess(a, a)
  {
    if a != [] {
      LexLessIrreflexive(a[1..]);
    }
  }

  lemma {:induction false} LexLessAsymmetric(a: string, b: string)
    ensures !(LexLess(a, b) && LexLess(b, a))
    decreases |a|
  {
    if a != [] && b != [] && a[0] == b[0] {
      LexLessAsymmetric(a[1..], b[1..]);
    }
  }

  lemma {:induction false} LexLessTransitive(a: string, b: string, c: string)
    requires LexLess(a, b) && LexLess(b, c)
    ensures LexLess(a, c)
    decreases |a|
  {
    if a != [] && b != [] && c != [] && a[0] == b[0] && b[0] == c[0] {
      LexLessTransitive(a[1..], b[1..], c[1..]);
    }
  }

  lemma {:induction false} LexLessTrichotomy(a: string, b: string)
    ensures LexLess(a, b) || a == b || LexLess(b, a)
    decreases |a|
  {
    if a != [] && b != [] && a[0] == b[0] {
      LexLessTrichotomy(a[1..], b[1..]);
      if a[1..] == b[1..] {
        assert a == [a[0]] + a[1..] && b == [b[0]] + b[1..];
      }
    }
  }

  /** `<=` on strings is a total preorder (indeed a total order). */
  lemma LexLeTotalTransitive(a: string, b: string, c: string)
    ensures LexLe(a, b) || LexLe(b, a)
    ensures LexLe(a, b) && LexLe(b, c) ==> LexLe(a, c)
  {
    LexLessAsymmetric(a, b);
    if LexLe(a, b) && LexLe(b, c) && LexLess(c, a) {
      LexLessTrichotomy(a, b);
      LexLessTrichotomy(b, c);
      if a == b {
        assert false;
      } else if b == c {
        assert false;
      } else {
        LexLessTransitive(c, a, b);
        assert false;
      }
    }
  }

  /** `a <= b < c` gives `a < c`. */
  lemma LexLeLess(a: string, b: string, c: string)
    requires LexLe(a, b) && LexLess(b, c)
    ensures LexLess(a, c)
  {
    LexLessTrichotomy(a, b);
    if LexLess(a, b) {
      LexLessTransitive(a, b, c);
    }
  }
}

=== FILE: wrappers.dfy ===
/** Option and Result types standing in for Python's `None` returns and raised exceptions. */
module Wrappers {

  datatype Option<+T> = None | Some(value: T) {

    /** Returns the value in Some or the given default, like `dict.get(key, default)`. */
    function GetOr(default: T): T {
      match this
      case Some(v) => v
      case None => default
    }
  }

  /** The outcome of an operation that may raise: Failure carries the exception's message. */
  datatype Result<+T> = Success(value: T) | Failure(error: string) {

    predicate IsFailure() {
      Failure?
    }

    function PropagateFailure<U>(): Result<U>
      requires Failure?
    {
      Failure(error)
    }

    function Extract(): T
      requires Success?
    {
      value
    }
  }
}
